=== FILE: README.md ===
# NRS scoring engine: a Dafny model

This project models the core of `nrs-lib-ts`, the TypeScript library that
scores anime, games and other works ("entries") under the NRS rules. An entry
can contain other entries. An **impact** gives a score vector to a weighted
set of contributing entries. A **relation** makes contributors' scores depend
on the scores of referenced entries, through a matrix. The library computes,
for every entry, a total impact vector, a total relation vector and their
sum, the overall vector. Extensions then post-process the results.

The library ships two engines, and both are modelled.

**The `src/process.ts` engine** (modules `Flatten`, `Contain`, `Scores`,
`RelationScore`, `Reoccurrence`, `Process`, `EngineContext`) runs in four
steps:

1. It resolves containment. Each entry's contained entries are flattened
   transitively, multiplying weights along the way. A containment cycle and
   an unknown child are both errors.
2. Every impact is spread to its contributors and to everything they contain,
   each copy scaled by a diagonal "buff" matrix built from the weight. Each
   entry's list of vectors is combined factor by factor.
3. Each relation is attached to everything its contributors reach. An
   entry's relation score is computed recursively. It uses the referenced
   entries' impact and relation scores, and a `ReoccurrenceStack` bounds the
   recursion to eight visits per entry. A reference to an existing entry that
   no impact reaches has no impact score, so `ref.impactScore!` is undefined
   (`src/process.ts:425-428`); the model returns the error
   `MissingImpactScore` with that entry's id for it.
4. It builds the results.

**The `src/core.ts` engine** (`CoreContain`, `CoreEngine`) follows the same
plan, with these differences:

- It visits each entry at most once per path, so a containment cycle is
  silently cut instead of reported.
- Every added containment weight is clamped at one.
- Its relation pass never adds a computed reference score to the list it
  combines. So every entry's relation score is the combination of the empty
  list. `CoreEngine.CoreProcessSpec` states this as the code has it.

**Shared parts:**

- the vector and matrix arithmetic of `src/math.ts` (`LinAlg`). `src/core.ts`
  uses these classes directly. The process engine imports `add`, `mul`,
  `Matrix` and `Vector` from a `math.ts` that does not export them. The model
  takes its `add` to be `NRSCoreVector.add_assign` and its `mul` to be the
  `mul` of the diagonal and regular matrices (see "## Left out");
- the signed combine of `src/utils.ts` (`Utils`) and the power-sum combine of
  `DAH_combine_pp` (`CombinePP`);
- the factor tables of both `DAH_factors` files (`Factors`, `SrcFactors`);
- `indexEntry` (`Data`);
- the metadata-slot extensions (`MetaSlots`);
- the JSON converters of both `DAH_serialize_json` files (`JsonCodec`,
  `SrcJson`);
- the `DAH_overall_score` and `DAH_anime_normalize` post-processors
  (`OverallScore`, `AnimeNormalize`).

**Modelling choices:**

- Numbers are `real`.
- A JavaScript `Map` or a plain object is an association list
  `seq<(string, V)>` in insertion order:
  - `map.set` / property assignment is `Assoc.Set`;
  - `new Map(list)` and `Object.fromEntries` are `Assoc.FromEntries`, where a
    later duplicate key overwrites the value and keeps the position.
- Maps the engines derive internally are Dafny `map`s.
- A thrown exception is an `Err` of a `Result`.
- `Math.pow`, which the buff matrix uses, is a function parameter, and so is
  the configured combine function.

Neither engine has a strongly-connected-component or linear solver.
Containment is a depth-first walk with an explicit stack
(`src/process.ts:213-259`, `src/core.ts:202-234`). Relation cycles are cut by
bounded recursion (`src/process.ts:369-455`, `src/core.ts:291-321`).

## Model

| member | source | states |
|---|---|---|
| Flatten.IsNullEntryId | src/process.ts:208-211 | an id is a null entry exactly when the marker occurs somewhere inside it |
| Flatten.AddResolved | src/process.ts:269-271 | adding a resolved child adds its weight for the child and weight times the child's own weight for every entry the child contains, and touches no other key |
| Flatten.FlattenFrom | src/process.ts:273-287 | the loop fails only in throwing mode, exactly when some child is unresolved; the error names the first such child |
| Flatten.FlattenFromStep | src/process.ts:273-287 | one step of the loop adds exactly the first child's resolved contribution, or skips an unresolved child |
| Flatten.FlattenFromKeys | src/process.ts:262-290 | the flattened map's keys are the accumulator's keys plus every child reached and everything it contains |
| Flatten.FlattenFromValue | src/process.ts:262-290 | the flattened weight of each entry is the accumulator's weight plus the sum of its contributions over all children |
| Flatten.FlattenErrorShift | src/process.ts:273-287 | the error reported for the tail of the child list is still the first unresolved child of the whole list |
| Flatten.FlattenContainContribGraph | src/process.ts:262-290 | the result reaches exactly the children and their descendants, and each weight is the summed path contribution; it fails only in throwing mode, exactly when a child is unresolved |
| Flatten.FlattenFrame | src/process.ts:262-290 | flattening depends only on the lookup entries of the listed children |
| Contain.IndexOf | src/process.ts:226-232 | the index found is the first position of the id on the stack |
| Contain.RecordKeepsInvariant | src/process.ts:235-251 | storing a solved entry, and mirroring it into the parents map, keeps the solver invariant |
| Contain.RecordSolved | src/process.ts:235-245 | storing a solved entry keeps every stored map equal to the flattening of its children |
| Contain.RecordMirror | src/process.ts:249-251 | after storing, parents[d][e] equals memo[e][d] for every stored pair |
| Contain.FlattenSingle | src/process.ts:218-254 | solving one entry keeps the invariant, only adds entries, stores the returned map for the entry, never stores an entry still on the stack, and every error is a real cycle or unknown child |
| Contain.CycleOnStack | src/process.ts:226-232 | a child already on the stack closes a containment cycle, from its position on the stack to the top |
| Contain.AfterChildren | src/process.ts:234-251 | once all children are solved, storing the entry's flattening keeps the invariant and adds only the entry itself |
| Contain.FlattenKids | src/process.ts:234-245 | pushing the children one by one solves every known child, and the accumulated map is their flattening |
| Contain.InitialState | src/process.ts:213-221 | the empty state meets the invariant |
| Contain.SolveFrom | src/process.ts:256-258 | the outer loop stores every entry, with the invariant kept; every error is sound |
| Contain.SolveContainWeights | src/process.ts:213-259 | on success, every entry is stored with its flattening and parents mirrors memo; every error is a real cycle or an unknown child |
| Contain.ChildInSolved | src/process.ts:234-245 | in a solved store a known child is contained by its parent, and everything it contains is contained by the parent too |
| Contain.PathDescends | src/process.ts:234-245 | along a containment path, every later entry is contained by every earlier one |
| Contain.NoCycleWhenSolved | src/process.ts:226-232 | a fully solved store admits no containment cycle |
| Contain.NoInvalidChildWhenSolved | src/process.ts:235-245 | a fully solved store admits no unknown child |
| Contain.SolveContainWeightsSucceeds | src/process.ts:213-259 | solving succeeds exactly when there is no containment cycle and no unknown child |
| Scores.NewZeroVectorAsWritten | src/process.ts:300-302 | `new Array(n)` holds n holes, not zeros |
| Scores.NewZeroVector | src/process.ts:300-302 | the intended zero vector: n zeros, one per factor |
| Scores.Column | src/process.ts:304-314 | the i-th column holds the i-th value of every vector, in order |
| Scores.CombineVectors | src/process.ts:304-314 | each factor of the result is the combine of that factor's column with that factor's weight |
| Scores.CombineVectorsLoop | src/process.ts:304-314 | the loop computes the combined vector |
| Scores.CombineVectorsPP | src/exts/DAH_combine_pp.ts:4-12 | under the power-sum combine, no vectors give zeros and one vector comes back unchanged |
| Scores.BuffWeight | src/process.ts:316-323 | the buff matrix is diagonal with one entry per factor |
| Scores.BuffWeightMul | src/process.ts:316-323 | buffing succeeds exactly on vectors with one value per factor and multiplies each factor by its buff entry |
| Scores.AddImpact | src/process.ts:331-345 | one impact of `calcImpactScore`; stated by `Scores.AddImpactOk` and `Scores.AddImpactSpec` |
| Scores.AddImpactOk | src/process.ts:331-345 | spreading one impact succeeds exactly when every contributor is resolved and the score is factor-sized |
| Scores.AddImpactSpec | src/process.ts:331-345 | spreading one impact appends one buffed vector to the list of each entry the impact reaches; the buff uses the flattened weight, which sums the paths from every contributor |
| Scores.DistributeImpacts | src/process.ts:331-345 | the impact loop of `calcImpactScore`; stated by `Scores.DistributeImpactsOk`, `Scores.DistributeImpactsSpec` and `Scores.DistributeImpactsKeys` |
| Scores.DistributeImpactsOk | src/process.ts:331-345 | spreading every impact succeeds exactly when each impact fits |
| Scores.DistributeImpactsSpec | src/process.ts:331-345 | each entry's list is the concatenation, impact by impact, of the vectors that reach it |
| Scores.DistributeImpactsKeys | src/process.ts:331-345 | only solved entries receive vectors |
| Scores.CalcImpactScore | src/process.ts:325-350 | succeeds exactly when every impact fits; exactly the entries some impact reaches get a score, and it is the combination of their vectors |
| Scores.CollectedLists | src/process.ts:331-345 | the collected lists are exactly the non-empty per-entry vector lists |
| Scores.ListsNonEmpty | src/process.ts:331-345 | an entry present in the collected lists has at least one vector |
| Scores.AddRelation | src/process.ts:357-366 | one relation of `fillRelationReferences`; stated by `Scores.AddRelationSpec` |
| Scores.FillRelationReferences | src/process.ts:352-368 | `fillRelationReferences`; stated by `Scores.FillRelationReferencesOk` and `Scores.FillRelationReferencesSpec` |
| Scores.FillRelationReferencesOk | src/process.ts:352-368 | attaching relations succeeds exactly when every contributor of every relation is resolved |
| Scores.AddRelationSpec | src/process.ts:352-368 | one pair is appended to the list of each entry the relation reaches: the relation with the flattened weight, which sums the paths from every contributor |
| Scores.FillRelationReferencesSpec | src/process.ts:352-368 | each entry's relation list is the concatenation, relation by relation, of the pairs that reach it |
| Reoccurrence.NewStack | src/process.ts:373-376 | a fresh counter is valid and counts nothing |
| Reoccurrence.Push | src/process.ts:378-382 | push raises the id's count by one and no other count, and reports whether the count is still within the bound |
| Reoccurrence.Pop | src/process.ts:384-395 | pop fails exactly when the id is not counted; otherwise it lowers that count by one and no other |
| Reoccurrence.PushThenPop | src/process.ts:378-395 | a pop after a push restores the counter exactly |
| Reoccurrence.PushLowersSlack | src/process.ts:378-382 | an accepted push lowers the remaining room for recursion, which bounds the recursion |
| Reoccurrence.SlackFrame | src/core.ts:142-169 | the remaining room depends only on the counts of the listed ids |
| RelationScore.Lift | src/process.ts:414-437 | a math failure becomes an engine error carrying it, and a success passes through |
| RelationScore.CalcSingle | src/process.ts:403-450 | an entry over the visit bound scores the combination of nothing; any result leaves the counter as it found it and is factor-sized; errors are sound, and well-formed input never fails |
| RelationScore.RelLoop | src/process.ts:412-444 | the loop yields one buffed vector per relation with a live reference, factor-sized, and leaves the counter unchanged |
| RelationScore.BuffScore | src/process.ts:439-443 | a present reference sum gives exactly one buffed vector, an absent one none |
| RelationScore.RefLoop | src/process.ts:414-437 | the reference sum is present exactly when a reference was live; the counter comes back unchanged; well-formed input never fails |
| RelationScore.CalcAll | src/process.ts:452-454 | every entry gets a factor-sized relation score, and well-formed input never fails |
| RelationScore.CalcRelationScore | src/process.ts:398-455 | exactly the entries get relation scores, each factor-sized; errors are sound; well-formed input never fails |
| RelationScore.NoRelationsScoreZero | src/process.ts:403-450 | example: under the power-sum combine, an entry with no relations, or over the bound, scores zero |
| RelationScore.SingleReference | src/process.ts:403-450 | example: one relation with one reference to a relation-free entry scores the buffed product of the matrix and that entry's impact |
| RelationScore.SingleRefSum | src/process.ts:414-437 | example: a single reference to a relation-free entry sums to the matrix times that entry's impact |
| RelationScore.SingleRelationScore | src/process.ts:439-443 | example: one relation whose references sum to a score contributes exactly that score, buffed by the relation's weight |
| Process.ResultAsWritten | src/process.ts:474-481 | as written, with an impact score the overall vector is the factor-wise sum of impact and relation |
| Process.ResultAsWrittenLosesRelation | src/process.ts:474-481 | as written, an entry no impact reaches gets holes in its overall vector instead of its relation score |
| Process.EntryResult | src/process.ts:474-481 | corrected: a missing impact is zeros, and the overall vector is the sum of the total impact and total relation |
| Process.EntryResultCorrects | src/process.ts:474-481 | the corrected result keeps every value the as-written code gets right, and gives an unreached entry its relation score |
| Process.ProcessResults | src/process.ts:468-484 | corrected: there is one result per entry id, built with `Process.EntryResult` from its impact score (zeros when no impact reaches it) and its relation score |
| Process.ImpactTotal | src/process.ts:325-350 | an entry's total impact is factor-sized |
| Process.ProcessContext | src/process.ts:188-206 | corrected (results built with `Process.EntryResult`): a containment error is returned unchanged; on success every entry has a result whose overall vector is total impact plus total relation |
| Process.ScorePhases | src/process.ts:201-205 | the phases after containment: on success every entry has a result whose overall vector is total impact plus total relation |
| Process.ProcessContextSound | src/process.ts:188-206 | success implies no containment cycle, no unknown child, every impact and relation fits, and each total impact is the combination of the vectors reaching the entry |
| EngineContext.MissingOf | src/process.ts:83-88 | the missing list holds exactly the dependencies that are not enabled |
| EngineContext.SlotMetSpec | src/process.ts:76-97 | a slot is satisfied when it is disabled or all its dependencies are enabled |
| EngineContext.FirstUnmet | src/process.ts:76-97 | the index found is the first extension whose dependencies are unmet |
| EngineContext.CheckDependencies | src/process.ts:76-97 | the check passes exactly when every enabled extension's dependencies are enabled; the error names the first failing extension and its missing dependencies |
| EngineContext.CheckExtensionDependencies | src/process.ts:76-97 | the check passes exactly when all dependencies are met |
| EngineContext.NewContext | src/process.ts:144-171 | the combine function comes from `DAH_combine_pp`, else `DAH_combine_pow`, else the configuration; the weights come from `src/exts/DAH_factors.ts`, else the configuration; it fails with the first missing piece, in that order: `WeightsNotSpecified` exactly when a combine function is found but no weights, and otherwise the dependency error when the dependency check fails |
| CoreContain.Min1 | src/core.ts:124 | the clamp is the smaller of the value and one |
| CoreContain.AddClamped | src/core.ts:117-127 | adding a weight stores the clamped sum under the id and leaves every other key as it was |
| CoreContain.AddClampedBounded | src/core.ts:130-140 | clamped addition keeps every weight at most one |
| CoreContain.AddClampedNonNegative | src/core.ts:117-127 | two non-negative additions clamp to the clamped total, whatever their order |
| CoreContain.AddClampedOrderMatters | src/core.ts:117-127 | example: with mixed signs the clamped result depends on the order of the additions |
| CoreContain.AddScaled | src/core.ts:222-224 | adding a child's scaled map covers the child's keys, keeps weights at most one and keeps keys distinct; its values are stated by `CoreContain.AddScaledWeight` |
| CoreContain.AddScaledWeight | src/core.ts:222-224 | with a duplicate-free child map, each id of the child's map stores its old weight plus the child's weight times its weight in the child's map, clamped at one; every other id keeps its weight |
| CoreContain.Min1Nested | src/core.ts:117-127 | with a non-negative second delta, clamping after the first addition changes nothing once the second is added and clamped |
| CoreContain.Accumulate | src/core.ts:218-224 | a child adds its own id and, unless it is the entry itself, the ids it contains; weights stay at most one; its values are stated by `CoreContain.AccumulateWeight` |
| CoreContain.AccumulateWeight | src/core.ts:218-224 | the child's id gains the child's weight, clamped; then each id of the child's map gains the child's weight times its weight there, clamped; for a self-loop the map read is the entry's own map after the child's weight was added |
| CoreContain.StartKeeps | src/core.ts:202-228 | starting an entry with an empty map keeps every stored map bounded and known |
| CoreContain.AccumulateChild | src/core.ts:213-225 | accumulating a child changes only the parent's map and keeps all maps bounded and known |
| CoreContain.SolveSingle | src/core.ts:202-228 | solving stores the entry and keeps earlier maps; an unknown child is the only possible error when each entry is visited at most once, and known children guarantee success |
| CoreContain.ChildLoop | src/core.ts:212-225 | the child loop keeps other maps and the counter, and fails only on an unknown child when each entry is visited at most once |
| CoreContain.SolveFrom | src/core.ts:230-234 | the loop stores every entry, and fails exactly on an unknown child |
| CoreContain.SolveContainWeight | src/core.ts:230-234 | solving succeeds exactly when every child is known, even with cycles, and every stored weight is at most one |
| CoreEngine.Base | src/core.ts:83-103 | the base vector is the combine of no values, factor by factor |
| CoreEngine.FillContributorMap | src/core.ts:236-253 | filling succeeds exactly when every contributor is known; the keys are the contributors and everything they contain; weights stay at most one; the error names an unknown contributor; its values are stated by `CoreEngine.FillContributorWeight` |
| CoreEngine.FillContributorWeight | src/core.ts:236-253 | for non-negative weights, each id stores the starting weight plus, over all contributors, the contributor's weight if it is the id and the contributor's weight times the id's weight in its contain map, clamped at one; an id no contributor reaches keeps its starting weight |
| CoreEngine.ContributorMapSpec | src/core.ts:236-253 | a filled contributor map has no duplicate keys, keeps weights at most one, and covers only known entries |
| CoreEngine.AppendEach | src/core.ts:255-289 | appending succeeds exactly when every reached id is known and each product succeeds; entries not reached keep their lists |
| CoreEngine.AppendEachDistinct | src/core.ts:255-289 | a reached entry's list gains exactly its one product |
| CoreEngine.Distribute | src/core.ts:255-289 | distributing succeeds only when every job's contributors are known, and every error is sound |
| CoreEngine.DistributeProduced | src/core.ts:255-289 | every listed value was produced by some job |
| CoreEngine.DistributeOk | src/core.ts:255-289 | known contributors and total products guarantee success |
| CoreEngine.DistributeCount | src/core.ts:255-289 | each entry's list grows by the number of jobs that reach it |
| CoreEngine.DistributeCountAll | src/core.ts:255-289 | from empty lists, each entry's list length is the number of jobs that reach it |
| CoreEngine.DistributeStep | src/core.ts:255-289 | a successful distribution is the first job's round followed by the distribution of the rest |
| CoreEngine.AppendEachReach | src/core.ts:259-267 | one job's round appends to an entry's list exactly the value made from the entry's weight in the job's contributor map, when the map reaches it |
| CoreEngine.DistributeReceived | src/core.ts:255-289 | each entry's list becomes its old list followed by one value per reaching job, in job order, each made from the entry's weight in that job's contributor map |
| CoreEngine.BuffImpact | src/core.ts:264-265 | `buffWeight(w).mul(score)` succeeds exactly when the product exists and the score is factor-sized; with a factor-sized diagonal or regular buff, exactly when the score is factor-sized; every failure is a math failure |
| CoreEngine.ImpactJobs | src/core.ts:255-273 | each impact's job multiplies the buff of the weight with the impact's score |
| CoreEngine.ImpactJobsMake | src/core.ts:255-273 | every impact product is a buffed impact score and factor-sized; only math failures can occur; fitting buffs and factor-sized scores never fail |
| CoreEngine.CoreImpactScore | src/core.ts:255-273 | for any impact scores: every entry gets a factor-sized impact score, and one no impact reaches gets the base vector; the only errors are an unknown contributor and a math failure |
| CoreEngine.DistributeMakes | src/core.ts:255-289 | a successful distribution made a value from every weight of every job's contributor map |
| CoreEngine.CoreImpactScoreSized | src/core.ts:255-273 | with factor-sized diagonal or regular buffs, a successful impact phase had a factor-sized score for every impact with contributors, since `mul` throws otherwise |
| CoreEngine.CoreImpactScoreOk | src/core.ts:255-273 | known contributors and a fitting buff guarantee success |
| CoreEngine.ReceivedImpacts | src/core.ts:255-266 | jobs that buff each impact's score receive, entry by entry, exactly the impacts' `ImpactsReceived` list |
| CoreEngine.ImpactScoreCount | src/core.ts:255-273 | an entry's impact score is the combine of the list that holds, in impact order, `buffWeight(w).mul(impact.score)` for every impact whose contributor map reaches the entry, with `w` the entry's weight in that map |
| CoreEngine.RelationJobs | src/core.ts:275-289 | each relation's job pairs the relation with the buff of the weight |
| CoreEngine.FillRelationLists | src/core.ts:275-289 | filling relation lists fails only on an unknown contributor |
| CoreEngine.ReceivedRelations | src/core.ts:275-289 | jobs that pair each relation with its buff receive, entry by entry, exactly the relations' `RelationsReceived` list |
| CoreEngine.FillRelationListsSpec | src/core.ts:275-289 | filling succeeds exactly when contributors are known; each entry's list is, in relation order, the pair `[relation, buffWeight(w)]` for every relation whose contributor map reaches it, with `w` the entry's weight in that map |
| CoreEngine.CoreRelationPhase | src/core.ts:275-321 | the relation lists and relation scores: on success every entry has a factor-sized relation score |
| CoreEngine.CoreCalcSingle | src/core.ts:291-315 | returns the base vector for every entry, because computed reference scores are never added to the list it combines; only the entry and the entries its relations reference may have their stored scores changed; the counter is restored; well-formed input never fails |
| CoreEngine.CoreRelLoop | src/core.ts:297-310 | walking an entry's relations restores the counter and keeps scores factor-sized |
| CoreEngine.CoreRefLoop | src/core.ts:298-307 | walking the references restores the counter, changes only referenced entries and never fails on well-formed input |
| CoreEngine.CoreCalcAll | src/core.ts:317-321 | every entry ends up with a score; an unreferenced entry's score, and the last entry's, is the base vector |
| CoreEngine.CoreProcess | src/core.ts:323-343 | a containment error is returned unchanged; on success every entry has a result whose overall vector is total impact plus total relation |
| CoreEngine.CoreResults | src/core.ts:329-340 | there is one result per entry with empty metadata, and the overall vector is the sum |
| CoreEngine.CoreProcessImpactsSized | src/core.ts:323-343 | with factor-sized diagonal or regular buffs, `process()` fails unless every impact with contributors has a factor-sized score |
| CoreEngine.CoreProcessSpec | src/core.ts:323-343 | success implies known contributors; an unreached entry's impact is the base vector; an unreferenced entry's relation, and the last entry's, is the base vector |
| CoreEngine.CycleEnginesDiffer | src/core.ts:202-228 | on a containment cycle with known children, the core engine succeeds and the process engine reports the cycle |
| LinAlg.Isqrt | src/math.ts:56 | the integer square root is the largest k whose square is at most n |
| LinAlg.IsqrtOfSquare | src/math.ts:55-64 | the square root of a perfect square is its root |
| LinAlg.Add | src/math.ts:16-28 | addition succeeds exactly on equal lengths and adds factor by factor; otherwise it reports both lengths |
| LinAlg.AddCommutesWithZero | src/math.ts:16-28 | addition is commutative, and zeros are its identity |
| LinAlg.AddAssociates | src/math.ts:16-28 | addition is associative |
| LinAlg.AddAssign | src/math.ts:16-28 | the in-place loop computes the sum |
| LinAlg.Scale | src/math.ts:30-36 | scaling keeps the length and multiplies every factor by the scale factor |
| LinAlg.ScaleLaws | src/math.ts:30-36 | scaling distributes over addition, and scaling by one is the identity |
| LinAlg.Dot | src/math.ts:38-44 | the dot product is defined exactly when the other vector is at least as long |
| LinAlg.DotLaws | src/math.ts:38-44 | the dot product is symmetric and reads only the first entries |
| LinAlg.DotLoop | src/math.ts:38-44 | the loop computes the dot product |
| LinAlg.NewRegularFromEntries | src/math.ts:55-64 | the constructor accepts exactly a perfect-square number of entries and keeps them as they are |
| LinAlg.IndexIsRowMajor | src/math.ts:79-85 | entry (i, j) is stored at i * n + j |
| LinAlg.Row | src/math.ts:79-85 | row i holds the entries (i, j) in column order |
| LinAlg.MulRegular | src/math.ts:70-88 | the product succeeds exactly on matching dimensions, and each result factor is the dot of the row with the vector |
| LinAlg.MulRegularLoop | src/math.ts:70-88 | the nested loop computes the product |
| LinAlg.MulDiagonal | src/math.ts:104-118 | the product succeeds exactly on matching dimensions, and each result factor is the diagonal entry times the vector's factor |
| LinAlg.RegularWithZeroOffDiagonal | src/math.ts:104-118 | a regular matrix that is zero off its diagonal multiplies like the diagonal matrix |
| LinAlg.Mul | src/math.ts:70-118 | the product dispatches on the matrix kind, and scalar matrices scale |
| LinAlg.ConcatSquare | src/math.ts:147-160 | concatenated rows put row i, column j at i * n + j |
| LinAlg.FirstBadRow | src/math.ts:153-157 | the index found is the first row whose length differs from the row count |
| LinAlg.NewRegularMatrix | src/math.ts:125-163 | a flat list needs a non-empty perfect square; a vector array and a 2D array go through the row check |
| LinAlg.RegularFromRows | src/math.ts:147-160 | rows succeed exactly when non-empty and square; the error names a bad row |
| LinAlg.RegularInputFormsAgree | src/math.ts:125-163 | the three input forms build the same matrix from the same square rows |
| LinAlg.NewDiagonalMatrix | src/math.ts:165-175 | a diagonal matrix is built from its values, and only an empty number array is rejected |
| Utils.Signed | src/utils.ts:3-14 | the signed combine; its laws are stated by `Utils.SignedIgnoresZero`, `Utils.SignedAntisymmetric` and `Utils.SignedAllPositive` |
| Utils.Positives | src/utils.ts:7 | the positive filter keeps exactly the positive values |
| Utils.NegativesAbs | src/utils.ts:8 | the negative filter keeps exactly the absolute values of the negative values |
| Utils.SignedIgnoresZero | src/utils.ts:3-14 | a zero anywhere in the input does not change the signed combine |
| Utils.SignedAntisymmetric | src/utils.ts:3-14 | negating every value negates the signed combine |
| Utils.SignedAllPositive | src/utils.ts:3-14 | on all-positive values the signed combine is the unsigned one minus its value on nothing |
| Utils.Assert | src/utils.ts:16-23 | the assertion fails exactly when the condition is false, with the given message or "Assertion failed" |
| Utils.IfDefined | src/utils.ts:25-34 | the callback's result comes back exactly when the value is defined |
| CombinePP.CombineUnsigned | src/exts/DAH_combine_pp.ts:4-12 | an empty list sums to zero, and a single value sums to itself |
| CombinePP.CombineUnsignedLoop | src/exts/DAH_combine_pp.ts:4-12 | the loop computes the power-weighted sum |
| CombinePP.CombineUnsignedAppend | src/exts/DAH_combine_pp.ts:7-10 | appending x adds x times the weight to the power of the old length |
| CombinePP.CombineUnsignedNonNegative | src/exts/DAH_combine_pp.ts:4-12 | non-negative values under a non-negative weight sum to at least zero |
| CombinePP.MakeCombineFunction | src/exts/DAH_combine_pp.ts:21-23 | the extension's combine is the signed form of the power-weighted sum |
| CombinePP.CombineSingle | src/exts/DAH_combine_pp.ts:21-23 | a single value combines to itself |
| Factors.GetFactorCombineWeightVector | exts/DAH_factors.ts:99-101 | the weight vector has 11 weights, in factor order, each in (0, 1] |
| Factors.FactorIndexIsPosition | exts/DAH_factors.ts:104-116 | each factor's index is its position in the factor list |
| Factors.ShortNamesDistinct | exts/DAH_factors.ts:26-34 | short names are non-empty, comma-free and pairwise distinct |
| Factors.GroupIndices | exts/DAH_factors.ts:36-69 | a group's index list holds its factors' indices in order |
| Factors.GroupsPartition | exts/DAH_factors.ts:36-69 | the four groups read indices 0-5, 6-8, 9 and 10, covering the vector once in order |
| SrcFactors.GetFactorCombineWeightVector | src/exts/DAH_factors.ts:76-80 | this weight vector equals the other `DAH_factors` one, each weight in (0, 1] |
| SrcFactors.FactorTablesConsistent | src/exts/DAH_factors.ts:17-58 | both factor tables agree on every index, and the groups cover 0 to 10 in order |
| Data.IndexEntry | src/data.ts:39-44 | `indexEntry`; its keys and values are stated by `Data.IndexEntrySpec` |
| Data.IdPairs | src/data.ts:39-44 | each entry is paired with its own id, in order |
| Data.IndexEntrySpec | src/data.ts:39-44 | the index has each id once; each id maps to the last entry with that id, in first-seen order |
| MetaSlots.AppendToSlot | exts/DAH_validator_suppress.ts:10-23 | a missing slot becomes a one-rule list and a list slot gains the rule; a non-list slot is an error |
| MetaSlots.AppendToSlotSpec | src/exts/DAH_validator_suppress.ts:10-21 | the slot's rules gain exactly the new rule at the end, and no other property changes |
| MetaSlots.ValidatorSuppressRule | src/exts/DAH_validator_suppress.ts:10-21 | suppressing appends the rule to the validator-suppress slot |
| MetaSlots.EntryQueueRuleAsWritten | exts/DAH_entry_queue.ts:10-23 | as written, the rule goes to the entry-queue slot only when the validator-suppress slot is missing; otherwise it is appended to the validator-suppress list |
| MetaSlots.EntryQueueLosesRules | exts/DAH_entry_queue.ts:11-19 | as written, queuing two rules keeps only the second |
| MetaSlots.EntryQueueRule | exts/DAH_entry_queue.ts:10-23 | corrected: queuing appends the rule to the entry-queue slot |
| MetaSlots.EntryQueueKeepsRules | exts/DAH_entry_queue.ts:10-23 | corrected: queuing two rules keeps both in order and leaves the validator-suppress slot alone |
| Assoc.FromEntries | src/exts/DAH_serialize_json.ts:44-50 | building a map has the same keys, each once, and a list without duplicates comes back unchanged |
| Assoc.MapValues | exts/DAH_serialize_json.ts:141-150 | mapping values keeps each key in place and applies the function to its value |
| Assoc.MapValuesGet | exts/DAH_serialize_json.ts:141-150 | a mapped lookup is the function applied to the original lookup |
| Assoc.Get | src/data.ts:39-44 | a lookup finds a value exactly when the key is present |
| Assoc.Set | src/data.ts:39-44 | setting adds the key if absent, and keeps existing keys in place |
| Assoc.SetGet | src/data.ts:39-44 | after a set, the key reads the new value and every other key reads as before |
| Assoc.SetAll | src/data.ts:39-44 | setting a list adds exactly its keys |
| Assoc.SetAllGet | src/data.ts:39-44 | after setting a list, each key reads its last value in the list, and unlisted keys read as before |
| JsonCodec.ShortNameInjective | exts/DAH_serialize_json.ts:41-47 | different factors have different JSON names |
| JsonCodec.CommaJoinDistinct | exts/DAH_serialize_json.ts:51-55 | comma-joined keys of comma-free names are distinct |
| JsonCodec.KeyInjective | exts/DAH_serialize_json.ts:51-55 | different matrix cells have different JSON keys |
| JsonCodec.DiagonalObjectGet | exts/DAH_serialize_json.ts:41-47 | each factor name reads its diagonal entry, when that entry is written |
| JsonCodec.RegularObjectGet | exts/DAH_serialize_json.ts:48-61 | each cell key reads its matrix entry, when that entry is written |
| JsonCodec.ToJsonMatrix | exts/DAH_serialize_json.ts:34-65 | a scalar becomes a number; diagonal and regular matrices become objects whose keys read their significant entries and hold nothing else |
| JsonCodec.ToJsonVector | exts/DAH_serialize_json.ts:67-69 | a vector becomes an object of its significant entries, keyed by factor name |
| JsonCodec.FromJsonVector | exts/DAH_serialize_json.ts:113-119 | decoding gives a vector of 11 factors |
| JsonCodec.Seeded | exts/DAH_serialize_json.ts:95-100 | the seed matrix carries the vector on its diagonal and zeros elsewhere |
| JsonCodec.FillFrom | exts/DAH_serialize_json.ts:80-104 | filling, when it allocates, gives a full square of entries |
| JsonCodec.FillFromNone | exts/DAH_serialize_json.ts:80-104 | no matrix is allocated exactly when no off-diagonal cell is present |
| JsonCodec.FillFromValue | exts/DAH_serialize_json.ts:80-104 | each filled cell holds its JSON value if present, otherwise the seed |
| JsonCodec.FromJsonMatrix | exts/DAH_serialize_json.ts:71-111 | a number decodes to a scalar; an object decodes to a diagonal exactly when it has no off-diagonal cell, otherwise to the filled regular matrix |
| JsonCodec.VectorRoundTrip | exts/DAH_serialize_json.ts:67-119 | a vector of 11 significant-or-zero values survives encoding and decoding |
| JsonCodec.RegularRoundTrip | exts/DAH_serialize_json.ts:34-111 | a regular matrix comes back regular exactly when it has an off-diagonal entry, otherwise as its diagonal |
| JsonCodec.DiagonalRoundTrip | exts/DAH_serialize_json.ts:34-111 | a diagonal matrix survives encoding and decoding |
| JsonCodec.RegularActsAsDiagonal | exts/DAH_serialize_json.ts:106-108 | the diagonal a regular matrix decodes to multiplies every vector the same way |
| JsonCodec.MatrixRoundTrip | exts/DAH_serialize_json.ts:34-111 | every encodable matrix decodes to one that multiplies the same way, and to itself unless it is a regular matrix with no off-diagonal entry |
| JsonCodec.MatrixMapRoundTrip | exts/DAH_serialize_json.ts:141-150 | a map of matrices comes back with the same keys in order, each matrix acting the same |
| JsonCodec.ToJsonImpact | exts/DAH_serialize_json.ts:159-167 | `toJSONImpact`; stated with its inverse by `JsonCodec.ImpactRoundTrip` |
| JsonCodec.FromJsonImpact | exts/DAH_serialize_json.ts:188-197 | `fromJSONImpact`; stated with its inverse by `JsonCodec.ImpactRoundTrip` |
| JsonCodec.ImpactRoundTrip | exts/DAH_serialize_json.ts:159-197 | an impact comes back with the same score, metadata and contributors, each contributor matrix acting the same |
| JsonCodec.ToJsonRelation | exts/DAH_serialize_json.ts:169-179 | `toJSONRelation`; stated with its inverse by `JsonCodec.RelationRoundTrip` |
| JsonCodec.FromJsonRelation | exts/DAH_serialize_json.ts:199-211 | `fromJSONRelation`; stated with its inverse by `JsonCodec.RelationRoundTrip` |
| JsonCodec.RelationRoundTrip | exts/DAH_serialize_json.ts:169-211 | a relation comes back with the same metadata, contributors and references, each matrix acting the same |
| JsonCodec.ToJsonEntry | exts/DAH_serialize_json.ts:152-157 | `toJSONEntry`; stated with its inverse by `JsonCodec.EntryRoundTrip` |
| JsonCodec.FromJsonEntry | exts/DAH_serialize_json.ts:181-186 | `fromJSONEntry`; stated with its inverse by `JsonCodec.EntryRoundTrip` |
| JsonCodec.EntryRoundTrip | exts/DAH_serialize_json.ts:152-186 | an entry comes back with its id and metadata but no children, so it comes back equal exactly when it had none |
| SrcJson.ToJsonEntry | src/exts/DAH_serialize_json.ts:20-26 | `toJSONEntry`; stated with its inverse by `SrcJson.EntryRoundTrip` |
| SrcJson.FromJsonEntry | src/exts/DAH_serialize_json.ts:44-50 | `fromJSONEntry`; stated with its inverse by `SrcJson.EntryRoundTrip` |
| SrcJson.ToJsonImpact | src/exts/DAH_serialize_json.ts:28-34 | `toJSONImpact`; stated with its inverse by `SrcJson.ImpactRoundTrip` |
| SrcJson.FromJsonImpact | src/exts/DAH_serialize_json.ts:52-58 | `fromJSONImpact`; stated with its inverse by `SrcJson.ImpactRoundTrip` |
| SrcJson.ToJsonRelation | src/exts/DAH_serialize_json.ts:36-42 | `toJSONRelation`; stated with its inverse by `SrcJson.RelationRoundTrip` |
| SrcJson.FromJsonRelation | src/exts/DAH_serialize_json.ts:60-66 | `fromJSONRelation`; stated with its inverse by `SrcJson.RelationRoundTrip` |
| SrcJson.EntryRoundTrip | src/exts/DAH_serialize_json.ts:20-50 | an entry with distinct child ids comes back equal |
| SrcJson.ImpactRoundTrip | src/exts/DAH_serialize_json.ts:28-58 | an impact with distinct contributors comes back equal |
| SrcJson.RelationRoundTrip | src/exts/DAH_serialize_json.ts:36-66 | a relation with distinct contributors and references comes back equal |
| SrcJson.EntriesObject | src/exts/DAH_serialize_json.ts:95-101 | the entries object has each entry id once, each with its converted entry, in order |
| SrcJson.EntriesObjectGet | src/exts/DAH_serialize_json.ts:95-101 | each id reads its converted entry from the object |
| OverallScore.GroupValues | exts/DAH_overall_score.ts:16-18 | a group yields one value per factor |
| OverallScore.GroupValuesSlice | exts/DAH_overall_score.ts:16-18 | a group of consecutive indices reads exactly that slice of the vector |
| OverallScore.Reduce | exts/DAH_overall_score.ts:22 | the left-to-right sum with no initial value; `OverallScore.CalcOverallScore` states the sum of the four terms |
| OverallScore.CalcOverallScore | exts/DAH_overall_score.ts:11-23 | the overall score is the sum of the combines of factors 0-5 at 0.6, 6-8 at 0.7, 9 at 0.05 and 10 at 1.0 |
| OverallScore.SingleFactorTerms | exts/DAH_overall_score.ts:11-23 | when one value combines to itself, Boredom and Additional add their raw factors |
| OverallScore.WithOverallScore | exts/DAH_overall_score.ts:26-31 | one result gains its overall score under `DAH_overall_score`; every other metadata property and every vector is kept |
| OverallScore.PostProcess | exts/DAH_overall_score.ts:25-32 | every result gains its overall score in its metadata, and nothing else changes |
| AnimeNormalize.FirstAbove | src/exts/DAH_anime_normalize.ts:38-46 | the index found is the first base score above the score |
| AnimeNormalize.FractionInUnit | src/exts/DAH_anime_normalize.ts:40-44 | the interpolation fraction lies in [0, 1) |
| AnimeNormalize.NormalizeScore | src/exts/DAH_anime_normalize.ts:28-49 | the result is 1 at or below the first base, 10 at or above the last, and otherwise interpolates within its interval; no bases give 0 |
| AnimeNormalize.FirstAboveAt | src/exts/DAH_anime_normalize.ts:38-46 | the loop stops at the first index above the score |
| AnimeNormalize.InteriorIndex | src/exts/DAH_anime_normalize.ts:38-46 | an interior score falls in exactly the interval its result interpolates |
| AnimeNormalize.BaseScoresAreAnchors | src/exts/DAH_anime_normalize.ts:28-49 | with increasing bases, the k-th base normalises to k + 1, and ten bases give the anchors 1 to 10 |
| AnimeNormalize.SameIntervalMonotone | src/exts/DAH_anime_normalize.ts:40-44 | within one interval, normalisation keeps order |
| AnimeNormalize.NormalizeMonotone | src/exts/DAH_anime_normalize.ts:28-49 | with up to ten increasing bases, a higher score never normalises lower |
| AnimeNormalize.NormalizeNotMonotoneBeyondTen | src/exts/DAH_anime_normalize.ts:28-49 | with eleven or more increasing bases, the score halfway between the last two normalises to above 10, while the higher last base normalises to 10 |
| AnimeNormalize.NormalizeStored | src/exts/DAH_anime_normalize.ts:53-55 | an undefined stored score normalises to 0 |
| AnimeNormalize.StoredOverallScore | src/exts/DAH_anime_normalize.ts:53 | the stored overall score, if it is a number; `AnimeNormalize.NormalizeStored` states that an undefined one normalises to 0 |
| AnimeNormalize.NormalizedValue | src/exts/DAH_anime_normalize.ts:54-56 | the `{ score }` object; `AnimeNormalize.PostProcess` and `AnimeNormalize.NormalizesOverallScore` state what it holds |
| AnimeNormalize.PostProcess | src/exts/DAH_anime_normalize.ts:51-58 | every result gains its normalised score under the extension's slot, and nothing else changes |
| AnimeNormalize.NormalizesOverallScore | src/exts/DAH_anime_normalize.ts:51-58 | after `DAH_overall_score`, each result stores the normalisation of its own overall score and keeps its vectors |

## Left out

- Stream output and file I/O of both `DAH_serialize_json` files are not modelled (`#serialize`, `serialize`, `JSON.stringify`, `JSON.parse`, the `deserialize*` wrappers). These are I/O, and the model stops at the record converters.
- The bulk `deserialize` of `src/exts/DAH_serialize_json.ts` is not modelled. It reads a `scores` property where `serialize` writes `results`, and it passes raw entries through. These lines (113-116 against 157 and 173) are outside the record converters.
- The `scores` path of `exts/DAH_serialize_json.ts` (264-267), and how it differs from `fromJSONResult`, is not modelled, for the same reason.
- `Object.entries` enumerates integer-like keys first. The model keeps insertion order for every key, so integer-like entry ids are not modelled.
- The `DAH_anime_normalize` constructor is not modelled: it scores sample anime to obtain the base scores. The base scores are a parameter instead.
- AnimeNormalize.StoredOverallScore: a stored overall score that is not a number reads as undefined, where JavaScript would compare the raw value.
- `mod.ts` is not part of this model. The exts entry shape is taken to be the core `Entry`, and the `ScalarMatrix` of `exts/DAH_serialize_json.ts` is taken to scale uniformly.
- `Math.pow` is a parameter of the buff matrix, not computed. The power mean of `DAH_combine_pow` is left out. The combine function is a context parameter.
- The extension construction of `newContext` (`src/process.ts:105-142`) is not modelled: it calls foreign constructors. The extension set is an input.
- The debug print of `calcRelationScore` (`src/process.ts:407-409`) is output only and is not modelled.
- The post-process dispatch of `processContext` (`src/process.ts:486-496`) is not modelled: it calls extension code. Each post-processor is modelled on its own instead.
- NaN, Infinity and holes are not modelled. `Scores.NewZeroVectorAsWritten` marks holes as `None`.
- OverallScore.CalcOverallScore: requires a vector of 11 values, the factor count. Shorter vectors would read `undefined` in JavaScript.
- Process.ProcessContext: builds each result with the corrected `Process.EntryResult`, which starts an entry no impact reaches from zeros. It does not reproduce the holes of the as-written `newZeroVector` (`src/process.ts:474-481`); `Process.ResultAsWrittenLosesRelation` states what the code as written yields.
- CoreEngine.FillContributorWeight: the closed form needs non-negative contributor and contain weights, duplicate-free contain maps and a starting map bounded by one. With a negative weight the clamped result depends on the order of the additions (`CoreContain.AddClampedOrderMatters`), so no closed form is stated for that case.
- CoreContain.AddScaledWeight: needs a duplicate-free child map. A map built by `addContainWeight` always is one, but the lemma does not state what a list with repeated ids would store.
- CoreEngine.BuffImpact: a product that is not factor-sized is reported as a dimension error. Only a `buffWeight` that is not factor-sized lets such a product through `mul`; `combineVectors` would then read `undefined` (NaN) or ignore the extra components, and NaN is not modelled.
- The process engine's `add`, `mul`, `Matrix` and `Vector` (`src/process.ts:36`) come from a version of `math.ts` that is not part of this model: the repository's `src/math.ts` exports only the `NRSCoreVector`, `NRSRegularMatrix` and `NRSDiagonalMatrix` classes. The model takes `add` to behave like `NRSCoreVector.add_assign` and `mul` like `NRSDiagonalMatrix.mul` on the `{kind: "diagonal", data}` buff matrices (`src/process.ts:316-323`) and `NRSRegularMatrix.mul` on regular ones. So the dimension errors of `Scores.AddImpactOk` and `Scores.BuffWeightMul`, the sum of `Process.ResultAsWritten` and the `MissingImpactScore` error rest on that assumption.
- AnimeNormalize.NormalizeMonotone: proved only for at most ten base scores. The number of base scores is the configured number of entry ids, which has no bound. With eleven or more, the code as written is not monotone (`AnimeNormalize.NormalizeNotMonotoneBeyondTen`), since the last interval interpolates past the cap of 10.
- `cli.ts`, `DAH_standards`, `DAH_entry_progress`, `DAH_entry_roles`, `DAH_entry_contains` and the type-only extension files are not part of this model. They are command-line glue, data tables or types only.

## Findings

| source | as written | input that shows it | evidently intended | confidence | as-written member | corrected member |
|---|---|---|---|---|---|---|
| src/process.ts:300-302 | `newZeroVector` returns `new Array(n)`, which holds holes, not zeros. `processResults` starts an entry no impact reaches from it, so the overall vector is built from holes (what adding a hole gives depends on the process engine's `add`, from a `math.ts` that is not part of this model) | any entry no impact reaches, with at least one factor | a vector of n zeros, so the overall vector is the relation score | high (not executed) | Process.ResultAsWrittenLosesRelation | Process.EntryResultCorrects |
| exts/DAH_entry_queue.ts:11-19 | `suppressRule` reads the `DAH_validator_suppress` slot but writes `DAH_entry_queue`. With no validator-suppress slot, every call overwrites the queue with a one-rule list | two rules queued on an entry with empty metadata: only the second remains | read and append to `DAH_entry_queue` | high (not executed) | MetaSlots.EntryQueueLosesRules | MetaSlots.EntryQueueKeepsRules |

=== FILE: anime_normalize.dfy ===
/** The `DAH_anime_normalize` extension (`src/exts/DAH_anime_normalize.ts`):
    an overall score is mapped onto a 1-to-10 scale by piecewise-linear
    interpolation between the overall scores of a list of base anime, and
    `postProcess` stores the normalised score in every result's metadata.
    The base scores are a parameter here: the constructor that computes them
    by running the engine on sample data is not part of this model. */
module AnimeNormalize {
  import opened Wrappers
  import opened Assoc
  import opened LinAlg
  import opened EngineContext
  import opened Data
  import Factors
  import OverallScore

  /** The metadata property the normalised score is stored under. */
  const AnimeNormalizeSlot := "DAH_anime_normalize"

  /** The loop of `#normalizeScore` from `i` on: the first index whose base
      score is above the score, if any. */
  function FirstAbove(base: seq<real>, score: real, i: nat): (r: Option<nat>)
    ensures r.Some? ==> i <= r.value < |base| && base[r.value] > score &&
                        forall k :: i <= k < r.value ==> base[k] <= score
    ensures r.None? ==> forall k :: i <= k < |base| ==> base[k] <= score
    decreases |base| - i
  {
    if i >= |base| then None
    else if base[i] > score then Some(i)
    else FirstAbove(base, score, i + 1)
  }

  /** `score` lies in the `i`-th interval `[base[i - 1], base[i])`, `i` is the
      first index past 0 whose base score is above it, and `r` is the linear
      interpolation `i + (score - base[i - 1]) / (base[i] - base[i - 1])`,
      which lies in `[i, i + 1)`. */
  predicate Interpolates(base: seq<real>, score: real, i: nat, r: real) {
    1 <= i < |base| && base[i - 1] <= score < base[i] &&
    (forall k :: 1 <= k < i ==> base[k] <= score) &&
    r == i as real + (score - base[i - 1]) / (base[i] - base[i - 1]) &&
    i as real <= r < i as real + 1.0
  }

  /** A fraction `(x - lo) / (hi - lo)` of a point inside `[lo, hi)` lies in
      `[0, 1)`. */
  lemma FractionInUnit(x: real, lo: real, hi: real)
    requires lo <= x < hi
    ensures 0.0 <= (x - lo) / (hi - lo) < 1.0
  {
    var d := hi - lo;
    var t := (x - lo) / d;
    assert t * d == x - lo;
    var u := 1.0 - t;
    assert u * d == d - (x - lo);
    assert u * d > 0.0;
  }

  /** Dividing by a positive number keeps the order. */
  lemma DivideMonotone(a: real, b: real, d: real)
    requires a <= b && d > 0.0
    ensures a / d <= b / d
  {
    assert b / d - a / d == (b - a) / d;
    assert ((b - a) / d) * d == b - a;
  }

  /** `#normalizeScore`: 1.0 at or below the first base score, 10.0 at or
      above the last, and otherwise the interpolation in the interval the
      score falls in. With no base scores every comparison reads
      `undefined`, and the result is the fallback 0.0; with at least one,
      the fallback is never reached and the result is at least 1.0. */
  function NormalizeScore(base: seq<real>, score: real): (r: real)
    ensures base == [] ==> r == 0.0
    ensures base != [] && score <= base[0] ==> r == 1.0
    ensures base != [] && base[0] < score && score >= base[|base| - 1] ==> r == 10.0
    ensures base != [] && base[0] < score < base[|base| - 1] ==> exists i :: Interpolates(base, score, i, r)
    ensures base != [] ==> r >= 1.0
  {
    if base != [] && score <= base[0] then 1.0
    else if base != [] && score >= base[|base| - 1] then 10.0
    else
      match FirstAbove(base, score, 1)
      case None => 0.0
      case Some(i) =>
        FractionInUnit(score, base[i - 1], base[i]);
        var r := i as real + (score - base[i - 1]) / (base[i] - base[i - 1]);
        assert Interpolates(base, score, i, r);
        r
  }

  /** Strictly increasing base scores. */
  predicate Increasing(base: seq<real>) {
    forall i, j :: 0 <= i < j < |base| ==> base[i] < base[j]
  }

  /** The loop stops at `j` when `j` is the first index from `i` on whose
      base score is above the score. */
  lemma {:induction false} FirstAboveAt(base: seq<real>, score: real, i: nat, j: nat)
    requires i <= j < |base| && base[j] > score
    requires forall m :: i <= m < j ==> base[m] <= score
    ensures FirstAbove(base, score, i) == Some(j)
    decreases j - i
  {
    if i < j {
      FirstAboveAt(base, score, i + 1, j);
    }
  }

  /** A score strictly between the first and the last base score falls in
      exactly one interval, whose index is returned. */
  lemma InteriorIndex(base: seq<real>, score: real) returns (i: nat)
    requires base != [] && base[0] < score < base[|base| - 1]
    ensures Interpolates(base, score, i, NormalizeScore(base, score))
  {
    i :| Interpolates(base, score, i, NormalizeScore(base, score));
  }

  /** The `k`-th base anime normalises to `k + 1` (the last one to 10.0):
      with ten increasing base scores they are exactly the scale's anchors
      1.0, 2.0, ..., 10.0. */
  lemma BaseScoresAreAnchors(base: seq<real>, k: nat)
    requires Increasing(base) && k < |base|
    ensures NormalizeScore(base, base[k]) == if k == 0 then 1.0 else if k == |base| - 1 then 10.0 else (k + 1) as real
    ensures |base| == 10 ==> NormalizeScore(base, base[k]) == (k + 1) as real
  {
    if k == |base| - 1 && k > 0 {
      assert base[0] < base[k];
    } else if 0 < k {
      assert base[0] < base[k] < base[|base| - 1];
      FirstAboveAt(base, base[k], 1, k + 1);
      assert (base[k] - base[k]) / (base[k + 1] - base[k]) == 0.0;
    }
  }

  /** Two scores in the same interval keep their order. */
  lemma SameIntervalMonotone(base: seq<real>, s1: real, s2: real, i: nat, r1: real, r2: real)
    requires s1 <= s2 && Interpolates(base, s1, i, r1) && Interpolates(base, s2, i, r2)
    ensures r1 <= r2
  {
    DivideMonotone(s1 - base[i - 1], s2 - base[i - 1], base[i] - base[i - 1]);
  }

  /** With at most ten increasing base scores the normalisation is
      monotone: a higher overall score never normalises lower. */
  lemma NormalizeMonotone(base: seq<real>, s1: real, s2: real)
    requires Increasing(base) && 1 <= |base| <= 10
    requires s1 <= s2
    ensures NormalizeScore(base, s1) <= NormalizeScore(base, s2)
  {
    var n := |base|;
    var r1, r2 := NormalizeScore(base, s1), NormalizeScore(base, s2);
    if s1 <= base[0] {
      assert r1 == 1.0 <= r2;
    } else if s1 >= base[n - 1] {
      assert r1 == 10.0 == r2;
    } else if s2 >= base[n - 1] {
      var i1 := InteriorIndex(base, s1);
      assert r1 < i1 as real + 1.0 <= 10.0 == r2;
    } else {
      var i1 := InteriorIndex(base, s1);
      var i2 := InteriorIndex(base, s2);
      assert base[i1 - 1] <= s1 <= s2 < base[i2];
      assert i1 <= i2;
      if i1 == i2 {
        SameIntervalMonotone(base, s1, s2, i1, r1, r2);
      } else {
        assert r1 < i1 as real + 1.0 <= i2 as real <= r2;
      }
    }
  }

  /** Beyond ten base scores the normalisation is not monotone: the score
      halfway between the last two base scores interpolates to at least
      10.5 in the last interval, while the higher last base score itself
      is capped at 10.0. */
  lemma NormalizeNotMonotoneBeyondTen(base: seq<real>)
    requires Increasing(base) && |base| >= 11
    ensures var n := |base|;
            var s := (base[n - 2] + base[n - 1]) / 2.0;
            s < base[n - 1] && NormalizeScore(base, base[n - 1]) == 10.0 &&
            NormalizeScore(base, s) == (n - 1) as real + 0.5 > 10.0
  {
    var n := |base|;
    var s := (base[n - 2] + base[n - 1]) / 2.0;
    assert base[0] < base[n - 2] < s < base[n - 1];
    FirstAboveAt(base, s, 1, n - 1);
    assert (s - base[n - 2]) / (base[n - 1] - base[n - 2]) == 0.5;
  }

  /** The overall score a result's metadata holds, `undefined` when it has
      none or holds something other than a number. */
  function StoredOverallScore(meta: Meta): Option<real> {
    var v := Get(meta, OverallScore.OverallScoreSlot);
    if v.Some? && v.value.MNumber? then Some(v.value.n) else None
  }

  /** `#normalizeScore` of the stored score; on `undefined` every comparison
      is false and the loop falls through to 0.0. */
  function NormalizeStored(base: seq<real>, score: Option<real>): (r: real)
    ensures score.None? ==> r == 0.0
    ensures score.Some? ==> r == NormalizeScore(base, score.value)
  {
    if score.Some? then NormalizeScore(base, score.value) else 0.0
  }

  /** The object `{ score: ... }` stored for a result. */
  function NormalizedValue(base: seq<real>, meta: Meta): MetaValue {
    MObject([("score", MNumber(NormalizeStored(base, StoredOverallScore(meta))))])
  }

  /** `postProcess`: every result gets `{ score }` under
      `DAH_anime_normalize`, normalised from its stored overall score; its
      vectors and every other metadata property are left as they were. */
  function PostProcess(base: seq<real>, results: map<Id, ScoreResult>): (r: map<Id, ScoreResult>)
    ensures r.Keys == results.Keys
    ensures forall id :: id in r ==>
              r[id].overallVector == results[id].overallVector &&
              r[id].totalImpact == results[id].totalImpact &&
              r[id].totalRelation == results[id].totalRelation
    ensures forall id :: id in r ==>
              Get(r[id].meta, AnimeNormalizeSlot) ==
                Some(MObject([("score", MNumber(NormalizeStored(base, StoredOverallScore(results[id].meta))))]))
    ensures forall id, key :: id in r && key != AnimeNormalizeSlot ==> Get(r[id].meta, key) == Get(results[id].meta, key)
  {
    var r := map id | id in results :: results[id].(meta := Set(results[id].meta, AnimeNormalizeSlot, NormalizedValue(base, results[id].meta)));
    assert forall id, key :: id in r ==>
             Get(r[id].meta, key) == if key == AnimeNormalizeSlot then Some(NormalizedValue(base, results[id].meta))
                                     else Get(results[id].meta, key) by {
      forall id, key | id in r
        ensures Get(r[id].meta, key) == if key == AnimeNormalizeSlot then Some(NormalizedValue(base, results[id].meta))
                                        else Get(results[id].meta, key)
      {
        SetGet(results[id].meta, AnimeNormalizeSlot, NormalizedValue(base, results[id].meta), key);
      }
    }
    r
  }

  /** Run after `DAH_overall_score` (which it depends on), the extension
      stores for every result the normalisation of that result's overall
      score, and the two extensions together change no score vector. */
  lemma NormalizesOverallScore(ctx: Context, base: seq<real>, results: map<Id, ScoreResult>)
    requires forall id :: id in results ==> |results[id].overallVector| == Factors.NumFactors
    ensures var r := PostProcess(base, OverallScore.PostProcess(ctx, results));
            r.Keys == results.Keys &&
            forall id :: id in r ==>
              r[id].overallVector == results[id].overallVector &&
              Get(r[id].meta, AnimeNormalizeSlot) ==
                Some(MObject([("score", MNumber(NormalizeScore(base, OverallScore.CalcOverallScore(ctx, results[id].overallVector))))]))
  {
  }
}

=== FILE: assoc.dfy ===
/** JavaScript `Map` semantics as an association list: the pairs in insertion
    order, `get` finding a key, `set` overwriting a present key in place and
    appending an absent one. The same list models a JSON object built with
    `Object.fromEntries`, whose properties keep insertion order for keys
    that are not integer-like (integer-like keys are not modelled). Keys are
    strings, as every key of the modelled system is an entry id or a
    property name. */
module Assoc {
  import opened Wrappers

  /** The keys present in an association list. */
  function Keys<V>(m: seq<(string, V)>): (ks: set<string>)
  {
    if m == [] then {} else {m[0].0} + Keys(m[1..])
  }

  lemma {:induction false} KeysMembership<V>(m: seq<(string, V)>, k: string)
    ensures k in Keys(m) <==> exists i :: 0 <= i < |m| && m[i].0 == k
  {
    if m != [] {
      KeysMembership(m[1..], k);
      if k in Keys(m[1..]) {
        var i :| 0 <= i < |m[1..]| && m[1..][i].0 == k;
        assert m[i + 1].0 == k;
      }
      if exists i :: 0 <= i < |m| && m[i].0 == k {
        var i :| 0 <= i < |m| && m[i].0 == k;
        if i > 0 {
          assert m[1..][i - 1].0 == k;
        }
      }
    }
  }

  /** No key occurs twice, which every JavaScript `Map` guarantees. */
  predicate Distinct<V>(m: seq<(string, V)>) {
    forall i, j :: 0 <= i < j < |m| ==> m[i].0 != m[j].0
  }

  /** `Map.prototype.get`: the value stored under `k`, `None` for `undefined`. */
  function Get<V>(m: seq<(string, V)>, k: string): (r: Option<V>)
    ensures r.None? <==> k !in Keys(m)
  {
    if m == [] then None
    else if m[0].0 == k then Some(m[0].1)
    else Get(m[1..], k)
  }

  /** In a list without repeated keys, `Get` returns the value paired with the key. */
  lemma {:induction false} GetDistinct<V>(m: seq<(string, V)>, i: nat)
    requires Distinct(m)
    requires i < |m|
    ensures Get(m, m[i].0) == Some(m[i].1)
  {
    if i > 0 {
      assert m[0].0 != m[i].0;
      assert m[1..][i - 1] == m[i];
      GetDistinct(m[1..], i - 1);
    }
  }

  /** `Map.prototype.set`: overwrite in place when present, append when absent. */
  function Set<V>(m: seq<(string, V)>, k: string, v: V): (r: seq<(string, V)>)
    ensures Keys(r) == Keys(m) + {k}
    ensures |r| == if k in Keys(m) then |m| else |m| + 1
    ensures forall i :: 0 <= i < |m| ==> r[i].0 == m[i].0
  {
    if m == [] then [(k, v)]
    else if m[0].0 == k then
      var r := [(k, v)] + m[1..];
      assert r[1..] == m[1..];
      r
    else
      var r := [m[0]] + Set(m[1..], k, v);
      assert r[1..] == Set(m[1..], k, v);
      r
  }

  /** After `set`, `get` of the same key returns the new value and `get` of
      any other key is unchanged. */
  lemma {:induction false} SetGet<V>(m: seq<(string, V)>, k: string, v: V, k': string)
    ensures Get(Set(m, k, v), k') == if k' == k then Some(v) else Get(m, k')
  {
    if m != [] && m[0].0 != k {
      var r := Set(m, k, v);
      assert r[1..] == Set(m[1..], k, v);
      SetGet(m[1..], k, v, k');
    } else if m != [] {
      assert Set(m, k, v)[1..] == m[1..];
    }
  }

  /** `set` never introduces a repeated key. */
  lemma {:induction false} SetDistinct<V>(m: seq<(string, V)>, k: string, v: V)
    requires Distinct(m)
    ensures Distinct(Set(m, k, v))
  {
    var r := Set(m, k, v);
    if m != [] && m[0].0 != k {
      var tail := Set(m[1..], k, v);
      assert r[1..] == tail;
      SetDistinct(m[1..], k, v);
      forall j | 0 < j < |r|
        ensures r[0].0 != r[j].0
      {
        assert r[j] == tail[j - 1];
        KeysMembership(tail, tail[j - 1].0);
        KeysMembership(m[1..], m[0].0);
      }
    } else if m != [] {
      assert forall j :: 0 < j < |r| ==> r[j] == m[j];
    }
  }

  /** Inserting the pairs one after another with `Set`, as `new Map(pairs)`,
      a loop of `map.set(...)` or `Object.fromEntries(pairs)` does. */
  function SetAll<V>(acc: seq<(string, V)>, pairs: seq<(string, V)>): (r: seq<(string, V)>)
    ensures Keys(r) == Keys(acc) + Keys(pairs)
    decreases |pairs|
  {
    if pairs == [] then acc
    else SetAll(Set(acc, pairs[0].0, pairs[0].1), pairs[1..])
  }

  /** `SetAll` keeps keys distinct, leaves the keys it does not insert alone,
      and the value it leaves under a key is the one of the LAST pair with
      that key. */
  lemma {:induction false} SetAllGet<V>(acc: seq<(string, V)>, pairs: seq<(string, V)>, k: string)
    ensures Distinct(acc) ==> Distinct(SetAll(acc, pairs))
    ensures k !in Keys(pairs) ==> Get(SetAll(acc, pairs), k) == Get(acc, k)
    ensures forall i :: 0 <= i < |pairs| && pairs[i].0 == k && (forall j :: i < j < |pairs| ==> pairs[j].0 != k) ==>
              Get(SetAll(acc, pairs), k) == Some(pairs[i].1)
    decreases |pairs|
  {
    if pairs != [] {
      var acc' := Set(acc, pairs[0].0, pairs[0].1);
      var rest := pairs[1..];
      SetAllGet(acc', rest, k);
      SetGet(acc, pairs[0].0, pairs[0].1, k);
      if Distinct(acc) {
        SetDistinct(acc, pairs[0].0, pairs[0].1);
      }
      forall i | 0 <= i < |pairs| && pairs[i].0 == k && (forall j :: i < j < |pairs| ==> pairs[j].0 != k)
        ensures Get(SetAll(acc, pairs), k) == Some(pairs[i].1)
      {
        if i > 0 {
          assert rest[i - 1] == pairs[i];
          assert forall j :: i - 1 < j < |rest| ==> rest[j] == pairs[j + 1];
        } else {
          KeysMembership(rest, k);
          assert k !in Keys(rest) by {
            forall j | 0 <= j < |rest|
              ensures rest[j].0 != k
            {
              assert rest[j] == pairs[j + 1];
            }
          }
        }
      }
    }
  }

  /** `set` of an absent key appends the pair at the end. */
  lemma {:induction false} SetAbsent<V>(m: seq<(string, V)>, k: string, v: V)
    requires k !in Keys(m)
    ensures Set(m, k, v) == m + [(k, v)]
  {
    if m != [] {
      SetAbsent(m[1..], k, v);
      assert m == [m[0]] + m[1..];
    }
  }

  /** Inserting pairs with distinct keys, none already present, appends them
      in order. */
  lemma {:induction false} SetAllAppends<V>(acc: seq<(string, V)>, pairs: seq<(string, V)>)
    requires Distinct(pairs)
    requires Keys(acc) !! Keys(pairs)
    ensures SetAll(acc, pairs) == acc + pairs
    decreases |pairs|
  {
    if pairs != [] {
      AppendsStep(acc, pairs);
      SetAllAppends(Set(acc, pairs[0].0, pairs[0].1), pairs[1..]);
    }
  }

  /** One step of `SetAllAppends`: the first pair is appended, and the rest
      still meets the lemma's requirements. */
  lemma AppendsStep<V>(acc: seq<(string, V)>, pairs: seq<(string, V)>)
    requires Distinct(pairs) && pairs != []
    requires Keys(acc) !! Keys(pairs)
    ensures Distinct(pairs[1..])
    ensures Keys(Set(acc, pairs[0].0, pairs[0].1)) !! Keys(pairs[1..])
    ensures Set(acc, pairs[0].0, pairs[0].1) + pairs[1..] == acc + pairs
    ensures SetAll(acc, pairs) == SetAll(Set(acc, pairs[0].0, pairs[0].1), pairs[1..])
  {
    DistinctTail(pairs);
    AppendsStepKeys(acc, pairs);
    SetAbsent(acc, pairs[0].0, pairs[0].1);
    ConsAppend(acc, pairs);
  }

  lemma AppendsStepKeys<V>(acc: seq<(string, V)>, pairs: seq<(string, V)>)
    requires pairs != [] && pairs[0].0 !in Keys(pairs[1..])
    requires Keys(acc) !! Keys(pairs)
    ensures Keys(Set(acc, pairs[0].0, pairs[0].1)) !! Keys(pairs[1..])
  {
    assert Keys(pairs) == {pairs[0].0} + Keys(pairs[1..]);
  }

  lemma ConsAppend<V>(acc: seq<(string, V)>, pairs: seq<(string, V)>)
    requires pairs != []
    ensures (acc + [pairs[0]]) + pairs[1..] == acc + pairs
  {
    assert pairs == [pairs[0]] + pairs[1..];
  }

  /** The tail of a list without repeated keys has none either, and does not
      hold the head's key. */
  lemma DistinctTail<V>(pairs: seq<(string, V)>)
    requires Distinct(pairs) && pairs != []
    ensures Distinct(pairs[1..]) && pairs[0].0 !in Keys(pairs[1..])
  {
    var rest := pairs[1..];
    KeysMembership(rest, pairs[0].0);
    forall j | 0 <= j < |rest|
      ensures rest[j].0 != pairs[0].0
    {
      assert rest[j] == pairs[j + 1];
    }
    forall i, j | 0 <= i < j < |rest|
      ensures rest[i].0 != rest[j].0
    {
      assert rest[i] == pairs[i + 1] && rest[j] == pairs[j + 1];
    }
  }

  /** `Object.fromEntries(pairs)` and `new Map(pairs)`: the pairs inserted one
      after another into an empty object. The result never repeats a key, and
      pairs that already have distinct keys come back unchanged. */
  function FromEntries<V>(pairs: seq<(string, V)>): (r: seq<(string, V)>)
    ensures Keys(r) == Keys(pairs) && Distinct(r)
    ensures Distinct(pairs) ==> r == pairs
  {
    SetAllGet([], pairs, "");
    if Distinct(pairs) then
      SetAllAppends([], pairs);
      SetAll([], pairs)
    else SetAll([], pairs)
  }

  /** The keys in order of first insertion. */
  function KeyList<V>(m: seq<(string, V)>): (ks: seq<string>)
    ensures |ks| == |m|
    ensures forall i :: 0 <= i < |m| ==> ks[i] == m[i].0
  {
    seq(|m|, i requires 0 <= i < |m| => m[i].0)
  }

  /** `[...map.keys()]` lists exactly the keys of the map. */
  lemma KeyListKeys<V>(m: seq<(string, V)>)
    ensures forall k :: k in KeyList(m) <==> k in Keys(m)
  {
    forall k
      ensures k in KeyList(m) <==> k in Keys(m)
    {
      KeysMembership(m, k);
      if k in KeyList(m) {
        var i :| 0 <= i < |KeyList(m)| && KeyList(m)[i] == k;
        assert m[i].0 == k;
      }
      if k in Keys(m) {
        var i :| 0 <= i < |m| && m[i].0 == k;
        assert KeyList(m)[i] == k;
      }
    }
  }

  /** The Dafny map with the same key-to-value pairing (the first occurrence
      wins, which on a `Distinct` list is the only occurrence). */
  function ToMap<V>(m: seq<(string, V)>): (r: map<string, V>)
    ensures r.Keys == Keys(m)
    ensures forall k :: k in r ==> Get(m, k) == Some(r[k])
  {
    map k | k in Keys(m) :: Get(m, k).value
  }

  /** `mapValues`: the same keys in the same order, every value transformed. */
  function MapValues<V1, V2>(m: seq<(string, V1)>, f: V1 -> V2): (r: seq<(string, V2)>)
    ensures |r| == |m|
    ensures forall i :: 0 <= i < |m| ==> r[i] == (m[i].0, f(m[i].1))
  {
    seq(|m|, i requires 0 <= i < |m| => (m[i].0, f(m[i].1)))
  }

  /** `mapValues` keeps the key set and looks up to the transformed value. */
  lemma {:induction false} MapValuesGet<V1, V2>(m: seq<(string, V1)>, f: V1 -> V2, k: string)
    ensures Keys(MapValues(m, f)) == Keys(m)
    ensures Get(MapValues(m, f), k) == if k in Keys(m) then Some(f(Get(m, k).value)) else None
  {
    var r := MapValues(m, f);
    if m != [] {
      assert r[1..] == MapValues(m[1..], f);
      MapValuesGet(m[1..], f, k);
    }
  }
}

=== FILE: combine_pp.dfy ===
/** The combine function of the `DAH_combine_pp` extension
    (`src/exts/DAH_combine_pp.ts`): a geometrically weighted sum, the k-th
    score weighted by `weight^k`, wrapped by the sign-splitting combine. */
module CombinePP {
  import opened Utils

  /** `w^k` for a natural exponent. */
  function Pow(w: real, k: nat): real {
    if k == 0 then 1.0 else Pow(w, k - 1) * w
  }

  lemma {:induction false} PowNonNegative(w: real, k: nat)
    requires w >= 0.0
    ensures Pow(w, k) >= 0.0
  {
    if k > 0 {
      PowNonNegative(w, k - 1);
    }
  }

  /** The sum of `arr[j] * w^j` over the first `k` scores. */
  function WeightedPrefix(arr: seq<real>, w: real, k: nat): real
    requires k <= |arr|
  {
    if k == 0 then 0.0 else WeightedPrefix(arr, w, k - 1) + arr[k - 1] * Pow(w, k - 1)
  }

  /** `combineUnsigned(arr, weight)` = the sum of `arr[k] * weight^k`. */
  function CombineUnsigned(arr: seq<real>, weight: real): (r: real)
    ensures arr == [] ==> r == 0.0
    ensures |arr| == 1 ==> r == arr[0]
  {
    assert |arr| == 1 ==> WeightedPrefix(arr, weight, 1) == arr[0] * Pow(weight, 0);
    WeightedPrefix(arr, weight, |arr|)
  }

  /** `combineUnsigned` as the source's loop, whose running multiplier is
      the power of the weight for the current position. */
  method CombineUnsignedLoop(arr: seq<real>, weight: real) returns (result: real)
    ensures result == CombineUnsigned(arr, weight)
  {
    result := 0.0;
    var multiplier := 1.0;
    var i := 0;
    while i < |arr|
      invariant 0 <= i <= |arr|
      invariant result == WeightedPrefix(arr, weight, i)
      invariant multiplier == Pow(weight, i)
    {
      result := result + arr[i] * multiplier;
      multiplier := multiplier * weight;
      i := i + 1;
    }
  }

  lemma {:induction false} WeightedPrefixAppend(a: seq<real>, x: real, w: real, k: nat)
    requires k <= |a|
    ensures WeightedPrefix(a + [x], w, k) == WeightedPrefix(a, w, k)
  {
    if k > 0 {
      WeightedPrefixAppend(a, x, w, k - 1);
    }
  }

  /** Appending a score adds it with the next power of the weight. */
  lemma CombineUnsignedAppend(a: seq<real>, x: real, w: real)
    ensures CombineUnsigned(a + [x], w) == CombineUnsigned(a, w) + x * Pow(w, |a|)
  {
    WeightedPrefixAppend(a, x, w, |a|);
  }

  lemma {:induction false} WeightedPrefixNonNegative(arr: seq<real>, w: real, k: nat)
    requires k <= |arr| && w >= 0.0
    requires forall i :: 0 <= i < |arr| ==> arr[i] >= 0.0
    ensures WeightedPrefix(arr, w, k) >= 0.0
  {
    if k > 0 {
      WeightedPrefixNonNegative(arr, w, k - 1);
      PowNonNegative(w, k - 1);
    }
  }

  /** Non-negative scores and a non-negative weight give a non-negative result. */
  lemma CombineUnsignedNonNegative(arr: seq<real>, w: real)
    requires w >= 0.0
    requires forall i :: 0 <= i < |arr| ==> arr[i] >= 0.0
    ensures CombineUnsigned(arr, w) >= 0.0
  {
    WeightedPrefixNonNegative(arr, w, |arr|);
  }

  /** `makeCombineFunction()`: `makeCombineSigned(combineUnsigned)`. */
  function MakeCombineFunction(): (c: CombineFunction)
    ensures forall a, w :: c(a, w) == Signed(CombineUnsigned, a, w)
  {
    (a, w) => Signed(CombineUnsigned, a, w)
  }

  /** The extension's combine returns a single score unchanged, whatever its
      sign and whatever the weight. */
  lemma CombineSingle(x: real, w: real)
    ensures MakeCombineFunction()([x], w) == x
  {
    if x > 0.0 {
      assert Positives([x]) == [x] && NegativesAbs([x]) == [];
    } else if x < 0.0 {
      assert Positives([x]) == [] && NegativesAbs([x]) == [-x];
    } else {
      assert Positives([x]) == [] && NegativesAbs([x]) == [];
    }
  }
}

=== FILE: contain.dfy ===
/** `solveContainWeights` of `src/process.ts`: every entry's flattened
    children map (the weight of every entry it contains, directly or through
    other entries) and, mirrored, every entry's flattened parents map. The
    recursion `flattenSingle` memoizes each solved entry and keeps the path
    of entries being solved to reject circular containment. */
module Contain {
  import opened Wrappers
  import opened Assoc
  import Data
  import opened EngineContext
  import opened Flatten

  /** The engine's entries, keyed by id. */
  type Entries = seq<(Id, Data.Entry)>

  /** The weighted children of the entry with key `k`. */
  function Children(es: Entries, k: Id): seq<(Id, real)> {
    var e: Option<Data.Entry> := Get(es, k);
    if e.Some? then e.value.children else []
  }

  /** The ids listed as children of `k`. */
  function ChildIds(es: Entries, k: Id): set<Id> {
    set p | p in Children(es, k) :: p.0
  }

  /** A sequence of entries, each listing the next as a child. */
  predicate IsPath(es: Entries, s: seq<Id>) {
    (forall i :: 0 <= i < |s| ==> s[i] in Keys(es)) &&
    forall i :: 0 <= i < |s| - 1 ==> s[i + 1] in ChildIds(es, s[i])
  }

  /** A path whose last entry lists its first as a child. */
  predicate IsCycle(es: Entries, s: seq<Id>) {
    |s| >= 1 && IsPath(es, s) && s[0] in ChildIds(es, s[|s| - 1])
  }

  /** A child id that names no entry and is not a null id. */
  predicate InvalidChild(es: Entries, c: Id) {
    c !in Keys(es) && !IsNullEntryId(c) && exists k :: k in Keys(es) && c in ChildIds(es, k)
  }

  /** The only errors the solve raises, each justified by the data: a
      circular containment names a genuine cycle, a missing entry is a
      child id that names no entry. */
  predicate ErrorSound(es: Entries, e: EngineError) {
    (e.CircularContainment? && IsCycle(es, e.cycle)) || (e.EntryNotFound? && InvalidChild(es, e.id))
  }

  /** The calc-entry fields the solve writes: `flattenedChildrenMap` of the
      solved entries (`memo`) and `flattenedParentMap` of every entry. */
  datatype ContainState = ContainState(memo: map<Id, WeightMap>, parents: map<Id, WeightMap>)

  /** `b` keeps every solved map of `a`. */
  predicate Grows(a: map<Id, WeightMap>, b: map<Id, WeightMap>) {
    forall k :: k in a ==> k in b && b[k] == a[k]
  }

  /** The solved maps: only of entries; each entry's children that are
      entries are solved too; each solved map names only solved entries,
      never the entry itself, and is the flatten of the entry's children
      through the solved maps. */
  predicate Solved(es: Entries, memo: map<Id, WeightMap>) {
    memo.Keys <= Keys(es) &&
    forall k :: k in memo ==>
      k !in memo[k] &&
      memo[k].Keys <= memo.Keys &&
      (forall c :: c in ChildIds(es, k) && c in Keys(es) ==> c in memo) &&
      FlattenContainContribGraph(Children(es, k), memo, true) == Ok(memo[k])
  }

  /** Every entry has a parents map, and `parents[d][e]` is exactly `memo[e][d]`. */
  predicate Mirror(es: Entries, st: ContainState) {
    st.parents.Keys == Keys(es) &&
    (forall d, e :: d in st.parents && e in st.parents[d] ==> e in st.memo && d in st.memo[e] && st.parents[d][e] == st.memo[e][d]) &&
    (forall e, d :: e in st.memo && d in st.memo[e] ==> d in st.parents && e in st.parents[d] && st.parents[d][e] == st.memo[e][d])
  }

  predicate Inv(es: Entries, st: ContainState) {
    Solved(es, st.memo) && Mirror(es, st)
  }

  /** The entries not on the path: the termination measure of the recursion. */
  function Unvisited(es: Entries, stack: seq<Id>): set<Id> {
    Keys(es) - set x | x in stack
  }

  /** `stack.indexOf(id)`: the first position of `id`. */
  function IndexOf(s: seq<Id>, x: Id): (r: nat)
    requires x in s
    ensures r < |s| && s[r] == x && forall j :: 0 <= j < r ==> s[j] != x
  {
    if s[0] == x then 0 else 1 + IndexOf(s[1..], x)
  }

  /** The writes after solving `id` to `acc`: its `flattenedChildrenMap`,
      and `flattenedParentMap.set(id, weight)` on every entry of `acc`. */
  function Record(st: ContainState, id: Id, acc: WeightMap): ContainState
  {
    ContainState(st.memo[id := acc],
                  map d | d in st.parents :: if d in acc then st.parents[d][id := acc[d]] else st.parents[d])
  }

  /** Recording a newly solved entry keeps the solved maps and their mirror
      consistent, and every entry `acc` names already has a parents map to
      write to. */
  lemma RecordKeepsInvariant(es: Entries, st: ContainState, id: Id, acc: WeightMap)
    requires Inv(es, st)
    requires id in Keys(es) && id !in st.memo
    requires forall c :: c in ChildIds(es, id) && c in Keys(es) ==> c in st.memo
    requires FlattenContainContribGraph(Children(es, id), st.memo, true) == Ok(acc)
    ensures acc.Keys <= st.memo.Keys && acc.Keys <= st.parents.Keys
    ensures Inv(es, Record(st, id, acc))
  {
    ReachedWithin(Children(es, id), st.memo);
    RecordSolved(es, st.memo, id, acc);
    RecordMirror(es, st, id, acc);
  }

  lemma RecordSolved(es: Entries, memo: map<Id, WeightMap>, id: Id, acc: WeightMap)
    requires Solved(es, memo)
    requires id in Keys(es) && id !in memo
    requires forall c :: c in ChildIds(es, id) && c in Keys(es) ==> c in memo
    requires FlattenContainContribGraph(Children(es, id), memo, true) == Ok(acc)
    requires acc.Keys <= memo.Keys
    ensures Solved(es, memo[id := acc])
  {
    var next := memo[id := acc];
    forall k | k in next
      ensures k !in next[k] && next[k].Keys <= next.Keys
      ensures forall c :: c in ChildIds(es, k) && c in Keys(es) ==> c in next
      ensures FlattenContainContribGraph(Children(es, k), next, true) == Ok(next[k])
    {
      var base := Children(es, k);
      forall i | 0 <= i < |base|
        ensures base[i].0 in memo <==> base[i].0 in next
        ensures base[i].0 in memo ==> memo[base[i].0] == next[base[i].0]
      {
        assert base[i] in base;
        assert base[i].0 in ChildIds(es, k);
      }
      FlattenFrame(base, memo, next, true, map[]);
    }
  }

  lemma RecordMirror(es: Entries, st: ContainState, id: Id, acc: WeightMap)
    requires Mirror(es, st)
    requires id !in st.memo
    requires acc.Keys <= st.parents.Keys
    ensures Mirror(es, Record(st, id, acc))
  {
    var r := Record(st, id, acc);
    forall d, e | d in r.parents && e in r.parents[d]
      ensures e in r.memo && d in r.memo[e] && r.parents[d][e] == r.memo[e][d]
    {
      if e != id {
        assert e in st.parents[d];
      }
    }
    forall e, d | e in r.memo && d in r.memo[e]
      ensures d in r.parents && e in r.parents[d] && r.parents[d][e] == r.memo[e][d]
    {
      if e != id {
        assert d in st.memo[e];
        assert e in st.parents[d] && e != id;
      }
    }
  }

  /** `flattenSingle(entry, stack)`: a solved entry returns its map; an entry
      already on the path is circular containment, reported from its first
      position on; otherwise the entry is pushed, its children are flattened
      (solving each child first), and the result is recorded. */
  function FlattenSingle(es: Entries, id: Id, st: ContainState, stack: seq<Id>)
    : (r: Result<(WeightMap, ContainState), EngineError>)
    requires Inv(es, st) && IsPath(es, stack) && id in Keys(es)
    requires stack != [] ==> id in ChildIds(es, stack[|stack| - 1])
    ensures r.Ok? ==> Inv(es, r.value.1) && Grows(st.memo, r.value.1.memo)
    ensures r.Ok? ==> id in r.value.1.memo && r.value.1.memo[id] == r.value.0
    ensures r.Ok? ==> forall k :: k in r.value.1.memo && k !in st.memo ==> k !in stack
    ensures r.Err? ==> ErrorSound(es, r.error)
    decreases Unvisited(es, stack), 0, 0
  {
    if id in st.memo then Ok((st.memo[id], st))
    else if id in stack then
      var idx := IndexOf(stack, id);
      CycleOnStack(es, stack, id, idx);
      Err(CircularContainment(stack[idx..]))
    else
      var pushed := stack + [id];
      assert Unvisited(es, pushed) < Unvisited(es, stack) by {
        assert id in Unvisited(es, stack) && id !in Unvisited(es, pushed);
      }
      var kids := FlattenKids(es, Children(es, id), st, pushed, map[]);
      if kids.Err? then Err(kids.error)
      else
        var (acc, st1) := kids.value;
        AfterChildren(es, st, st1, pushed, id, acc);
        Ok((acc, Record(st1, id, acc)))
  }

  /** An entry found on the path, reached again from the path's last entry,
      closes a cycle from its first position on. */
  lemma CycleOnStack(es: Entries, stack: seq<Id>, id: Id, idx: nat)
    requires IsPath(es, stack) && idx < |stack| && stack[idx] == id
    requires id in ChildIds(es, stack[|stack| - 1])
    ensures IsCycle(es, stack[idx..])
  {
    var cycle := stack[idx..];
    assert forall i :: 0 <= i < |cycle| ==> cycle[i] == stack[idx + i];
  }

  /** Recording an entry once its children are flattened establishes what
      `flattenSingle` promises. */
  lemma AfterChildren(es: Entries, st: ContainState, st1: ContainState, pushed: seq<Id>, id: Id, acc: WeightMap)
    requires Inv(es, st1) && Grows(st.memo, st1.memo)
    requires id in Keys(es) && id !in st.memo && id in pushed
    requires forall p :: p in Children(es, id) && p.0 in Keys(es) ==> p.0 in st1.memo
    requires FlattenFrom(Children(es, id), st1.memo, true, map[]) == Ok(acc)
    requires forall k :: k in st1.memo && k !in st.memo ==> k !in pushed
    ensures Inv(es, Record(st1, id, acc)) && Grows(st.memo, Record(st1, id, acc).memo)
    ensures id in Record(st1, id, acc).memo && Record(st1, id, acc).memo[id] == acc
    ensures forall k :: k in Record(st1, id, acc).memo && k !in st.memo ==> k == id || k !in pushed
  {
    forall c | c in ChildIds(es, id) && c in Keys(es)
      ensures c in st1.memo
    {
      var p :| p in Children(es, id) && p.0 == c;
    }
    RecordKeepsInvariant(es, st1, id, acc);
  }

  /** The loop of `flattenContainContribGraph` over an entry's children with
      the callback of `flattenSingle`: a child that is an entry is solved
      and added with its map; a null id is skipped; any other id is "entry
      not found". */
  function FlattenKids(es: Entries, kids: seq<(Id, real)>, st: ContainState, stack: seq<Id>, acc: WeightMap)
    : (r: Result<(WeightMap, ContainState), EngineError>)
    requires Inv(es, st) && IsPath(es, stack) && stack != []
    requires forall p :: p in kids ==> p.0 in ChildIds(es, stack[|stack| - 1])
    ensures r.Ok? ==> Inv(es, r.value.1) && Grows(st.memo, r.value.1.memo)
    ensures r.Ok? ==> forall p :: p in kids && p.0 in Keys(es) ==> p.0 in r.value.1.memo
    ensures r.Ok? ==> FlattenFrom(kids, r.value.1.memo, true, acc) == Ok(r.value.0)
    ensures r.Ok? ==> forall k :: k in r.value.1.memo && k !in st.memo ==> k !in stack
    ensures r.Err? ==> ErrorSound(es, r.error)
    decreases Unvisited(es, stack), 1, |kids|
  {
    if kids == [] then Ok((acc, st))
    else
      var (c, w) := kids[0];
      assert kids[0] in kids;
      assert forall p :: p in kids[1..] ==> p in kids;
      if c in Keys(es) then
        var single := FlattenSingle(es, c, st, stack);
        if single.Err? then Err(single.error)
        else
          var (cm, st1) := single.value;
          FlattenKids(es, kids[1..], st1, stack, AddResolved(acc, c, w, cm))
      else if IsNullEntryId(c) then
        FlattenKids(es, kids[1..], st, stack, acc)
      else
        Err(EntryNotFound(c))
  }

  /** The state before the solve: nothing solved, every entry with an empty
      `flattenedParentMap`. */
  function InitialState(es: Entries): (r: ContainState)
    ensures Inv(es, r) && r.memo == map[]
  {
    ContainState(map[], map k | k in Keys(es) :: map[])
  }

  /** The loop `for (const [_, entry] of entries) flattenSingle(entry)` from position `i` on. */
  function SolveFrom(es: Entries, i: nat, st: ContainState): (r: Result<ContainState, EngineError>)
    requires i <= |es| && Inv(es, st)
    requires forall j :: 0 <= j < i ==> es[j].0 in st.memo
    ensures r.Ok? ==> Inv(es, r.value) && r.value.memo.Keys == Keys(es)
    ensures r.Err? ==> ErrorSound(es, r.error)
    decreases |es| - i
  {
    if i == |es| then
      assert Keys(es) <= st.memo.Keys by {
        forall k | k in Keys(es)
          ensures k in st.memo
        {
          KeysMembership(es, k);
        }
      }
      Ok(st)
    else
      KeysMembership(es, es[i].0);
      var single := FlattenSingle(es, es[i].0, st, []);
      if single.Err? then Err(single.error)
      else
        var next := single.value.1;
        assert forall j :: 0 <= j < i + 1 ==> es[j].0 in next.memo by {
          assert Grows(st.memo, next.memo);
          assert es[i].0 in next.memo;
        }
        SolveFrom(es, i + 1, next)
  }

  /** `solveContainWeights`: solves every entry, or fails with an error the
      data justifies. */
  function SolveContainWeights(es: Entries): (r: Result<ContainState, EngineError>)
    ensures r.Ok? ==> Inv(es, r.value) && r.value.memo.Keys == Keys(es)
    ensures r.Err? ==> ErrorSound(es, r.error)
  {
    SolveFrom(es, 0, InitialState(es))
  }

  /** A resolved base id, and every id its map names, is reached. */
  lemma {:induction false} ReachedContains(base: seq<(Id, real)>, lookup: map<Id, WeightMap>, i: nat)
    requires i < |base| && base[i].0 in lookup
    ensures base[i].0 in Reached(base, lookup) && lookup[base[i].0].Keys <= Reached(base, lookup)
  {
    if i > 0 {
      assert base[1..][i - 1] == base[i];
      ReachedContains(base[1..], lookup, i - 1);
    }
  }

  /** In solved maps, a child that is an entry appears in its parent's map
      together with everything in its own map. */
  lemma ChildInSolved(es: Entries, memo: map<Id, WeightMap>, k: Id, c: Id)
    requires Solved(es, memo) && k in memo
    requires c in ChildIds(es, k) && c in Keys(es)
    ensures c in memo && c in memo[k] && memo[c].Keys <= memo[k].Keys
  {
    var base := Children(es, k);
    var p :| p in base && p.0 == c;
    var i :| 0 <= i < |base| && base[i] == p;
    ReachedContains(base, memo, i);
  }

  /** Along a path of solved entries, every later entry, and everything in
      its map, is in the map of every earlier entry. */
  lemma {:induction false} PathDescends(es: Entries, memo: map<Id, WeightMap>, s: seq<Id>, i: nat, j: nat)
    requires Solved(es, memo) && memo.Keys == Keys(es) && IsPath(es, s)
    requires i < j < |s|
    ensures s[j] in memo[s[i]] && memo[s[j]].Keys <= memo[s[i]].Keys
    decreases j - i
  {
    ChildInSolved(es, memo, s[i], s[i + 1]);
    if i + 1 < j {
      PathDescends(es, memo, s, i + 1, j);
    }
  }

  /** Solved maps for every entry leave no room for a cycle: an entry on a
      cycle would appear in its own map. */
  lemma NoCycleWhenSolved(es: Entries, memo: map<Id, WeightMap>, s: seq<Id>)
    requires Solved(es, memo) && memo.Keys == Keys(es)
    ensures !IsCycle(es, s)
  {
    if IsCycle(es, s) {
      var last := |s| - 1;
      ChildInSolved(es, memo, s[last], s[0]);
      if last > 0 {
        PathDescends(es, memo, s, 0, last);
      }
    }
  }

  /** Solved maps for every entry leave no child id that names no entry
      and is not a null id: flattening its parent would have failed. */
  lemma NoInvalidChildWhenSolved(es: Entries, memo: map<Id, WeightMap>, c: Id)
    requires Solved(es, memo) && memo.Keys == Keys(es)
    ensures !InvalidChild(es, c)
  {
  }

  /** The solve succeeds exactly when no entry contains itself, directly or
      through other entries, and every child id names an entry or is a null id. */
  lemma SolveContainWeightsSucceeds(es: Entries)
    ensures SolveContainWeights(es).Ok? <==>
              (forall s :: !IsCycle(es, s)) && (forall c :: !InvalidChild(es, c))
  {
    var r := SolveContainWeights(es);
    if r.Ok? {
      forall s
        ensures !IsCycle(es, s)
      {
        NoCycleWhenSolved(es, r.value.memo, s);
      }
      forall c
        ensures !InvalidChild(es, c)
      {
        NoInvalidChildWhenSolved(es, r.value.memo, c);
      }
    } else if r.error.CircularContainment? {
      assert IsCycle(es, r.error.cycle);
    } else {
      assert InvalidChild(es, r.error.id);
    }
  }
}

=== FILE: context.dfy ===
/** The engine context of `src/process.ts`: which extensions are enabled,
    the combine function and the per-factor combine weights, with
    `newContext`'s precedence and failure rules and
    `checkExtensionDependencies`. Also the error every engine phase can
    raise. */
module EngineContext {
  import opened Wrappers
  import opened Assoc
  import opened Utils
  import opened LinAlg
  import SrcFactors
  import CombinePP

  /** The errors the engine throws, one constructor per `throw` (plus the
      dimension errors of the vector algebra and the undefined impact score
      a relation can read). */
  datatype EngineError =
    | CombineFunctionNotSpecified
    | WeightsNotSpecified
    | MissingDependencies(extension: string, missing: seq<string>)
    | EntryNotFound(id: string)
    | CircularContainment(cycle: seq<string>)
    | MissingImpactScore(id: string)
    | PushPopMismatch
    | MathFailure(error: MathError)

  /** The extension slots in the order `newContext` builds them, each with
      the enabled extension's dependency list, or `None` when disabled. */
  type Extensions = seq<(string, Option<seq<string>>)>

  const CombinePow := "DAH_combine_pow"
  const CombinePPName := "DAH_combine_pp"
  const FactorsName := "DAH_factors"

  /** A context: the extensions, the combine function and one combine weight per factor. */
  datatype Context = Context(extensions: Extensions, combine: CombineFunction, weights: Vector)

  /** The configuration's own combine function and weights, both optional. */
  datatype ContextConfig = ContextConfig(combineFunction: Option<CombineFunction>, factorScoreCombineWeight: Option<Vector>)

  /** Whether slot `name` holds an enabled extension (`extensions[name] !== undefined`). */
  predicate Enabled(exts: Extensions, name: string) {
    var slot := Get(exts, name);
    slot.Some? && slot.value.Some?
  }

  /** The dependencies of an extension that are not enabled, in their listed order. */
  function MissingOf(exts: Extensions, deps: seq<string>): (r: seq<string>)
    ensures forall d :: d in r <==> d in deps && !Enabled(exts, d)
    ensures |r| <= |deps|
  {
    if deps == [] then []
    else
      assert forall d :: d in deps[1..] ==> d in deps;
      (if Enabled(exts, deps[0]) then [] else [deps[0]]) + MissingOf(exts, deps[1..])
  }

  /** Every enabled extension among `slots` has all its dependencies enabled. */
  predicate DependenciesMet(exts: Extensions, slots: Extensions) {
    forall i, d :: 0 <= i < |slots| && slots[i].1.Some? && d in slots[i].1.value ==> Enabled(exts, d)
  }

  /** An extension slot is disabled or has all its dependencies enabled. */
  predicate SlotMet(exts: Extensions, slot: (string, Option<seq<string>>)) {
    slot.1.None? || MissingOf(exts, slot.1.value) == []
  }

  lemma SlotMetSpec(exts: Extensions, slot: (string, Option<seq<string>>))
    ensures SlotMet(exts, slot) <==> slot.1.None? || forall d :: d in slot.1.value ==> Enabled(exts, d)
  {
    if slot.1.Some? && MissingOf(exts, slot.1.value) != [] {
      assert MissingOf(exts, slot.1.value)[0] in MissingOf(exts, slot.1.value);
    }
  }

  /** The position of the first slot from `from` on whose extension misses a dependency. */
  function FirstUnmet(exts: Extensions, slots: Extensions, from: nat): (r: Option<nat>)
    requires from <= |slots|
    ensures r.None? ==> forall i :: from <= i < |slots| ==> SlotMet(exts, slots[i])
    ensures r.Some? ==> from <= r.value < |slots| && !SlotMet(exts, slots[r.value]) &&
                        forall i :: from <= i < r.value ==> SlotMet(exts, slots[i])
    decreases |slots| - from
  {
    if from == |slots| then None
    else if !SlotMet(exts, slots[from]) then Some(from)
    else FirstUnmet(exts, slots, from + 1)
  }

  /** `checkExtensionDependencies`: walks the enabled extensions in order and
      throws for the first one with a dependency that is not enabled, naming
      all of its missing dependencies in their listed order. */
  function CheckDependencies(exts: Extensions, slots: Extensions): (r: Result<(), EngineError>)
    ensures r.Ok? <==> DependenciesMet(exts, slots)
    ensures r.Err? ==> exists i :: 0 <= i < |slots| && slots[i].1.Some? &&
                         r.error == MissingDependencies(slots[i].0, MissingOf(exts, slots[i].1.value)) &&
                         MissingOf(exts, slots[i].1.value) != [] &&
                         DependenciesMet(exts, slots[..i])
  {
    var first := FirstUnmet(exts, slots, 0);
    if first.None? then
      assert DependenciesMet(exts, slots) by {
        forall i | 0 <= i < |slots|
          ensures slots[i].1.None? || forall d :: d in slots[i].1.value ==> Enabled(exts, d)
        {
          SlotMetSpec(exts, slots[i]);
        }
      }
      Ok(())
    else
      var i := first.value;
      SlotMetSpec(exts, slots[i]);
      assert DependenciesMet(exts, slots[..i]) by {
        forall k | 0 <= k < i
          ensures slots[k].1.None? || forall d :: d in slots[k].1.value ==> Enabled(exts, d)
        {
          SlotMetSpec(exts, slots[k]);
        }
      }
      Err(MissingDependencies(slots[i].0, MissingOf(exts, slots[i].1.value)))
  }

  /** `checkExtensionDependencies(extensions)`. */
  function CheckExtensionDependencies(exts: Extensions): (r: Result<(), EngineError>)
    ensures r.Ok? <==> DependenciesMet(exts, exts)
    ensures r.Err? ==> r.error.MissingDependencies?
  {
    CheckDependencies(exts, exts)
  }

  /** `newContext` once the extensions are built: `DAH_combine_pp`'s combine
      function overrides `DAH_combine_pow`'s (`powCombine`), which overrides
      the configured one; `DAH_factors`' weight vector overrides the
      configured one; a missing combine function, then missing weights, then
      an unmet dependency are errors, in that order. */
  function NewContext(config: ContextConfig, exts: Extensions, powCombine: CombineFunction): (r: Result<Context, EngineError>)
    ensures r.Ok? <==>
              (Enabled(exts, CombinePPName) || Enabled(exts, CombinePow) || config.combineFunction.Some?) &&
              (Enabled(exts, FactorsName) || config.factorScoreCombineWeight.Some?) &&
              DependenciesMet(exts, exts)
    ensures r.Ok? ==> r.value.extensions == exts
    ensures r.Ok? && Enabled(exts, CombinePPName) ==> r.value.combine == CombinePP.MakeCombineFunction()
    ensures r.Ok? && !Enabled(exts, CombinePPName) && Enabled(exts, CombinePow) ==> r.value.combine == powCombine
    ensures r.Ok? && !Enabled(exts, CombinePPName) && !Enabled(exts, CombinePow) ==>
              r.value.combine == config.combineFunction.value
    ensures r.Ok? && Enabled(exts, FactorsName) ==> r.value.weights == SrcFactors.GetFactorCombineWeightVector()
    ensures r.Ok? && !Enabled(exts, FactorsName) ==> r.value.weights == config.factorScoreCombineWeight.value
    ensures r == Err(CombineFunctionNotSpecified) <==>
              !Enabled(exts, CombinePPName) && !Enabled(exts, CombinePow) && config.combineFunction.None?
    ensures r == Err(WeightsNotSpecified) <==>
              (Enabled(exts, CombinePPName) || Enabled(exts, CombinePow) || config.combineFunction.Some?) &&
              !Enabled(exts, FactorsName) && config.factorScoreCombineWeight.None?
    ensures (Enabled(exts, CombinePPName) || Enabled(exts, CombinePow) || config.combineFunction.Some?) &&
            (Enabled(exts, FactorsName) || config.factorScoreCombineWeight.Some?) &&
            CheckExtensionDependencies(exts).Err? ==>
              r == Err(CheckExtensionDependencies(exts).error)
  {
    var combine :=
      if Enabled(exts, CombinePPName) then Some(CombinePP.MakeCombineFunction())
      else if Enabled(exts, CombinePow) then Some(powCombine)
      else config.combineFunction;
    var weights :=
      if Enabled(exts, FactorsName) then Some(SrcFactors.GetFactorCombineWeightVector())
      else config.factorScoreCombineWeight;
    if combine.None? then Err(CombineFunctionNotSpecified)
    else if weights.None? then Err(WeightsNotSpecified)
    else
      var checked := CheckExtensionDependencies(exts);
      if checked.Err? then Err(checked.error)
      else Ok(Context(exts, combine.value, weights.value))
  }
}

=== FILE: core_contain.dfy ===
/** The containment phase of the alternative engine `src/core.ts`
    (`Processor.#solveContainWeight`): every entry's `containMap` holds the
    weight of each entry it contains, directly or through other entries,
    accumulated with `Math.min(1.0, old + delta)` so no stored weight exceeds
    one. The map is set before the entry is pushed on a
    `ReoccurrenceStack(1)`, so a revisit on the current path returns early
    and the "circular entry containment" throw can never fire: a cycle
    silently reads the partial map of the entry being solved. */
module CoreContain {
  import opened Wrappers
  import opened Assoc
  import Data
  import opened EngineContext
  import opened Reoccurrence
  import Contain

  type Id = string

  /** The entries map of the processor, keyed by id in insertion order. */
  type Entries = seq<(Id, Data.Entry)>

  /** An `IDWeightMap` or a `containMap`: ids with weights in insertion order. */
  type WeightList = seq<(Id, real)>

  /** `Math.min(1.0, x)`. */
  function Min1(x: real): (r: real)
    ensures r <= 1.0 && r <= x && (r == x || r == 1.0)
  {
    if x < 1.0 then x else 1.0
  }

  /** The stored weight of `id`, zero when absent (`map.get(id) ?? 0`). */
  function Weight(m: WeightList, id: Id): real {
    Get(m, id).GetOr(0.0)
  }

  /** `IDWeightMap.add` and `CalcEntry.addContainWeight`: add `delta` to the
      stored weight and clamp the sum at one. */
  function AddClamped(m: WeightList, id: Id, delta: real): (r: WeightList)
    ensures Keys(r) == Keys(m) + {id}
    ensures Get(r, id) == Some(Min1(Weight(m, id) + delta))
    ensures forall k :: k != id ==> Get(r, k) == Get(m, k)
    ensures Distinct(m) ==> Distinct(r)
  {
    var r := Set(m, id, Min1(Weight(m, id) + delta));
    assert Distinct(m) ==> Distinct(r) by {
      if Distinct(m) {
        SetDistinct(m, id, Min1(Weight(m, id) + delta));
      }
    }
    assert forall k :: Get(r, k) == if k == id then Some(Min1(Weight(m, id) + delta)) else Get(m, k) by {
      forall k
        ensures Get(r, k) == if k == id then Some(Min1(Weight(m, id) + delta)) else Get(m, k)
      {
        SetGet(m, id, Min1(Weight(m, id) + delta), k);
      }
    }
    r
  }

  /** Every stored weight is at most one. */
  predicate Bounded(m: WeightList) {
    forall i :: 0 <= i < |m| ==> m[i].1 <= 1.0
  }

  lemma {:induction false} SetBounded(m: WeightList, k: Id, v: real)
    requires Bounded(m) && v <= 1.0
    ensures Bounded(Set(m, k, v))
  {
    var r := Set(m, k, v);
    if m != [] && m[0].0 != k {
      assert r[1..] == Set(m[1..], k, v);
      SetBounded(m[1..], k, v);
      assert forall i :: 1 <= i < |r| ==> r[i] == r[1..][i - 1];
    } else if m != [] {
      assert forall i :: 1 <= i < |r| ==> r[i] == m[i];
    }
  }

  /** Clamped accumulation keeps every stored weight at most one, whatever
      the signs and sizes of the deltas. */
  lemma AddClampedBounded(m: WeightList, id: Id, delta: real)
    ensures Bounded(m) ==> Bounded(AddClamped(m, id, delta))
  {
    if Bounded(m) {
      SetBounded(m, id, Min1(Weight(m, id) + delta));
    }
  }

  /** With non-negative deltas the clamps do not interfere: two additions
      store the clamped total, in either order. */
  lemma AddClampedNonNegative(m: WeightList, id: Id, d1: real, d2: real)
    requires d1 >= 0.0 && d2 >= 0.0
    ensures Weight(AddClamped(AddClamped(m, id, d1), id, d2), id) == Min1(Weight(m, id) + d1 + d2)
    ensures Weight(AddClamped(AddClamped(m, id, d1), id, d2), id) ==
            Weight(AddClamped(AddClamped(m, id, d2), id, d1), id)
  {
  }

  /** With a negative delta the order of accumulation changes the stored
      weight: +1, +1, -1 stores 0, while -1, +1, +1 stores 1. */
  lemma AddClampedOrderMatters(id: Id)
    ensures Weight(AddClamped(AddClamped(AddClamped([], id, 1.0), id, 1.0), id, -1.0), id) == 0.0
    ensures Weight(AddClamped(AddClamped(AddClamped([], id, -1.0), id, 1.0), id, 1.0), id) == 1.0
  {
  }

  /** The delta a contained pair passes on: the child's weight times the
      weight the child stores for the pair's id. */
  function Scaled(weight: real, w: real): real {
    weight * w
  }

  /** The grandchild loop: `addContainWeight(g, childWeight * gw)` for every
      pair of the child's map, in order. */
  function AddScaled(m: WeightList, pairs: WeightList, weight: real): (r: WeightList)
    ensures Keys(r) == Keys(m) + Keys(pairs)
    ensures Bounded(m) ==> Bounded(r)
    ensures Distinct(m) ==> Distinct(r)
    decreases |pairs|
  {
    if pairs == [] then m
    else
      AddClampedBounded(m, pairs[0].0, Scaled(weight, pairs[0].1));
      AddScaled(AddClamped(m, pairs[0].0, Scaled(weight, pairs[0].1)), pairs[1..], weight)
  }

  /** One child of the loop: `addContainWeight(childId, childWeight)`, then
      the child's map scaled by the child's weight. When the child is the
      entry itself, its map is read after its own weight was added. */
  function Accumulate(own: WeightList, childId: Id, weight: real, childMap: WeightList, selfLoop: bool): (r: WeightList)
    ensures Keys(r) == Keys(own) + {childId} + (if selfLoop then {} else Keys(childMap))
    ensures Bounded(own) ==> Bounded(r)
  {
    var added := AddClamped(own, childId, weight);
    AddClampedBounded(own, childId, weight);
    AddScaled(added, if selfLoop then added else childMap, weight)
  }

  /** With a non-negative second delta the clamps compose: clamping the
      first sum changes nothing once the second is added and clamped. */
  lemma Min1Nested(x: real, d: real)
    requires d >= 0.0
    ensures Min1(Min1(x) + d) == Min1(x + d)
  {
  }

  /** Every stored weight is non-negative. */
  predicate NonNegative(m: WeightList) {
    forall i :: 0 <= i < |m| ==> m[i].1 >= 0.0
  }

  /** A map of non-negative weights reads a non-negative weight for every id. */
  lemma {:induction false} WeightNonNegative(m: WeightList, k: Id)
    requires NonNegative(m)
    ensures Weight(m, k) >= 0.0
    decreases |m|
  {
    if m != [] && m[0].0 != k {
      assert NonNegative(m[1..]) by {
        assert forall i :: 0 <= i < |m[1..]| ==> m[1..][i] == m[i + 1];
      }
      WeightNonNegative(m[1..], k);
    }
  }

  /** With duplicate-free pairs every id is touched at most once: an id of
      the pairs stores its old weight plus `weight` times its paired weight,
      clamped at one, and every other id keeps its weight. */
  lemma {:induction false} AddScaledWeight(m: WeightList, pairs: WeightList, weight: real, k: Id)
    requires Distinct(pairs)
    ensures Weight(AddScaled(m, pairs, weight), k) ==
            if k in Keys(pairs) then Min1(Weight(m, k) + Scaled(weight, Weight(pairs, k))) else Weight(m, k)
    decreases |pairs|
  {
    if pairs != [] {
      var next := AddClamped(m, pairs[0].0, Scaled(weight, pairs[0].1));
      DistinctTail(pairs);
      AddScaledHead(m, pairs, weight, k);
      AddScaledWeight(next, pairs[1..], weight, k);
    }
  }

  /** The first pair of a duplicate-free list: its id alone is updated, and
      every other id reads the same in the list and in its tail. */
  lemma AddScaledHead(m: WeightList, pairs: WeightList, weight: real, k: Id)
    requires pairs != [] && pairs[0].0 !in Keys(pairs[1..])
    ensures AddScaled(m, pairs, weight) == AddScaled(AddClamped(m, pairs[0].0, Scaled(weight, pairs[0].1)), pairs[1..], weight)
    ensures k == pairs[0].0 ==>
              && k in Keys(pairs) && k !in Keys(pairs[1..])
              && Weight(AddClamped(m, pairs[0].0, Scaled(weight, pairs[0].1)), k) == Min1(Weight(m, k) + Scaled(weight, Weight(pairs, k)))
    ensures k != pairs[0].0 ==>
              && (k in Keys(pairs) <==> k in Keys(pairs[1..]))
              && Weight(pairs, k) == Weight(pairs[1..], k)
              && Weight(AddClamped(m, pairs[0].0, Scaled(weight, pairs[0].1)), k) == Weight(m, k)
  {
  }

  /** The weights one child leaves behind: the child's id gains the child's
      weight; then every id of the child's map gains `weight` times its
      weight there. For a self-loop the map read is the entry's own map
      after the child's weight was added, each id read before it is
      updated. */
  lemma AccumulateWeight(own: WeightList, childId: Id, weight: real, childMap: WeightList, selfLoop: bool, k: Id)
    requires if selfLoop then Distinct(own) else Distinct(childMap)
    ensures var before := if k == childId then Min1(Weight(own, k) + weight) else Weight(own, k);
            var r := Accumulate(own, childId, weight, childMap, selfLoop);
            && (!selfLoop ==>
                  Weight(r, k) == if k in Keys(childMap) then Min1(before + Scaled(weight, Weight(childMap, k))) else before)
            && (selfLoop ==>
                  Weight(r, k) == if k in Keys(own) + {childId} then Min1(before + Scaled(weight, before)) else before)
  {
    var added := AddClamped(own, childId, weight);
    assert Weight(added, k) == if k == childId then Min1(Weight(own, k) + weight) else Weight(own, k);
    if selfLoop {
      AddScaledWeight(added, added, weight, k);
    } else {
      AddScaledWeight(added, childMap, weight, k);
    }
  }

  /** The `containMap` of every entry set so far. */
  type ContainMaps = map<Id, WeightList>

  /** The entries whose `containMap` is still unset: the termination measure. */
  function Unset(es: Entries, cms: ContainMaps): set<Id> {
    Keys(es) - cms.Keys
  }

  /** Every entry on the stack already has its `containMap` set. */
  predicate OnStackSet(cms: ContainMaps, stack: Stack) {
    forall k :: k in stack.data ==> k in cms
  }

  /** Every id stored in a `containMap` names an entry. */
  predicate KeysKnown(es: Entries, cms: ContainMaps) {
    forall k :: k in cms ==> Keys(cms[k]) <= Keys(es)
  }

  predicate AllBounded(cms: ContainMaps) {
    forall k :: k in cms ==> Bounded(cms[k])
  }

  /** What every `containMap` keeps: weights at most one, ids of entries. */
  predicate WellStored(es: Entries, cms: ContainMaps) {
    AllBounded(cms) && KeysKnown(es, cms)
  }

  /** Setting an entry's map to empty, as `#solveContainWeightSingle` does
      before pushing it, keeps every map well stored. */
  lemma StartKeeps(es: Entries, cms: ContainMaps, id: Id)
    ensures WellStored(es, cms) ==> WellStored(es, cms[id := []])
  {
  }

  /** The entry `id` after accumulating one solved child into its map. */
  function AccumulateChild(es: Entries, maps: ContainMaps, id: Id, childId: Id, weight: real): (r: ContainMaps)
    requires id in maps && childId in maps && childId in Keys(es)
    ensures r.Keys == maps.Keys
    ensures forall k :: k in maps && k != id ==> r[k] == maps[k]
    ensures WellStored(es, maps) ==> WellStored(es, r)
  {
    var own := Accumulate(maps[id], childId, weight, maps[childId], childId == id);
    maps[id := own]
  }

  /** Every child of `k` names an entry. */
  predicate ChildrenKnown(es: Entries, k: Id) {
    forall c :: c in Contain.ChildIds(es, k) ==> c in Keys(es)
  }

  /** A child id of some entry that names no entry (null ids included:
      `#getEntry` does not skip them). */
  predicate UnknownChild(es: Entries, c: Id) {
    c !in Keys(es) && exists k :: k in Keys(es) && c in Contain.ChildIds(es, k)
  }

  /** `#solveContainWeightSingle(entry, stack)`: an entry with a
      `containMap` returns at once; otherwise its map is set to empty, it is
      pushed (a failed push is "circular entry containment"), its children are
      solved and accumulated, and it is popped. */
  function SolveSingle(es: Entries, id: Id, cms: ContainMaps, stack: Stack)
    : (r: Result<(ContainMaps, Stack), EngineError>)
    requires id in Keys(es) && Valid(stack)
    ensures r.Ok? ==> r.value.1 == stack && id in r.value.0 && cms.Keys <= r.value.0.Keys <= cms.Keys + Keys(es)
    ensures r.Ok? ==> forall k :: k in cms ==> r.value.0[k] == cms[k]
    ensures r.Ok? ==> forall k :: k in r.value.0 && k !in cms ==> ChildrenKnown(es, k)
    ensures r.Ok? && WellStored(es, cms) ==> WellStored(es, r.value.0)
    ensures r.Err? ==> (r.error.EntryNotFound? && UnknownChild(es, r.error.id)) || r.error.CircularContainment?
    ensures OnStackSet(cms, stack) && stack.maxOccurrences == 1 && r.Err? ==> r.error.EntryNotFound?
    ensures OnStackSet(cms, stack) && stack.maxOccurrences == 1 && (forall k :: k in Keys(es) ==> ChildrenKnown(es, k)) ==>
              r.Ok?
    decreases Unset(es, cms), 0, 0
  {
    if id in cms then Ok((cms, stack))
    else
      var started := cms[id := []];
      StartKeeps(es, cms, id);
      var pushed := Push(stack, id);
      if !pushed.0 then Err(CircularContainment([id]))
      else
        var looped :- ChildLoop(es, id, Contain.Children(es, id), started, pushed.1);
        assert forall k :: k in cms ==> k in started && k != id && started[k] == cms[k];
        assert forall k :: k in cms ==> looped.0[k] == cms[k];
        PushThenPop(stack, id);
        Ok((looped.0, Pop(looped.1, id).value))
  }

  /** `for (const [childId, childWeight] of entry.entry.children)`: an
      unknown child is "entry not found"; a known child is solved, then the
      entry accumulates the child's weight and the child's whole map scaled
      by it. A child that is the entry itself is iterated after its own
      weight was added. */
  function ChildLoop(es: Entries, id: Id, kids: WeightList, cms: ContainMaps, stack: Stack)
    : (r: Result<(ContainMaps, Stack), EngineError>)
    requires id in Keys(es) && id in cms && Valid(stack)
    requires forall j :: 0 <= j < |kids| ==> kids[j].0 in Contain.ChildIds(es, id)
    ensures r.Ok? ==> r.value.1 == stack && cms.Keys <= r.value.0.Keys <= cms.Keys + Keys(es)
    ensures r.Ok? ==> forall k :: k in cms && k != id ==> r.value.0[k] == cms[k]
    ensures r.Ok? ==> forall k :: k in r.value.0 && k !in cms ==> ChildrenKnown(es, k)
    ensures r.Ok? ==> forall j :: 0 <= j < |kids| ==> kids[j].0 in Keys(es)
    ensures r.Ok? && WellStored(es, cms) ==> WellStored(es, r.value.0)
    ensures r.Err? ==> (r.error.EntryNotFound? && UnknownChild(es, r.error.id)) || r.error.CircularContainment?
    ensures OnStackSet(cms, stack) && stack.maxOccurrences == 1 && r.Err? ==> r.error.EntryNotFound?
    ensures OnStackSet(cms, stack) && stack.maxOccurrences == 1 && (forall k :: k in Keys(es) ==> ChildrenKnown(es, k)) ==>
              r.Ok?
    decreases Unset(es, cms), 1, |kids|
  {
    if kids == [] then Ok((cms, stack))
    else
      var childId := kids[0].0;
      var weight := kids[0].1;
      if childId !in Keys(es) then
        assert id in Keys(es) && childId in Contain.ChildIds(es, id);
        Err(EntryNotFound(childId))
      else
        var solved :- SolveSingle(es, childId, cms, stack);
        var maps := solved.0;
        var rest := ChildLoop(es, id, kids[1..], AccumulateChild(es, maps, id, childId, weight), solved.1);
        KidsAllKnown(es, kids, rest.Ok?);
        rest
  }

  /** The children are all known when the first one and the rest are. */
  lemma KidsAllKnown(es: Entries, kids: WeightList, restOk: bool)
    requires kids != [] && kids[0].0 in Keys(es)
    requires restOk ==> forall j :: 0 <= j < |kids| - 1 ==> kids[1..][j].0 in Keys(es)
    ensures restOk ==> forall j :: 0 <= j < |kids| ==> kids[j].0 in Keys(es)
  {
    if restOk {
      forall j | 0 < j < |kids|
        ensures kids[j].0 in Keys(es)
      {
        assert kids[j] == kids[1..][j - 1];
      }
    }
  }

  /** The loop of `#solveContainWeight` from the `i`-th entry on, each with a
      fresh `ReoccurrenceStack(1)`. */
  function SolveFrom(es: Entries, i: nat, cms: ContainMaps): (r: Result<ContainMaps, EngineError>)
    requires i <= |es|
    requires forall j :: 0 <= j < i ==> es[j].0 in cms
    ensures r.Ok? ==> cms.Keys <= r.value.Keys && Keys(es) <= r.value.Keys <= cms.Keys + Keys(es)
    ensures r.Ok? ==> forall k :: k in r.value && k !in cms ==> ChildrenKnown(es, k)
    ensures r.Ok? && WellStored(es, cms) ==> WellStored(es, r.value)
    ensures r.Err? ==> r.error.EntryNotFound? && UnknownChild(es, r.error.id)
    ensures (forall k :: k in Keys(es) ==> ChildrenKnown(es, k)) ==> r.Ok?
    decreases |es| - i
  {
    if i == |es| then
      assert Keys(es) <= cms.Keys by {
        forall k | k in Keys(es)
          ensures k in cms
        {
          KeysMembership(es, k);
        }
      }
      Ok(cms)
    else
      KeysMembership(es, es[i].0);
      var solved :- SolveSingle(es, es[i].0, cms, NewStack(1));
      SolveFrom(es, i + 1, solved.0)
  }

  /** `#solveContainWeight`: every entry's `containMap`. It fails exactly
      when some child id names no entry, and then names such an id; the
      circular-containment error never occurs; every stored weight is at
      most one. */
  function SolveContainWeight(es: Entries): (r: Result<ContainMaps, EngineError>)
    ensures r.Ok? <==> forall k :: k in Keys(es) ==> ChildrenKnown(es, k)
    ensures r.Ok? ==> r.value.Keys == Keys(es) && WellStored(es, r.value)
    ensures r.Err? ==> r.error.EntryNotFound? && UnknownChild(es, r.error.id)
  {
    SolveFrom(es, 0, map[])
  }
}

=== FILE: core_engine.dfy ===
/** The alternative engine `src/core.ts` (`process` and its `Processor`)
    after the containment phase: contributor maps spread downwards through
    each contributor's `containMap`, impact scores collected per entry and
    combined, relation lists, the relation pass, and the results. Unlike
    `src/process.ts`, every unknown id (null ids included) is "entry not
    found", weights are clamped at one, and the relation pass returns
    `combineVectors(context, [])` for every entry: the per-relation scores
    are added into the relation scores of the entries the recursion visits,
    and each entry's own score is then overwritten by that constant. */
module CoreEngine {
  import opened Wrappers
  import opened Assoc
  import opened LinAlg
  import opened Utils
  import opened EngineContext
  import opened Reoccurrence
  import Data
  import Scores
  import opened CoreContain
  import RelationScore
  import Contain

  /** An `NRSContext` of the core engine: the combine function, the
      weight-buff function and one combine weight per factor. */
  datatype CoreContext = CoreContext(combine: CombineFunction, buffWeight: real -> Matrix, weights: Vector)

  /** The engine context `combineVectors` reads. */
  function AsContext(cc: CoreContext): (ctx: Context)
    ensures ctx.combine == cc.combine && ctx.weights == cc.weights
  {
    Context([], cc.combine, cc.weights)
  }

  /** `combineVectors(context, [])`: the score of an entry with nothing to combine. */
  function Base(cc: CoreContext): (r: Vector)
    ensures |r| == |cc.weights|
    ensures forall i :: 0 <= i < |r| ==> r[i] == cc.combine([], cc.weights[i])
  {
    Scores.CombineVectors(AsContext(cc), [])
  }

  /** Vectors with one component per factor. */
  predicate Sized(cc: CoreContext, v: Vector) {
    |v| == |cc.weights|
  }

  /** A matrix `buffWeight` may return or a reference may carry that maps
      factor-sized vectors to factor-sized vectors. */
  predicate Fits(cc: CoreContext, m: Matrix) {
    RelationScore.MatrixFits(|cc.weights|, m)
  }

  // ---------------------------------------------------------------------
  // Contributor maps
  // ---------------------------------------------------------------------

  /** The ids a contributor list reaches: each contributor and every id in
      its `containMap`. */
  function Spread(cms: ContainMaps, contributors: WeightList): set<Id>
    decreases |contributors|
  {
    if contributors == [] then {}
    else
      var c := contributors[0].0;
      {c} + (if c in cms then Keys(cms[c]) else {}) + Spread(cms, contributors[1..])
  }

  /** Every contributor names an entry. */
  predicate ContributorsKnown(es: Entries, contributors: WeightList) {
    forall j :: 0 <= j < |contributors| ==> contributors[j].0 in Keys(es)
  }

  /** `#fillContributorMap`: each contributor adds its weight, then (after
      `#getEntry`, which throws for an unknown id) every entry it contains
      adds the contributor's weight times the contained weight; every
      addition is clamped at one. */
  function FillContributorMap(es: Entries, cms: ContainMaps, contributors: WeightList, acc: WeightList)
    : (r: Result<WeightList, EngineError>)
    requires Keys(es) <= cms.Keys
    ensures r.Ok? <==> ContributorsKnown(es, contributors)
    ensures r.Ok? ==> Keys(r.value) == Keys(acc) + Spread(cms, contributors)
    ensures r.Ok? && Bounded(acc) ==> Bounded(r.value)
    ensures r.Ok? && Distinct(acc) ==> Distinct(r.value)
    ensures r.Err? ==> r.error.EntryNotFound? && r.error.id !in Keys(es) &&
                       exists j :: 0 <= j < |contributors| && contributors[j].0 == r.error.id
    decreases |contributors|
  {
    if contributors == [] then Ok(acc)
    else
      var id := contributors[0].0;
      var weight := contributors[0].1;
      var added := AddClamped(acc, id, weight);
      AddClampedBounded(acc, id, weight);
      ContributorsStep(es, contributors);
      if id !in Keys(es) then Err(EntryNotFound(id))
      else FillContributorMap(es, cms, contributors[1..], AddScaled(added, cms[id], weight))
  }

  /** The contributors are known when the first one and the rest are, and a
      contributor of the rest is a contributor. */
  lemma ContributorsStep(es: Entries, contributors: WeightList)
    requires contributors != []
    ensures ContributorsKnown(es, contributors) <==> contributors[0].0 in Keys(es) && ContributorsKnown(es, contributors[1..])
    ensures forall j :: 0 <= j < |contributors| - 1 ==> contributors[1..][j] == contributors[j + 1]
  {
    if contributors[0].0 in Keys(es) && ContributorsKnown(es, contributors[1..]) {
      forall j | 0 <= j < |contributors|
        ensures contributors[j].0 in Keys(es)
      {
        if j > 0 {
          assert contributors[j] == contributors[1..][j - 1];
        }
      }
    }
  }

  /** Every `containMap` is duplicate-free and stores non-negative weights. */
  predicate DistinctNonNegative(cms: ContainMaps) {
    forall c :: c in cms ==> Distinct(cms[c]) && NonNegative(cms[c])
  }

  /** What one contributor passes to `k` before clamping: its own weight
      when it is `k`, plus its weight times the weight its `containMap`
      stores for `k`. */
  function Contribution(cms: ContainMaps, c: Id, w: real, k: Id): real {
    (if c == k then w else 0.0) + (if c in cms then Scaled(w, Weight(cms[c], k)) else 0.0)
  }

  /** The sum of the contributions of a contributor list to `k`. */
  function SumContributions(cms: ContainMaps, contributors: WeightList, k: Id): real
    decreases |contributors|
  {
    if contributors == [] then 0.0
    else Contribution(cms, contributors[0].0, contributors[0].1, k) + SumContributions(cms, contributors[1..], k)
  }

  /** The total a contributor list passes to `k` before clamping: the sum
      of its contributions. */
  function ContributedTo(cms: ContainMaps, contributors: WeightList, k: Id): real {
    SumContributions(cms, contributors, k)
  }

  /** A product of non-negative weights is non-negative. */
  lemma ScaledNonNegative(w: real, v: real)
    requires w >= 0.0 && v >= 0.0
    ensures Scaled(w, v) >= 0.0
  {
  }

  /** Non-negative weights pass a non-negative total, and none at all to an
      id the contributors do not reach. */
  lemma {:induction false} ContributedBounds(cms: ContainMaps, contributors: WeightList, k: Id)
    requires NonNegative(contributors) && DistinctNonNegative(cms)
    ensures ContributedTo(cms, contributors, k) >= 0.0
    ensures k !in Spread(cms, contributors) ==> ContributedTo(cms, contributors, k) == 0.0
    decreases |contributors|
  {
    if contributors != [] {
      var c, w := contributors[0].0, contributors[0].1;
      assert w >= 0.0;
      assert NonNegative(contributors[1..]) by {
        assert forall i :: 0 <= i < |contributors[1..]| ==> contributors[1..][i] == contributors[i + 1];
      }
      ContributedBounds(cms, contributors[1..], k);
      if c in cms {
        WeightNonNegative(cms[c], k);
        ScaledNonNegative(w, Weight(cms[c], k));
        if k !in Keys(cms[c]) {
          assert Weight(cms[c], k) == 0.0;
        }
      }
    }
  }

  /** A map of weights of at most one reads a weight of at most one for
      every id. */
  lemma {:induction false} WeightBounded(m: WeightList, k: Id)
    requires Bounded(m)
    ensures Weight(m, k) <= 1.0
    decreases |m|
  {
    if m != [] && m[0].0 != k {
      assert Bounded(m[1..]) by {
        assert forall i :: 0 <= i < |m[1..]| ==> m[1..][i] == m[i + 1];
      }
      WeightBounded(m[1..], k);
    }
  }

  /** One contributor of the fill: every id gains the contributor's
      contribution to it, clamped at one once. With non-negative weights the
      two clamps of an id that is both the contributor and contained in it
      compose, and an id it does not reach gains nothing. */
  lemma FillStepWeight(acc: WeightList, c: Id, w: real, cm: WeightList, k: Id)
    requires w >= 0.0 && Distinct(cm) && NonNegative(cm) && Weight(acc, k) <= 1.0
    ensures Weight(AddScaled(AddClamped(acc, c, w), cm, w), k) ==
            Min1(Weight(acc, k) + ((if c == k then w else 0.0) + Scaled(w, Weight(cm, k))))
    ensures (if c == k then w else 0.0) + Scaled(w, Weight(cm, k)) >= 0.0
  {
    var added := AddClamped(acc, c, w);
    AddScaledWeight(added, cm, w, k);
    WeightNonNegative(cm, k);
    ScaledNonNegative(w, Weight(cm, k));
    if k !in Keys(cm) {
      assert Weight(cm, k) == 0.0;
      assert Scaled(w, Weight(cm, k)) == 0.0;
    } else if k == c {
      Min1Nested(Weight(acc, k) + w, Scaled(w, Weight(cm, k)));
    }
  }

  /** The first contributor followed by the rest: `fin` holds the rest's
      total added, with one clamp, on top of what the first contributor left;
      as the weights are non-negative it holds the clamped sum of both. */
  lemma FillHeadWeight(acc: WeightList, cms: ContainMaps, c: Id, w: real, restTotal: real, total: real,
                       next: WeightList, fin: WeightList, k: Id)
    requires c in cms && w >= 0.0 && Distinct(cms[c]) && NonNegative(cms[c]) && Weight(acc, k) <= 1.0
    requires next == AddScaled(AddClamped(acc, c, w), cms[c], w)
    requires restTotal >= 0.0 && total == Contribution(cms, c, w, k) + restTotal
    requires Weight(fin, k) == Min1(Weight(next, k) + restTotal)
    ensures Weight(fin, k) == Min1(Weight(acc, k) + total)
  {
    FillStepWeight(acc, c, w, cms[c], k);
    Min1Nested(Weight(acc, k) + Contribution(cms, c, w, k), restTotal);
  }

  /** The total of a contributor list is the first contributor's
      contribution plus the total of the rest. */
  lemma ContributedCons(cms: ContainMaps, contributors: WeightList, k: Id)
    requires contributors != []
    ensures ContributedTo(cms, contributors, k) ==
            Contribution(cms, contributors[0].0, contributors[0].1, k) + ContributedTo(cms, contributors[1..], k)
  {
  }

  /** The weight a contributor map stores for each id, in closed form: the
      starting weight plus the contributions of every contributor, clamped
      at one. This needs non-negative weights, duplicate-free maps and a
      starting map of weights of at most one (the fill starts from an empty
      map): with a negative weight the clamped sum depends on the order of
      the additions. */
  lemma FillContributorWeight(es: Entries, cms: ContainMaps, contributors: WeightList, acc: WeightList, k: Id)
    requires Keys(es) <= cms.Keys && ContributorsKnown(es, contributors)
    requires NonNegative(contributors) && DistinctNonNegative(cms) && Bounded(acc)
    ensures FillContributorMap(es, cms, contributors, acc).Ok?
    ensures Weight(FillContributorMap(es, cms, contributors, acc).value, k) ==
            Min1(Weight(acc, k) + ContributedTo(cms, contributors, k))
    ensures k !in Spread(cms, contributors) ==>
              Weight(FillContributorMap(es, cms, contributors, acc).value, k) == Weight(acc, k)
  {
    FilledWeight(es, cms, contributors, acc, FillContributorMap(es, cms, contributors, acc).value, k);
    ContributedBounds(cms, contributors, k);
    WeightBounded(acc, k);
  }

  /** `FillContributorWeight` for the map `r` the fill returned. */
  lemma {:induction false} FilledWeight(es: Entries, cms: ContainMaps, contributors: WeightList, acc: WeightList, r: WeightList, k: Id)
    requires Keys(es) <= cms.Keys && FillContributorMap(es, cms, contributors, acc) == Ok(r)
    requires NonNegative(contributors) && DistinctNonNegative(cms) && Bounded(acc)
    ensures Weight(r, k) == Min1(Weight(acc, k) + ContributedTo(cms, contributors, k))
    decreases |contributors|
  {
    WeightBounded(acc, k);
    if contributors != [] {
      var c, w, rest := contributors[0].0, contributors[0].1, contributors[1..];
      ContributorsStep(es, contributors);
      assert w >= 0.0;
      assert NonNegative(rest) by {
        assert forall i :: 0 <= i < |rest| ==> rest[i] == contributors[i + 1];
      }
      AddClampedBounded(acc, c, w);
      var next := AddScaled(AddClamped(acc, c, w), cms[c], w);
      FillCons(es, cms, contributors, acc, r);
      FilledWeight(es, cms, rest, next, r, k);
      ContributedBounds(cms, rest, k);
      ContributedCons(cms, contributors, k);
      FillHeadWeight(acc, cms, c, w, ContributedTo(cms, rest, k), ContributedTo(cms, contributors, k), next, r, k);
    }
  }

  /** A fill of a first contributor and the rest is the fill of the rest,
      started from what the first contributor left. */
  lemma FillCons(es: Entries, cms: ContainMaps, contributors: WeightList, acc: WeightList, r: WeightList)
    requires Keys(es) <= cms.Keys && contributors != [] && FillContributorMap(es, cms, contributors, acc) == Ok(r)
    ensures contributors[0].0 in cms
    ensures FillContributorMap(es, cms, contributors[1..],
                               AddScaled(AddClamped(acc, contributors[0].0, contributors[0].1),
                                         cms[contributors[0].0], contributors[0].1)) == Ok(r)
  {
  }

  /** With every `containMap` naming entries only, a fill of known
      contributors reaches entries only. */
  lemma {:induction false} SpreadKnown(es: Entries, cms: ContainMaps, contributors: WeightList)
    requires KeysKnown(es, cms) && ContributorsKnown(es, contributors)
    ensures Spread(cms, contributors) <= Keys(es)
    decreases |contributors|
  {
    if contributors != [] {
      SpreadKnown(es, cms, contributors[1..]);
    }
  }

  /** A contributor map reaches exactly the contributors and the entries they
      contain, and holds weights of at most one. */
  lemma ContributorMapSpec(es: Entries, cms: ContainMaps, contributors: WeightList)
    requires Keys(es) <= cms.Keys
    requires FillContributorMap(es, cms, contributors, []).Ok?
    ensures var fill := FillContributorMap(es, cms, contributors, []).value;
            Keys(fill) == Spread(cms, contributors) && Bounded(fill) && Distinct(fill)
    ensures KeysKnown(es, cms) ==> Keys(FillContributorMap(es, cms, contributors, []).value) <= Keys(es)
  {
    if KeysKnown(es, cms) {
      SpreadKnown(es, cms, contributors);
    }
  }

  // ---------------------------------------------------------------------
  // Distributing impacts and relations over the reached entries
  // ---------------------------------------------------------------------

  /** The values `make` produces for the weights of a contributor map. */
  function Made<T>(make: real -> Result<T, EngineError>, fill: WeightList): set<T> {
    set j | 0 <= j < |fill| && make(fill[j].1).Ok? :: make(fill[j].1).value
  }

  lemma MadeTail<T>(make: real -> Result<T, EngineError>, fill: WeightList)
    requires fill != [] && make(fill[0].1).Ok?
    ensures make(fill[0].1).value in Made(make, fill)
    ensures Made(make, fill[1..]) <= Made(make, fill)
    ensures forall j :: 0 <= j < |fill[1..]| ==> fill[1..][j] == fill[j + 1]
  {
    forall x | x in Made(make, fill[1..])
      ensures x in Made(make, fill)
    {
      var j :| 0 <= j < |fill[1..]| && make(fill[1..][j].1).Ok? && make(fill[1..][j].1).value == x;
      assert fill[1..][j] == fill[j + 1];
    }
  }

  /** The loop `for (const [id, weight] of contributorMap.map)`: `#getEntry`
      (throwing for an unknown id), then one value made from the weight
      appended to that entry's list. */
  function AppendEach<T>(es: Entries, fill: WeightList, make: real -> Result<T, EngineError>, lists: map<Id, seq<T>>)
    : (r: Result<map<Id, seq<T>>, EngineError>)
    ensures r.Ok? <==> forall j :: 0 <= j < |fill| ==> fill[j].0 in Keys(es) && make(fill[j].1).Ok?
    ensures r.Err? ==> (r.error.EntryNotFound? && r.error.id !in Keys(es)) ||
                       exists j :: 0 <= j < |fill| && make(fill[j].1) == Err(r.error)
    ensures r.Ok? ==> r.value.Keys == lists.Keys + Keys(fill)
    ensures r.Ok? ==> forall k :: k !in Keys(fill) ==> Scores.ListOf(r.value, k) == Scores.ListOf(lists, k)
    ensures r.Ok? ==> forall k, x :: x in Scores.ListOf(r.value, k) ==> x in Scores.ListOf(lists, k) || x in Made(make, fill)
    decreases |fill|
  {
    if fill == [] then Ok(lists)
    else
      var id := fill[0].0;
      if id !in Keys(es) then Err(EntryNotFound(id))
      else
        var x :- make(fill[0].1);
        MadeTail(make, fill);
        AppendEach(es, fill[1..], make, lists[id := Scores.ListOf(lists, id) + [x]])
  }

  /** In a contributor map without repeated ids, every reached entry gets
      exactly one value appended, the one made from its own weight. */
  lemma {:induction false} AppendEachDistinct<T>(es: Entries, fill: WeightList, make: real -> Result<T, EngineError>,
                                                 lists: map<Id, seq<T>>, k: Id)
    requires Distinct(fill) && k in Keys(fill)
    requires AppendEach(es, fill, make, lists).Ok?
    ensures make(Get(fill, k).value).Ok?
    ensures Scores.ListOf(AppendEach(es, fill, make, lists).value, k) ==
            Scores.ListOf(lists, k) + [make(Get(fill, k).value).value]
    decreases |fill|
  {
    var id := fill[0].0;
    var x := make(fill[0].1).value;
    var next := lists[id := Scores.ListOf(lists, id) + [x]];
    assert Distinct(fill[1..]);
    if k == id {
      assert id !in Keys(fill[1..]) by {
        KeysMembership(fill[1..], id);
        forall i | 0 <= i < |fill[1..]|
          ensures fill[1..][i].0 != id
        {
          assert fill[1..][i] == fill[i + 1];
        }
      }
    } else {
      AppendEachDistinct(es, fill[1..], make, next, k);
    }
  }

  /** One impact or relation to distribute: its contributors, and what each
      reached entry receives for a given contributing weight. */
  datatype Job<T> = Job(contributors: WeightList, make: real -> Result<T, EngineError>)

  /** Every contributor of every job names an entry. */
  predicate JobsKnown<T>(es: Entries, jobs: seq<Job<T>>) {
    forall j :: 0 <= j < |jobs| ==> ContributorsKnown(es, jobs[j].contributors)
  }

  /** No job fails to make a value, whatever the weight. */
  ghost predicate JobsTotal<T>(jobs: seq<Job<T>>) {
    forall j, w :: 0 <= j < |jobs| ==> jobs[j].make(w).Ok?
  }

  /** Some job makes `x` from some weight. */
  ghost predicate Produced<T>(jobs: seq<Job<T>>, x: T) {
    exists j, w :: 0 <= j < |jobs| && jobs[j].make(w) == Ok(x)
  }

  /** Some job fails with `e` for some weight. */
  ghost predicate Fails<T>(jobs: seq<Job<T>>, e: EngineError) {
    exists j, w :: 0 <= j < |jobs| && jobs[j].make(w) == Err(e)
  }

  /** `#calcImpactScore`'s and `#fillRelationReferences`' outer loop: fill
      the contributor map of each job, then append to the reached entries. */
  function Distribute<T>(es: Entries, cms: ContainMaps, jobs: seq<Job<T>>, lists: map<Id, seq<T>>)
    : (r: Result<map<Id, seq<T>>, EngineError>)
    requires Keys(es) <= cms.Keys
    ensures r.Ok? ==> JobsKnown(es, jobs)
    ensures r.Err? ==> (r.error.EntryNotFound? && r.error.id !in Keys(es)) || Fails(jobs, r.error)
    decreases |jobs|
  {
    if jobs == [] then Ok(lists)
    else
      var fill :- FillContributorMap(es, cms, jobs[0].contributors, []);
      FailsTail(jobs, fill);
      var next :- AppendEach(es, fill, jobs[0].make, lists);
      JobsKnownCons(es, jobs);
      Distribute(es, cms, jobs[1..], next)
  }

  /** Every value in the lists was already there or was made by some job. */
  lemma {:induction false} DistributeProduced<T>(es: Entries, cms: ContainMaps, jobs: seq<Job<T>>, lists: map<Id, seq<T>>)
    requires Keys(es) <= cms.Keys
    requires Distribute(es, cms, jobs, lists).Ok?
    ensures forall k, x :: x in Scores.ListOf(Distribute(es, cms, jobs, lists).value, k) ==>
              x in Scores.ListOf(lists, k) || Produced(jobs, x)
    decreases |jobs|
  {
    if jobs != [] {
      var fill := FillContributorMap(es, cms, jobs[0].contributors, []).value;
      var next := AppendEach(es, fill, jobs[0].make, lists).value;
      var result := Distribute(es, cms, jobs[1..], next).value;
      assert Distribute(es, cms, jobs, lists).value == result;
      DistributeTail(jobs, fill, lists, next);
      DistributeProduced(es, cms, jobs[1..], next);
      forall k, x | x in Scores.ListOf(result, k)
        ensures x in Scores.ListOf(lists, k) || Produced(jobs, x)
      {
        assert x in Scores.ListOf(next, k) || Produced(jobs[1..], x);
      }
    }
  }

  /** What one round of `Distribute` appends comes from the first job. */
  lemma DistributeTail<T>(jobs: seq<Job<T>>, fill: WeightList, lists: map<Id, seq<T>>, next: map<Id, seq<T>>)
    requires jobs != []
    requires forall k, x :: x in Scores.ListOf(next, k) ==> x in Scores.ListOf(lists, k) || x in Made(jobs[0].make, fill)
    ensures forall j :: 0 <= j < |jobs[1..]| ==> jobs[1..][j] == jobs[j + 1]
    ensures forall k, x :: x in Scores.ListOf(next, k) ==> x in Scores.ListOf(lists, k) || Produced(jobs, x)
    ensures forall x :: Produced(jobs[1..], x) ==> Produced(jobs, x)
  {
    forall k, x | x in Scores.ListOf(next, k) && x !in Scores.ListOf(lists, k)
      ensures Produced(jobs, x)
    {
      var j := Witness(jobs[0].make, fill, x);
      var w := fill[j].1;
      assert 0 <= 0 < |jobs| && jobs[0].make(w) == Ok(x);
    }
    forall x | Produced(jobs[1..], x)
      ensures Produced(jobs, x)
    {
      var j, w :| 0 <= j < |jobs[1..]| && jobs[1..][j].make(w) == Ok(x);
      assert jobs[j + 1].make(w) == Ok(x);
    }
  }

  lemma JobsKnownCons<T>(es: Entries, jobs: seq<Job<T>>)
    requires jobs != []
    ensures ContributorsKnown(es, jobs[0].contributors) && JobsKnown(es, jobs[1..]) ==> JobsKnown(es, jobs)
  {
    assert forall j :: 0 < j < |jobs| ==> jobs[j] == jobs[1..][j - 1];
  }

  /** A failure of the first job or of a later one is a failure of some job. */
  lemma FailsTail<T>(jobs: seq<Job<T>>, fill: WeightList)
    requires jobs != []
    ensures forall e :: Fails(jobs[1..], e) ==> Fails(jobs, e)
    ensures forall e, j :: 0 <= j < |fill| && jobs[0].make(fill[j].1) == Err(e) ==> Fails(jobs, e)
  {
    forall e | Fails(jobs[1..], e)
      ensures Fails(jobs, e)
    {
      var j, w :| 0 <= j < |jobs[1..]| && jobs[1..][j].make(w) == Err(e);
      assert jobs[j + 1].make(w) == Err(e);
    }
    forall e, j | 0 <= j < |fill| && jobs[0].make(fill[j].1) == Err(e)
      ensures Fails(jobs, e)
    {
      var w := fill[j].1;
      assert 0 <= 0 < |jobs| && jobs[0].make(w) == Err(e);
    }
  }

  /** The position in `fill` whose weight made `x`. */
  ghost function Witness<T>(make: real -> Result<T, EngineError>, fill: WeightList, x: T): (j: nat)
    requires x in Made(make, fill)
    ensures j < |fill| && make(fill[j].1) == Ok(x)
  {
    var j :| 0 <= j < |fill| && make(fill[j].1).Ok? && make(fill[j].1).value == x; j
  }

  /** With every `containMap` naming entries only, known contributors and
      jobs that cannot fail, distributing succeeds. */
  lemma {:induction false} DistributeOk<T>(es: Entries, cms: ContainMaps, jobs: seq<Job<T>>, lists: map<Id, seq<T>>)
    requires Keys(es) <= cms.Keys && KeysKnown(es, cms)
    requires JobsKnown(es, jobs) && JobsTotal(jobs)
    ensures Distribute(es, cms, jobs, lists).Ok?
    decreases |jobs|
  {
    if jobs != [] {
      assert ContributorsKnown(es, jobs[0].contributors);
      var fill := FillContributorMap(es, cms, jobs[0].contributors, []).value;
      ContributorMapSpec(es, cms, jobs[0].contributors);
      forall j | 0 <= j < |fill|
        ensures fill[j].0 in Keys(es) && jobs[0].make(fill[j].1).Ok?
      {
        KeysMembership(fill, fill[j].0);
      }
      var next := AppendEach(es, fill, jobs[0].make, lists).value;
      assert forall j :: 0 <= j < |jobs[1..]| ==> jobs[1..][j] == jobs[j + 1];
      DistributeOk(es, cms, jobs[1..], next);
    }
  }

  /** The number of jobs whose contributor map reaches `k`. */
  function Hits<T>(cms: ContainMaps, jobs: seq<Job<T>>, k: Id): nat
    decreases |jobs|
  {
    if jobs == [] then 0
    else (if k in Spread(cms, jobs[0].contributors) then 1 else 0) + Hits(cms, jobs[1..], k)
  }

  /** Every entry receives exactly one value per job whose contributors,
      or the entries they contain, include it. */
  lemma {:induction false} DistributeCount<T>(es: Entries, cms: ContainMaps, jobs: seq<Job<T>>, lists: map<Id, seq<T>>, k: Id)
    requires Keys(es) <= cms.Keys
    requires Distribute(es, cms, jobs, lists).Ok?
    ensures |Scores.ListOf(Distribute(es, cms, jobs, lists).value, k)| == |Scores.ListOf(lists, k)| + Hits(cms, jobs, k)
    decreases |jobs|
  {
    if jobs != [] {
      var fill := FillContributorMap(es, cms, jobs[0].contributors, []).value;
      ContributorMapSpec(es, cms, jobs[0].contributors);
      var next := AppendEach(es, fill, jobs[0].make, lists).value;
      if k in Keys(fill) {
        AppendEachDistinct(es, fill, jobs[0].make, lists, k);
      }
      DistributeCount(es, cms, jobs[1..], next, k);
    }
  }

  lemma DistributeCountAll<T>(es: Entries, cms: ContainMaps, jobs: seq<Job<T>>)
    requires Keys(es) <= cms.Keys
    requires Distribute(es, cms, jobs, map[]).Ok?
    ensures forall k :: |Scores.ListOf(Distribute(es, cms, jobs, map[]).value, k)| == Hits(cms, jobs, k)
  {
    forall k
      ensures |Scores.ListOf(Distribute(es, cms, jobs, map[]).value, k)| == Hits(cms, jobs, k)
    {
      DistributeCount(es, cms, jobs, map[], k);
    }
  }

  /** Every result in the list is a success. */
  predicate AllOk<T>(rs: seq<Result<T, EngineError>>) {
    forall i :: 0 <= i < |rs| ==> rs[i].Ok?
  }

  /** The values of the successful results, in order. */
  function Values<T>(rs: seq<Result<T, EngineError>>): (vs: seq<T>)
    ensures AllOk(rs) ==> |vs| == |rs| && forall i :: 0 <= i < |rs| ==> vs[i] == rs[i].value
    decreases |rs|
  {
    if rs == [] then []
    else (if rs[0].Ok? then [rs[0].value] else []) + Values(rs[1..])
  }

  lemma {:induction false} ValuesAppend<T>(a: seq<Result<T, EngineError>>, b: seq<Result<T, EngineError>>)
    ensures Values(a + b) == Values(a) + Values(b)
    decreases |a|
  {
    if a == [] {
      assert a + b == b;
    } else {
      assert (a + b)[0] == a[0];
      assert (a + b)[1..] == a[1..] + b;
      ValuesAppend(a[1..], b);
    }
  }

  lemma AllOkAppend<T>(a: seq<Result<T, EngineError>>, b: seq<Result<T, EngineError>>)
    ensures AllOk(a + b) <==> AllOk(a) && AllOk(b)
  {
    assert forall i :: 0 <= i < |a| ==> (a + b)[i] == a[i];
    assert forall i :: 0 <= i < |b| ==> (a + b)[|a| + i] == b[i];
  }

  /** What one job appends to the list of `k`: when its contributor map
      reaches `k`, the value made from `k`'s weight in that map. */
  function Reach<T>(es: Entries, cms: ContainMaps, job: Job<T>, k: Id): seq<Result<T, EngineError>>
    requires Keys(es) <= cms.Keys
  {
    var f := FillContributorMap(es, cms, job.contributors, []);
    if f.Ok? && k in Spread(cms, job.contributors) then [job.make(Weight(f.value, k))] else []
  }

  /** What distributing `jobs` appends to the list of `k`, in job order: for
      every job whose contributor map reaches `k`, the value made from `k`'s
      weight in that map. */
  function Received<T>(es: Entries, cms: ContainMaps, jobs: seq<Job<T>>, k: Id): seq<Result<T, EngineError>>
    requires Keys(es) <= cms.Keys
    decreases |jobs|
  {
    if jobs == [] then [] else Reach(es, cms, jobs[0], k) + Received(es, cms, jobs[1..], k)
  }

  /** One job's round appends exactly what the job's reach holds. */
  lemma AppendEachReach<T>(es: Entries, cms: ContainMaps, job: Job<T>, lists: map<Id, seq<T>>, k: Id)
    requires Keys(es) <= cms.Keys
    requires FillContributorMap(es, cms, job.contributors, []).Ok?
    requires AppendEach(es, FillContributorMap(es, cms, job.contributors, []).value, job.make, lists).Ok?
    ensures AllOk(Reach(es, cms, job, k))
    ensures Scores.ListOf(AppendEach(es, FillContributorMap(es, cms, job.contributors, []).value, job.make, lists).value, k) ==
            Scores.ListOf(lists, k) + Values(Reach(es, cms, job, k))
  {
    var fill := FillContributorMap(es, cms, job.contributors, []).value;
    ContributorMapSpec(es, cms, job.contributors);
    if k in Keys(fill) {
      AppendEachDistinct(es, fill, job.make, lists, k);
      assert Weight(fill, k) == Get(fill, k).value;
    }
  }

  /** A successful distribution is the first job's round followed by the
      distribution of the rest. */
  lemma DistributeStep<T>(es: Entries, cms: ContainMaps, jobs: seq<Job<T>>, lists: map<Id, seq<T>>)
    requires Keys(es) <= cms.Keys && jobs != []
    requires Distribute(es, cms, jobs, lists).Ok?
    ensures FillContributorMap(es, cms, jobs[0].contributors, []).Ok?
    ensures AppendEach(es, FillContributorMap(es, cms, jobs[0].contributors, []).value, jobs[0].make, lists).Ok?
    ensures Distribute(es, cms, jobs, lists) ==
            Distribute(es, cms, jobs[1..], AppendEach(es, FillContributorMap(es, cms, jobs[0].contributors, []).value, jobs[0].make, lists).value)
  {
  }

  /** A successful distribution appends to each entry's list exactly what
      it receives: one value per reaching job, in job order, made from the
      entry's weight in that job's contributor map. */
  lemma {:induction false} DistributeReceived<T>(es: Entries, cms: ContainMaps, jobs: seq<Job<T>>, lists: map<Id, seq<T>>, k: Id)
    requires Keys(es) <= cms.Keys
    requires Distribute(es, cms, jobs, lists).Ok?
    ensures AllOk(Received(es, cms, jobs, k))
    ensures Scores.ListOf(Distribute(es, cms, jobs, lists).value, k) ==
            Scores.ListOf(lists, k) + Values(Received(es, cms, jobs, k))
    decreases |jobs|
  {
    if jobs != [] {
      DistributeStep(es, cms, jobs, lists);
      var fill := FillContributorMap(es, cms, jobs[0].contributors, []).value;
      var next := AppendEach(es, fill, jobs[0].make, lists).value;
      AppendEachReach(es, cms, jobs[0], lists, k);
      DistributeReceived(es, cms, jobs[1..], next, k);
      assert Received(es, cms, jobs, k) == Reach(es, cms, jobs[0], k) + Received(es, cms, jobs[1..], k);
      ValuesAppend(Reach(es, cms, jobs[0], k), Received(es, cms, jobs[1..], k));
      AllOkAppend(Reach(es, cms, jobs[0], k), Received(es, cms, jobs[1..], k));
    }
  }

  // ---------------------------------------------------------------------
  // Impact scores
  // ---------------------------------------------------------------------

  /** A matrix `buffWeight` may return in `src/core.ts`: a regular or a
      diagonal matrix (an `NRSCoreMatrix`) of factor size. */
  predicate CoreFits(cc: CoreContext, m: Matrix) {
    Fits(cc, m) && !m.Scalar?
  }

  /** `buffWeight` returns a factor-sized `NRSCoreMatrix` for every weight. */
  ghost predicate CoreBuff(cc: CoreContext) {
    forall w :: CoreFits(cc, cc.buffWeight(w))
  }

  /** `buffWeight(w).mul(score)`: the product, or the "invalid dimensions"
      error `mul` throws. A product that is not factor-sized, which only a
      buff matrix that is not factor-sized lets through, is reported as a
      dimension error as well. */
  function BuffImpact(cc: CoreContext, w: real, score: Vector): (r: Result<Vector, EngineError>)
    ensures r.Ok? <==> Mul(cc.buffWeight(w), score).Ok? && Sized(cc, score)
    ensures r.Ok? ==> Mul(cc.buffWeight(w), score) == Ok(r.value) && Sized(cc, r.value)
    ensures r.Err? ==> r.error.MathFailure?
    ensures CoreFits(cc, cc.buffWeight(w)) ==> (r.Ok? <==> Sized(cc, score))
  {
    var p :- RelationScore.Lift(Mul(cc.buffWeight(w), score));
    if |p| == |cc.weights| then Ok(p) else Err(MathFailure(InvalidDimensions(|cc.weights|, |p|)))
  }

  /** One job per impact: an entry it reaches with weight `w` receives
      `buffWeight(w).mul(impact.score)`. */
  function ImpactJobs(cc: CoreContext, impacts: seq<Data.Impact>): (r: seq<Job<Vector>>)
    ensures |r| == |impacts|
    ensures forall i :: 0 <= i < |impacts| ==> r[i].contributors == impacts[i].contributors
    ensures forall i, w :: 0 <= i < |impacts| ==> r[i].make(w) == BuffImpact(cc, w, impacts[i].score)
  {
    seq(|impacts|, i requires 0 <= i < |impacts| =>
      Job(impacts[i].contributors, w => BuffImpact(cc, w, impacts[i].score)))
  }

  /** Every impact score has one component per factor. */
  predicate ScoresSized(cc: CoreContext, impacts: seq<Data.Impact>) {
    forall i :: 0 <= i < |impacts| ==> Sized(cc, impacts[i].score)
  }

  /** `buffWeight` maps factor-sized vectors to factor-sized vectors for every weight. */
  ghost predicate BuffFits(cc: CoreContext) {
    forall w :: Fits(cc, cc.buffWeight(w))
  }

  /** A buffed impact score is a product of a buffed weight and an impact
      score, and factor-sized; a failure to buff is a dimension error, and
      with fitting buffs and factor-sized scores none occurs. */
  lemma ImpactJobsMake(cc: CoreContext, impacts: seq<Data.Impact>)
    ensures forall x :: Produced(ImpactJobs(cc, impacts), x) ==>
              exists i, w :: 0 <= i < |impacts| && Mul(cc.buffWeight(w), impacts[i].score) == Ok(x)
    ensures forall x :: Produced(ImpactJobs(cc, impacts), x) ==> Sized(cc, x)
    ensures forall e :: Fails(ImpactJobs(cc, impacts), e) ==> e.MathFailure?
    ensures BuffFits(cc) && ScoresSized(cc, impacts) ==> JobsTotal(ImpactJobs(cc, impacts))
  {
    var jobs := ImpactJobs(cc, impacts);
    forall x | Produced(jobs, x)
      ensures exists i, w :: 0 <= i < |impacts| && Mul(cc.buffWeight(w), impacts[i].score) == Ok(x)
      ensures Sized(cc, x)
    {
      var j, w :| 0 <= j < |jobs| && jobs[j].make(w) == Ok(x);
      assert Mul(cc.buffWeight(w), impacts[j].score) == Ok(x);
    }
  }

  /** `#calcImpactScore`: every impact's buffed score appended to the
      entries its contributor map reaches, then every entry's impact score
      is the combine of its list. */
  function CoreImpactScore(cc: CoreContext, es: Entries, cms: ContainMaps, impacts: seq<Data.Impact>)
    : (r: Result<map<Id, Vector>, EngineError>)
    requires Keys(es) <= cms.Keys
    ensures r.Ok? ==> r.value.Keys == Keys(es) && forall k :: k in r.value ==> Sized(cc, r.value[k])
    ensures r.Ok? ==> JobsKnown(es, ImpactJobs(cc, impacts))
    ensures r.Ok? ==> forall k :: k in r.value && Hits(cms, ImpactJobs(cc, impacts), k) == 0 ==> r.value[k] == Base(cc)
    ensures r.Err? ==> (r.error.EntryNotFound? && r.error.id !in Keys(es)) || r.error.MathFailure?
  {
    var jobs := ImpactJobs(cc, impacts);
    ImpactJobsMake(cc, impacts);
    var lists :- Distribute(es, cms, jobs, map[]);
    ImpactListsSized(cc, es, cms, impacts);
    DistributeCountAll(es, cms, jobs);
    Ok(map k | k in Keys(es) :: Scores.CombineVectors(AsContext(cc), Scores.ListOf(lists, k)))
  }

  lemma ImpactListsSized(cc: CoreContext, es: Entries, cms: ContainMaps, impacts: seq<Data.Impact>)
    requires Keys(es) <= cms.Keys
    requires Distribute(es, cms, ImpactJobs(cc, impacts), map[]).Ok?
    ensures forall k :: Scores.FactorSized(AsContext(cc), Scores.ListOf(Distribute(es, cms, ImpactJobs(cc, impacts), map[]).value, k))
  {
    var jobs := ImpactJobs(cc, impacts);
    ImpactJobsMake(cc, impacts);
    DistributeProduced(es, cms, jobs, map[]);
    var lists := Distribute(es, cms, jobs, map[]).value;
    forall k, x | x in Scores.ListOf(lists, k)
      ensures |x| == |AsContext(cc).weights|
    {
      assert x !in Scores.ListOf(map[], k);
      assert Produced(jobs, x);
    }
  }

  /** With every `containMap` naming entries only, known contributors and
      fitting buffs, the impact phase succeeds. */
  lemma CoreImpactScoreOk(cc: CoreContext, es: Entries, cms: ContainMaps, impacts: seq<Data.Impact>)
    requires Keys(es) <= cms.Keys && KeysKnown(es, cms) && ScoresSized(cc, impacts)
    requires JobsKnown(es, ImpactJobs(cc, impacts)) && BuffFits(cc)
    ensures CoreImpactScore(cc, es, cms, impacts).Ok?
  {
    ImpactJobsMake(cc, impacts);
    DistributeOk(es, cms, ImpactJobs(cc, impacts), map[]);
  }

  /** The job's contributor map is built, and a value is made from every
      weight in it. */
  predicate MakesAll<T>(es: Entries, cms: ContainMaps, job: Job<T>)
    requires Keys(es) <= cms.Keys
  {
    var f := FillContributorMap(es, cms, job.contributors, []);
    f.Ok? && forall i :: 0 <= i < |f.value| ==> job.make(f.value[i].1).Ok?
  }

  /** A successful distribution made a value from every weight of every
      job's contributor map. */
  lemma {:induction false} DistributeMakes<T>(es: Entries, cms: ContainMaps, jobs: seq<Job<T>>, lists: map<Id, seq<T>>)
    requires Keys(es) <= cms.Keys
    requires Distribute(es, cms, jobs, lists).Ok?
    ensures forall j :: 0 <= j < |jobs| ==> MakesAll(es, cms, jobs[j])
    decreases |jobs|
  {
    if jobs != [] {
      var fill := FillContributorMap(es, cms, jobs[0].contributors, []).value;
      var next := AppendEach(es, fill, jobs[0].make, lists).value;
      assert MakesAll(es, cms, jobs[0]);
      assert Distribute(es, cms, jobs[1..], next).Ok?;
      DistributeMakes(es, cms, jobs[1..], next);
      forall j | 0 < j < |jobs|
        ensures MakesAll(es, cms, jobs[j])
      {
        assert jobs[j] == jobs[1..][j - 1];
      }
    }
  }

  /** `src/core.ts:265`: when `buffWeight` returns factor-sized matrices,
      `mul` throws for an impact score of another size, so a successful
      impact phase had only factor-sized scores among the impacts with
      contributors. */
  lemma CoreImpactScoreSized(cc: CoreContext, es: Entries, cms: ContainMaps, impacts: seq<Data.Impact>)
    requires Keys(es) <= cms.Keys
    requires CoreImpactScore(cc, es, cms, impacts).Ok? && CoreBuff(cc)
    ensures forall i :: 0 <= i < |impacts| && impacts[i].contributors != [] ==> Sized(cc, impacts[i].score)
  {
    var jobs := ImpactJobs(cc, impacts);
    DistributeMakes(es, cms, jobs, map[]);
    forall i | 0 <= i < |impacts| && impacts[i].contributors != []
      ensures Sized(cc, impacts[i].score)
    {
      var fill := FillContributorMap(es, cms, impacts[i].contributors, []).value;
      ContributorMapSpec(es, cms, impacts[i].contributors);
      assert impacts[i].contributors[0].0 in Keys(fill);
      assert |fill| > 0;
      assert MakesAll(es, cms, jobs[i]);
      assert jobs[i].make(fill[0].1).Ok?;
    }
  }

  /** The buffed impact scores an entry receives, in impact order: for
      every impact whose contributor map reaches `k`,
      `buffWeight(w).mul(impact.score)` with `w` the weight of `k` in that
      map. */
  function ImpactsReceived(cc: CoreContext, es: Entries, cms: ContainMaps, impacts: seq<Data.Impact>, k: Id)
    : seq<Result<Vector, EngineError>>
    requires Keys(es) <= cms.Keys
    decreases |impacts|
  {
    if impacts == [] then []
    else
      var f := FillContributorMap(es, cms, impacts[0].contributors, []);
      (if f.Ok? && k in Spread(cms, impacts[0].contributors) then [BuffImpact(cc, Weight(f.value, k), impacts[0].score)] else [])
      + ImpactsReceived(cc, es, cms, impacts[1..], k)
  }

  /** Jobs that make `BuffImpact` of each impact's score receive what the
      impacts do. */
  lemma {:induction false} ReceivedImpacts(cc: CoreContext, es: Entries, cms: ContainMaps, jobs: seq<Job<Vector>>,
                                           impacts: seq<Data.Impact>, k: Id)
    requires Keys(es) <= cms.Keys && |jobs| == |impacts|
    requires forall j :: 0 <= j < |jobs| ==> jobs[j].contributors == impacts[j].contributors
    requires forall j, w :: 0 <= j < |jobs| ==> jobs[j].make(w) == BuffImpact(cc, w, impacts[j].score)
    ensures Received(es, cms, jobs, k) == ImpactsReceived(cc, es, cms, impacts, k)
    decreases |jobs|
  {
    if jobs != [] {
      assert forall j :: 0 <= j < |jobs[1..]| ==> jobs[1..][j] == jobs[j + 1] && impacts[1..][j] == impacts[j + 1];
      ReceivedImpacts(cc, es, cms, jobs[1..], impacts[1..], k);
    }
  }

  /** An entry's impact score combines exactly one buffed impact score per
      impact whose contributor map reaches it, in impact order, each buffed
      with the entry's weight in that impact's contributor map. */
  lemma ImpactScoreCount(cc: CoreContext, es: Entries, cms: ContainMaps, impacts: seq<Data.Impact>, k: Id)
    returns (vs: seq<Vector>)
    requires Keys(es) <= cms.Keys
    requires CoreImpactScore(cc, es, cms, impacts).Ok? && k in Keys(es)
    ensures |vs| == Hits(cms, ImpactJobs(cc, impacts), k)
    ensures Scores.FactorSized(AsContext(cc), vs)
    ensures CoreImpactScore(cc, es, cms, impacts).value[k] == Scores.CombineVectors(AsContext(cc), vs)
    ensures forall x :: x in vs ==> exists i, w :: 0 <= i < |impacts| && Mul(cc.buffWeight(w), impacts[i].score) == Ok(x)
    ensures AllOk(ImpactsReceived(cc, es, cms, impacts, k)) && vs == Values(ImpactsReceived(cc, es, cms, impacts, k))
  {
    var jobs := ImpactJobs(cc, impacts);
    ImpactJobsMake(cc, impacts);
    ImpactListsSized(cc, es, cms, impacts);
    DistributeProduced(es, cms, jobs, map[]);
    DistributeCount(es, cms, jobs, map[], k);
    DistributeReceived(es, cms, jobs, map[], k);
    ReceivedImpacts(cc, es, cms, jobs, impacts, k);
    vs := Scores.ListOf(Distribute(es, cms, jobs, map[]).value, k);
  }

  // ---------------------------------------------------------------------
  // Relation lists
  // ---------------------------------------------------------------------

  /** One job per relation: an entry it reaches with weight `w` receives
      the pair `[relation, buffWeight(w)]`. */
  function RelationJobs(cc: CoreContext, relations: seq<Data.Relation>): (r: seq<Job<(Data.Relation, Matrix)>>)
    ensures |r| == |relations|
    ensures forall i :: 0 <= i < |relations| ==> r[i].contributors == relations[i].contributors
    ensures forall i, w :: 0 <= i < |relations| ==> r[i].make(w) == Ok((relations[i], cc.buffWeight(w)))
  {
    seq(|relations|, i requires 0 <= i < |relations| => Job(relations[i].contributors, w => Ok((relations[i], cc.buffWeight(w)))))
  }

  /** The relation lists `#fillRelationReferences` builds for every entry. */
  type RelationLists = map<Id, seq<(Data.Relation, Matrix)>>

  /** `#fillRelationReferences`: every relation, with the buffed weight it
      reaches the entry with, appended to the entries its contributor map
      reaches. It fails only on a contributor that names no entry. */
  function FillRelationLists(cc: CoreContext, es: Entries, cms: ContainMaps, relations: seq<Data.Relation>)
    : (r: Result<RelationLists, EngineError>)
    requires Keys(es) <= cms.Keys
    ensures r.Ok? ==> JobsKnown(es, RelationJobs(cc, relations))
    ensures r.Err? ==> r.error.EntryNotFound? && r.error.id !in Keys(es)
  {
    var jobs := RelationJobs(cc, relations);
    RelationJobsMake(cc, relations);
    Distribute(es, cms, jobs, map[])
  }

  lemma RelationJobsMake(cc: CoreContext, relations: seq<Data.Relation>)
    ensures forall x :: Produced(RelationJobs(cc, relations), x) ==> x.0 in relations
    ensures forall e :: !Fails(RelationJobs(cc, relations), e)
    ensures JobsTotal(RelationJobs(cc, relations))
  {
    var jobs := RelationJobs(cc, relations);
    forall x | Produced(jobs, x)
      ensures x.0 in relations
    {
      var j, w :| 0 <= j < |jobs| && jobs[j].make(w) == Ok(x);
      assert x.0 == relations[j];
    }
  }

  /** The pairs an entry's relation list receives, in relation order: for
      every relation whose contributor map reaches `k`, the relation and
      `buffWeight(w)` with `w` the weight of `k` in that map. */
  function RelationsReceived(cc: CoreContext, es: Entries, cms: ContainMaps, relations: seq<Data.Relation>, k: Id)
    : seq<(Data.Relation, Matrix)>
    requires Keys(es) <= cms.Keys
    decreases |relations|
  {
    if relations == [] then []
    else
      var f := FillContributorMap(es, cms, relations[0].contributors, []);
      (if f.Ok? && k in Spread(cms, relations[0].contributors) then [(relations[0], cc.buffWeight(Weight(f.value, k)))] else [])
      + RelationsReceived(cc, es, cms, relations[1..], k)
  }

  /** Jobs that pair each relation with its buff receive what the
      relations do. */
  lemma {:induction false} ReceivedRelations(cc: CoreContext, es: Entries, cms: ContainMaps, jobs: seq<Job<(Data.Relation, Matrix)>>,
                                             relations: seq<Data.Relation>, k: Id)
    requires Keys(es) <= cms.Keys && |jobs| == |relations|
    requires forall j :: 0 <= j < |jobs| ==> jobs[j].contributors == relations[j].contributors
    requires forall j, w :: 0 <= j < |jobs| ==> jobs[j].make(w) == Ok((relations[j], cc.buffWeight(w)))
    ensures AllOk(Received(es, cms, jobs, k))
    ensures Values(Received(es, cms, jobs, k)) == RelationsReceived(cc, es, cms, relations, k)
    decreases |jobs|
  {
    if jobs != [] {
      assert forall j :: 0 <= j < |jobs[1..]| ==> jobs[1..][j] == jobs[j + 1] && relations[1..][j] == relations[j + 1];
      ReceivedRelations(cc, es, cms, jobs[1..], relations[1..], k);
      var f := FillContributorMap(es, cms, jobs[0].contributors, []);
      var reached := f.Ok? && k in Spread(cms, jobs[0].contributors);
      var head := Reach(es, cms, jobs[0], k);
      var pairs: seq<(Data.Relation, Matrix)> := if reached then [(relations[0], cc.buffWeight(Weight(f.value, k)))] else [];
      assert RelationsReceived(cc, es, cms, relations, k) == pairs + RelationsReceived(cc, es, cms, relations[1..], k);
      if reached {
        assert jobs[0].make(Weight(f.value, k)) == Ok((relations[0], cc.buffWeight(Weight(f.value, k))));
      }
      assert AllOk(head) && Values(head) == pairs;
      AllOkAppend(head, Received(es, cms, jobs[1..], k));
      ValuesAppend(head, Received(es, cms, jobs[1..], k));
    }
  }


  /** With every `containMap` naming entries only, the relation lists are
      built exactly when every contributor names an entry; each entry's list
      holds one pair per relation whose contributor map reaches it, in
      relation order, with the entry's weight in that map buffed. */
  lemma FillRelationListsSpec(cc: CoreContext, es: Entries, cms: ContainMaps, relations: seq<Data.Relation>)
    requires Keys(es) <= cms.Keys && KeysKnown(es, cms)
    ensures FillRelationLists(cc, es, cms, relations).Ok? <==> JobsKnown(es, RelationJobs(cc, relations))
    ensures FillRelationLists(cc, es, cms, relations).Ok? ==>
              forall k :: |Scores.ListOf(FillRelationLists(cc, es, cms, relations).value, k)| == Hits(cms, RelationJobs(cc, relations), k)
    ensures FillRelationLists(cc, es, cms, relations).Ok? ==>
              forall k, x :: x in Scores.ListOf(FillRelationLists(cc, es, cms, relations).value, k) ==> x.0 in relations
    ensures FillRelationLists(cc, es, cms, relations).Ok? ==>
              forall k :: Scores.ListOf(FillRelationLists(cc, es, cms, relations).value, k) == RelationsReceived(cc, es, cms, relations, k)
  {
    var jobs := RelationJobs(cc, relations);
    RelationJobsMake(cc, relations);
    if JobsKnown(es, jobs) {
      DistributeOk(es, cms, jobs, map[]);
    }
    if FillRelationLists(cc, es, cms, relations).Ok? {
      DistributeCountAll(es, cms, jobs);
      DistributeProduced(es, cms, jobs, map[]);
      forall k
        ensures Scores.ListOf(FillRelationLists(cc, es, cms, relations).value, k) == RelationsReceived(cc, es, cms, relations, k)
      {
        DistributeReceived(es, cms, jobs, map[], k);
        ReceivedRelations(cc, es, cms, jobs, relations, k);
        var empty: RelationLists := map[];
        assert Scores.ListOf(empty, k) == [];
      }
    }
  }

  // ---------------------------------------------------------------------
  // The relation pass
  // ---------------------------------------------------------------------

  /** What `#calcRelationScoreSingle` reads: the context, the entry ids in
      insertion order, the relation lists and every entry's impact score. */
  datatype CoreRelationInput = CoreRelationInput(cc: CoreContext, keys: seq<Id>, relations: RelationLists,
                                                 impacts: map<Id, Vector>)

  /** Every entry has a factor-sized impact score, as `#calcImpactScore` leaves it. */
  predicate Ready(input: CoreRelationInput) {
    forall k :: k in input.keys ==> k in input.impacts && Sized(input.cc, input.impacts[k])
  }

  /** The relation scores set so far (`entry.relationScore`) are factor-sized. */
  predicate ScoresOk(cc: CoreContext, rs: map<Id, Vector>) {
    forall k :: k in rs ==> Sized(cc, rs[k])
  }

  /** Every reference of every listed relation. */
  function Refs(input: CoreRelationInput): set<(Id, Matrix)> {
    set id, p, q | id in input.relations && p in input.relations[id] && q in p.0.references :: q
  }

  /** The ids some listed relation references. */
  function RefIds(input: CoreRelationInput): set<Id> {
    set q | q in Refs(input) :: q.0
  }

  /** Every listed reference names an entry through a fitting matrix, and
      every listed buffed weight fits. */
  predicate CoreWellFormed(input: CoreRelationInput) {
    (forall q :: q in Refs(input) ==> q.0 in input.keys && Fits(input.cc, q.1)) &&
    (forall id, p :: id in input.relations && p in input.relations[id] ==> Fits(input.cc, p.1))
  }

  /** The relation score of `k` is the same in both states. */
  predicate Unchanged(rs: map<Id, Vector>, rs': map<Id, Vector>, k: Id) {
    (k in rs' <==> k in rs) && (k in rs ==> rs'[k] == rs[k])
  }

  /** The errors the relation pass can throw: an unknown reference, a dimension error. */
  predicate CoreErrorSound(input: CoreRelationInput, e: EngineError) {
    (e.EntryNotFound? && e.id !in input.keys) || e.MathFailure?
  }

  /** The references of a relation in `id`'s list are listed references. */
  lemma ListedRefs(input: CoreRelationInput, id: Id, p: (Data.Relation, Matrix))
    requires p in Scores.ListOf(input.relations, id)
    ensures forall q :: q in p.0.references ==> q in Refs(input) && q.0 in RefIds(input)
    ensures id in input.relations && p in input.relations[id]
  {
  }

  /** `#calcRelationScoreSingle(entry, stack)`: push the entry; while the
      bound holds, add each relation's score into the entry's
      `relationScore`; pop; return `combineVectors(context, [])`, as
      `relationScores` is never appended to. Only the entry itself and
      referenced entries have their relation score changed. */
  function CoreCalcSingle(input: CoreRelationInput, id: Id, stack: Stack, rs: map<Id, Vector>)
    : (r: Result<(Vector, Stack, map<Id, Vector>), EngineError>)
    requires id in input.keys && Valid(stack) && Ready(input) && ScoresOk(input.cc, rs)
    ensures r.Ok? ==> r.value.0 == Base(input.cc) && r.value.1 == stack && ScoresOk(input.cc, r.value.2)
    ensures r.Ok? ==> rs.Keys <= r.value.2.Keys
    ensures r.Ok? ==> forall k :: k != id && k !in RefIds(input) ==> Unchanged(rs, r.value.2, k)
    ensures Count(stack, id) >= stack.maxOccurrences ==> r == Ok((Base(input.cc), stack, rs))
    ensures r.Err? ==> CoreErrorSound(input, r.error)
    ensures CoreWellFormed(input) ==> r.Ok?
    decreases Slack(input.keys, stack), 0, 0
  {
    var pushed := Push(stack, id);
    var after :-
      if pushed.0 then
        PushLowersSlack(input.keys, stack, id);
        CoreRelLoop(input, id, Scores.ListOf(input.relations, id), pushed.1, rs)
      else Ok((pushed.1, rs));
    PushThenPop(stack, id);
    Ok((Base(input.cc), Pop(after.0, id).value, after.1))
  }

  /** `for (const [relation, weight] of entry.relations)`: the weighted sum
      over the relation's references, buffed by the relation's matrix and
      added into the entry's `relationScore` (zeros when unset). The sum is
      read before the entry's score, which the recursion may have changed. */
  function CoreRelLoop(input: CoreRelationInput, id: Id, rels: seq<(Data.Relation, Matrix)>, stack: Stack,
                       rs: map<Id, Vector>)
    : (r: Result<(Stack, map<Id, Vector>), EngineError>)
    requires id in input.keys && Valid(stack) && Ready(input) && ScoresOk(input.cc, rs)
    requires forall i :: 0 <= i < |rels| ==> rels[i] in Scores.ListOf(input.relations, id)
    ensures r.Ok? ==> r.value.0 == stack && ScoresOk(input.cc, r.value.1) && rs.Keys <= r.value.1.Keys
    ensures r.Ok? ==> forall k :: k != id && k !in RefIds(input) ==> Unchanged(rs, r.value.1, k)
    ensures r.Err? ==> CoreErrorSound(input, r.error)
    ensures CoreWellFormed(input) ==> r.Ok?
    decreases Slack(input.keys, stack), 2, |rels|
  {
    if rels == [] then Ok((stack, rs))
    else
      var n := |input.cc.weights|;
      ListedRefs(input, id, rels[0]);
      var summed :- CoreRefLoop(input, rels[0].0.references, stack, rs, Zeros(n));
      var contribution :- RelationScore.Lift(Mul(rels[0].1, summed.0));
      var current := if id in summed.2 then summed.2[id] else Zeros(n);
      assert forall i :: 0 <= i < |rels[1..]| ==> rels[1..][i] == rels[i + 1];
      CoreRelLoop(input, id, rels[1..], summed.1, summed.2[id := Add(current, contribution).value])
  }

  /** The `map` over `relation.references` and its `reduce` from the zero
      vector: each reference adds `refWeight * (combineVectors([]) +
      impactScore)` after recursing into the referenced entry; an unknown id
      is "entry not found". The reduce never throws, so summing while
      mapping is the same. */
  function CoreRefLoop(input: CoreRelationInput, refs: seq<(Id, Matrix)>, stack: Stack, rs: map<Id, Vector>, acc: Vector)
    : (r: Result<(Vector, Stack, map<Id, Vector>), EngineError>)
    requires Valid(stack) && Ready(input) && ScoresOk(input.cc, rs) && Sized(input.cc, acc)
    requires forall j :: 0 <= j < |refs| ==> refs[j] in Refs(input)
    ensures r.Ok? ==> Sized(input.cc, r.value.0) && r.value.1 == stack && ScoresOk(input.cc, r.value.2)
    ensures r.Ok? ==> rs.Keys <= r.value.2.Keys
    ensures r.Ok? ==> forall k :: k !in RefIds(input) ==> Unchanged(rs, r.value.2, k)
    ensures r.Err? ==> CoreErrorSound(input, r.error)
    ensures CoreWellFormed(input) ==> r.Ok?
    decreases Slack(input.keys, stack), 1, |refs|
  {
    if refs == [] then Ok((acc, stack, rs))
    else
      var refId := refs[0].0;
      if refId !in input.keys then Err(EntryNotFound(refId))
      else
        assert refId in RefIds(input);
        var sub :- CoreCalcSingle(input, refId, stack, rs);
        var overall := Add(sub.0, input.impacts[refId]).value;
        var scaled :- RelationScore.Lift(Mul(refs[0].1, overall));
        assert forall j :: 0 <= j < |refs[1..]| ==> refs[1..][j] == refs[j + 1];
        CoreRefLoop(input, refs[1..], sub.1, sub.2, Add(acc, scaled).value)
  }

  /** `#calcRelationScore`: every entry in insertion order, each with a
      fresh `ReoccurrenceStack(8)`, has its relation score set to what
      `#calcRelationScoreSingle` returns. Whatever its own relations added
      is overwritten, so an entry keeps a contribution only when a later
      entry's recursion reaches it through a reference. */
  function CoreCalcAll(input: CoreRelationInput, ids: seq<Id>, rs: map<Id, Vector>)
    : (r: Result<map<Id, Vector>, EngineError>)
    requires (forall k :: k in ids ==> k in input.keys) && Ready(input) && ScoresOk(input.cc, rs)
    ensures r.Ok? ==> ScoresOk(input.cc, r.value) && rs.Keys + (set k | k in ids) <= r.value.Keys
    ensures r.Ok? ==> forall k :: k !in ids && k !in RefIds(input) ==> Unchanged(rs, r.value, k)
    ensures r.Ok? ==> forall k :: k in ids && k !in RefIds(input) ==> r.value[k] == Base(input.cc)
    ensures r.Ok? && ids != [] ==> r.value[ids[|ids| - 1]] == Base(input.cc)
    ensures r.Err? ==> CoreErrorSound(input, r.error)
    ensures CoreWellFormed(input) ==> r.Ok?
    decreases |ids|
  {
    if ids == [] then Ok(rs)
    else
      var one :- CoreCalcSingle(input, ids[0], NewStack(DefaultMaxOccurrences), rs);
      CoreCalcAll(input, ids[1..], one.2[ids[0] := one.0])
  }

  // ---------------------------------------------------------------------
  // process
  // ---------------------------------------------------------------------

  /** Some input relation references `id`. */
  predicate Referenced(relations: seq<Data.Relation>, id: Id) {
    exists i, j :: 0 <= i < |relations| && 0 <= j < |relations[i].references| && relations[i].references[j].0 == id
  }

  /** `process(context, entries, impacts, relations)` of `src/core.ts`:
      containment, impact scores, relation lists, relation scores, then one
      result per entry whose overall score is the total impact plus the
      total relation. */
  function CoreProcess(cc: CoreContext, entries: seq<Data.Entry>, impacts: seq<Data.Impact>, relations: seq<Data.Relation>)
    : (r: Result<map<Id, Data.ScoreResult>, EngineError>)
    ensures SolveContainWeight(Data.IndexEntry(entries)).Err? ==> r == Err(SolveContainWeight(Data.IndexEntry(entries)).error)
    ensures r.Ok? ==> r.value.Keys == Keys(Data.IndexEntry(entries))
    ensures r.Ok? ==> forall id :: id in r.value ==>
              Add(r.value[id].totalImpact, r.value[id].totalRelation) == Ok(r.value[id].overallVector)
  {
    var es := Data.IndexEntry(entries);
    var cms :- SolveContainWeight(es);
    var impactScores :- CoreImpactScore(cc, es, cms, impacts);
    var rs :- CoreRelationPhase(cc, es, cms, relations, impactScores);
    var keys := KeyList(es);
    KeyListKeys(es);
    ResultsReady(cc, keys, impactScores, rs);
    Ok(CoreResults(cc, keys, impactScores, rs))
  }

  /** The relation lists and the relation scores of `process()`, given the
      impact scores of every entry. */
  function CoreRelationPhase(cc: CoreContext, es: Entries, cms: ContainMaps, relations: seq<Data.Relation>,
                             impactScores: map<Id, Vector>): (r: Result<map<Id, Vector>, EngineError>)
    requires Keys(es) <= cms.Keys
    requires impactScores.Keys == Keys(es) && forall k :: k in impactScores ==> Sized(cc, impactScores[k])
    ensures r.Ok? ==> ScoresOk(cc, r.value) && Keys(es) <= r.value.Keys
  {
    var lists :- FillRelationLists(cc, es, cms, relations);
    var keys := KeyList(es);
    KeyListKeys(es);
    var input := CoreRelationInput(cc, keys, lists, impactScores);
    assert Ready(input);
    CoreCalcAll(input, keys, map[])
  }

  /** Every key has an impact score and a relation score of the same size. */
  lemma ResultsReady(cc: CoreContext, keys: seq<Id>, impacts: map<Id, Vector>, rs: map<Id, Vector>)
    requires forall k :: k in keys ==> k in impacts && Sized(cc, impacts[k])
    requires ScoresOk(cc, rs) && forall k :: k in keys ==> k in rs
    ensures forall k :: k in keys ==> k in impacts && k in rs && |impacts[k]| == |rs[k]|
  {
  }

  /** The result loop of `process()`: for every entry, its impact score,
      its relation score and their sum. */
  function CoreResults(cc: CoreContext, keys: seq<Id>, impacts: map<Id, Vector>, rs: map<Id, Vector>)
    : (r: map<Id, Data.ScoreResult>)
    requires forall k :: k in keys ==> k in impacts && k in rs && |impacts[k]| == |rs[k]|
    ensures r.Keys == set k | k in keys
    ensures forall k :: k in r ==> r[k].totalImpact == impacts[k] && r[k].totalRelation == rs[k] && r[k].meta == []
    ensures forall k :: k in r ==> Add(r[k].totalImpact, r[k].totalRelation) == Ok(r[k].overallVector)
  {
    map k | k in keys :: Data.ScoreResult(impacts[k], rs[k], Add(impacts[k], rs[k]).value, [])
  }

  /** What a successful core run promises: no contributor names an unknown
      entry; each entry's impact score is `combineVectors([])` when no
      impact reaches it; and the relation score of an entry that no
      relation references, and of the last entry, is `combineVectors([])`
      whatever relations it takes part in. */
  lemma CoreProcessSpec(cc: CoreContext, entries: seq<Data.Entry>, impacts: seq<Data.Impact>, relations: seq<Data.Relation>)
    requires CoreProcess(cc, entries, impacts, relations).Ok?
    ensures var es := Data.IndexEntry(entries);
            SolveContainWeight(es).Ok? &&
            JobsKnown(es, ImpactJobs(cc, impacts)) && JobsKnown(es, RelationJobs(cc, relations))
    ensures var es := Data.IndexEntry(entries);
            var r := CoreProcess(cc, entries, impacts, relations).value;
            forall id :: id in r && Hits(SolveContainWeight(es).value, ImpactJobs(cc, impacts), id) == 0 ==>
              r[id].totalImpact == Base(cc)
    ensures var r := CoreProcess(cc, entries, impacts, relations).value;
            forall id :: id in r && !Referenced(relations, id) ==> r[id].totalRelation == Base(cc)
    ensures entries != [] ==>
              var r := CoreProcess(cc, entries, impacts, relations).value;
              var es := Data.IndexEntry(entries);
              es[|es| - 1].0 in r && r[es[|es| - 1].0].totalRelation == Base(cc)
  {
    var es := Data.IndexEntry(entries);
    var cms := SolveContainWeight(es).value;
    var impactScores := CoreImpactScore(cc, es, cms, impacts).value;
    FillRelationListsSpec(cc, es, cms, relations);
    var lists := FillRelationLists(cc, es, cms, relations).value;
    var keys := KeyList(es);
    KeyListKeys(es);
    var input := CoreRelationInput(cc, keys, lists, impactScores);
    var rs := CoreCalcAll(input, keys, map[]).value;
    var r := CoreProcess(cc, entries, impacts, relations).value;
    assert r == CoreResults(cc, keys, impactScores, rs);
    ListedReferenced(input, relations);
    if entries != [] {
      Data.IndexEntrySpec(entries);
      assert |es| > 0;
      assert keys[|keys| - 1] == es[|es| - 1].0;
    }
  }

  /** A run of `process()` whose `buffWeight` returns factor-sized matrices
      fails (the `mul` of `src/core.ts:265` throws) unless every impact
      with contributors has a factor-sized score. */
  lemma CoreProcessImpactsSized(cc: CoreContext, entries: seq<Data.Entry>, impacts: seq<Data.Impact>, relations: seq<Data.Relation>)
    requires CoreProcess(cc, entries, impacts, relations).Ok? && CoreBuff(cc)
    ensures forall i :: 0 <= i < |impacts| && impacts[i].contributors != [] ==> Sized(cc, impacts[i].score)
  {
    var es := Data.IndexEntry(entries);
    var cms := SolveContainWeight(es).value;
    CoreImpactScoreSized(cc, es, cms, impacts);
  }

  /** With only input relations listed, every listed reference is a
      reference of some input relation. */
  lemma ListedReferenced(input: CoreRelationInput, relations: seq<Data.Relation>)
    requires forall k, x :: x in Scores.ListOf(input.relations, k) ==> x.0 in relations
    ensures forall id :: id in RefIds(input) ==> Referenced(relations, id)
  {
    forall id | id in RefIds(input)
      ensures Referenced(relations, id)
    {
      var q :| q in Refs(input) && q.0 == id;
      var k: Id, p: (Data.Relation, Matrix) :| k in input.relations && p in input.relations[k] && q in p.0.references;
      assert p in Scores.ListOf(input.relations, k);
      var i :| 0 <= i < |relations| && relations[i] == p.0;
      var j :| 0 <= j < |p.0.references| && p.0.references[j] == q;
      assert relations[i].references[j].0 == id;
    }
  }

  /** The two engines on the same entries: when every child names an entry
      but the containment has a cycle, `src/core.ts` solves the containment
      while `src/process.ts` reports the cycle. */
  lemma CycleEnginesDiffer(entries: seq<Data.Entry>, cycle: seq<Id>)
    requires var es := Data.IndexEntry(entries);
             Contain.IsCycle(es, cycle) && forall k :: k in Keys(es) ==> ChildrenKnown(es, k)
    ensures SolveContainWeight(Data.IndexEntry(entries)).Ok?
    ensures Contain.SolveContainWeights(Data.IndexEntry(entries)).Err?
    ensures Contain.SolveContainWeights(Data.IndexEntry(entries)).error.CircularContainment?
  {
    var es := Data.IndexEntry(entries);
    Contain.SolveContainWeightsSucceeds(es);
    forall c
      ensures !Contain.InvalidChild(es, c)
    {
      if c !in Keys(es) {
        forall k | k in Keys(es)
          ensures c !in Contain.ChildIds(es, k)
        {
          assert ChildrenKnown(es, k);
        }
      }
    }
  }
}

=== FILE: data.dfy ===
/** The records the engine reads and writes (`src/data.ts`, with the shapes
    `src/process.ts` actually uses): entries with weighted children, impacts
    and relations with weighted contributors, per-entry results, and the
    free-form `DAH_meta` metadata every record carries. */
module Data {
  import opened Wrappers
  import opened Assoc
  import opened LinAlg

  type Id = string

  /** A JSON-like metadata value. */
  datatype MetaValue =
    | MNull
    | MBool(b: bool)
    | MNumber(n: real)
    | MString(s: string)
    | MArray(items: seq<MetaValue>)
    | MObject(fields: seq<(string, MetaValue)>)

  /** A `DAH_meta` object: its properties in insertion order. */
  type Meta = seq<(string, MetaValue)>

  /** An entry: its id, the entries it contains with their weights, metadata. */
  datatype Entry = Entry(id: Id, children: seq<(Id, real)>, meta: Meta)

  /** An impact: contributing entries with weights, and the score vector it adds. */
  datatype Impact = Impact(contributors: seq<(Id, real)>, score: Vector, meta: Meta)

  /** A relation: contributing entries with weights, and referenced entries
      with the matrix applied to each referenced entry's overall score. */
  datatype Relation = Relation(contributors: seq<(Id, real)>, references: seq<(Id, Matrix)>, meta: Meta)

  /** The input of one run: entries keyed by id, impacts, relations. */
  datatype DataSet = DataSet(entries: seq<(Id, Entry)>, impacts: seq<Impact>, relations: seq<Relation>)

  /** The result the engine produces for one entry. */
  datatype ScoreResult = ScoreResult(totalImpact: Vector, totalRelation: Vector, overallVector: Vector, meta: Meta)

  /** The `(id, entry)` pairs `indexEntry` inserts, in input order. */
  function IdPairs(entries: seq<Entry>): (r: seq<(Id, Entry)>)
    ensures |r| == |entries| && forall i :: 0 <= i < |entries| ==> r[i] == (entries[i].id, entries[i])
  {
    seq(|entries|, i requires 0 <= i < |entries| => (entries[i].id, entries[i]))
  }

  /** `indexEntry`: a map from id to entry, filled in input order. */
  function IndexEntry(entries: seq<Entry>): (r: seq<(Id, Entry)>)
  {
    SetAll([], IdPairs(entries))
  }

  /** Every key occurring in a list has a last occurrence. */
  lemma {:induction false} LastOccurrence<V>(m: seq<(string, V)>, k: string)
    requires k in Keys(m)
    ensures exists i :: 0 <= i < |m| && m[i].0 == k && forall j :: i < j < |m| ==> m[j].0 != k
  {
    KeysMembership(m, k);
    var i :| 0 <= i < |m| && m[i].0 == k;
    LastFrom(m, k, i);
  }

  lemma {:induction false} LastFrom<V>(m: seq<(string, V)>, k: string, i: nat)
    requires i < |m| && m[i].0 == k
    ensures exists l :: i <= l < |m| && m[l].0 == k && forall j :: l < j < |m| ==> m[j].0 != k
    decreases |m| - i
  {
    if exists j :: i < j < |m| && m[j].0 == k {
      var j :| i < j < |m| && m[j].0 == k;
      LastFrom(m, k, j);
    }
  }

  /** `indexEntry` keys the result by exactly the input ids, each once; each
      key maps to an entry carrying that id, namely the LAST input entry with
      it; empty input gives the empty map. */
  lemma IndexEntrySpec(entries: seq<Entry>)
    ensures Distinct(IndexEntry(entries))
    ensures Keys(IndexEntry(entries)) == set e | e in entries :: e.id
    ensures forall k :: k in Keys(IndexEntry(entries)) ==> Get(IndexEntry(entries), k).value.id == k
    ensures forall i :: 0 <= i < |entries| && (forall j :: i < j < |entries| ==> entries[j].id != entries[i].id) ==>
              Get(IndexEntry(entries), entries[i].id) == Some(entries[i])
    ensures entries == [] ==> IndexEntry(entries) == []
  {
    var pairs := IdPairs(entries);
    var r := IndexEntry(entries);
    SetAllGet([], pairs, "");
    forall k | k in Keys(pairs)
      ensures k in set e | e in entries :: e.id
    {
      KeysMembership(pairs, k);
      var i :| 0 <= i < |pairs| && pairs[i].0 == k;
      assert entries[i] in entries;
    }
    forall k | k in set e | e in entries :: e.id
      ensures k in Keys(pairs)
    {
      var e :| e in entries && e.id == k;
      var i :| 0 <= i < |entries| && entries[i] == e;
      KeysMembership(pairs, k);
      assert pairs[i].0 == k;
    }
    forall k | k in Keys(r)
      ensures Get(r, k).value.id == k
    {
      LastOccurrence(pairs, k);
      var i :| 0 <= i < |pairs| && pairs[i].0 == k && forall j :: i < j < |pairs| ==> pairs[j].0 != k;
      SetAllGet([], pairs, k);
    }
    forall i | 0 <= i < |entries| && (forall j :: i < j < |entries| ==> entries[j].id != entries[i].id)
      ensures Get(r, entries[i].id) == Some(entries[i])
    {
      SetAllGet([], pairs, entries[i].id);
    }
  }
}

=== FILE: factors.dfy ===
/** The factor tables of the `DAH_factors` extension (`exts/DAH_factors.ts`):
    nine named factors, the two single-factor subscores Boredom and
    Additional, the four subscore groups and the combine-weight vector. */
module Factors {
  /** A factor score: short name (used in JSON keys), long name, combine
      weight and position in a score vector. */
  datatype Factor = Factor(shortName: string, name: string, factorWeight: real, factorIndex: nat)

  /** A subscore group: its weight when combining into the overall score,
      its position, and the factors it reads. */
  datatype Subscore = Subscore(subscoreWeight: real, subscoreIndex: nat, factors: seq<Factor>)

  const AU := Factor("AU", "ActivatedUnpleasant", 0.3, 0)
  const AP := Factor("AP", "ActivatedPleasant", 0.4, 1)
  const MU := Factor("MU", "ModerateUnpleasant", 0.35, 2)
  const MP := Factor("MP", "ModeratePleasant", 0.35, 3)
  const CU := Factor("CU", "CalmingUnpleasant", 0.4, 4)
  const CP := Factor("CP", "CalmingPleasant", 0.5, 5)
  const AL := Factor("AL", "Language", 0.4, 6)
  const AV := Factor("AV", "Visual", 0.1, 7)
  const AM := Factor("AM", "Music", 0.3, 8)

  /** The Boredom and Additional objects are both a subscore and its only
      factor (each pushes itself into its own `factors`). */
  const BoredomFactor := Factor("B", "Boredom", 0.05, 9)
  const AdditionalFactor := Factor("A", "Additional", 1.0, 10)

  const Emotion := Subscore(0.6, 0, [AU, AP, MU, MP, CU, CP])
  const Art := Subscore(0.7, 1, [AL, AV, AM])
  const Boredom := Subscore(0.05, 2, [BoredomFactor])
  const Additional := Subscore(1.0, 3, [AdditionalFactor])

  /** The subscores in the order the overall score sums them. */
  const Subscores := [Emotion, Art, Boredom, Additional]

  /** `factorScores`: every factor in score-vector order. */
  const FactorScores := [AU, AP, MU, MP, CU, CP, AL, AV, AM, BoredomFactor, AdditionalFactor]

  /** The number of factors, the length of every score vector. */
  const NumFactors := 11

  /** `getFactorCombineWeightVector`: the factor weights in `factorScores` order. */
  function GetFactorCombineWeightVector(): (r: seq<real>)
    ensures |r| == NumFactors
    ensures forall k :: 0 <= k < NumFactors ==> r[k] == FactorScores[k].factorWeight
    ensures forall k :: 0 <= k < NumFactors ==> 0.0 < r[k] <= 1.0
  {
    seq(|FactorScores|, k requires 0 <= k < |FactorScores| => FactorScores[k].factorWeight)
  }

  /** Every factor sits at its own index in `factorScores`. */
  lemma FactorIndexIsPosition()
    ensures |FactorScores| == NumFactors
    ensures forall k :: 0 <= k < |FactorScores| ==> FactorScores[k].factorIndex == k
  {
  }

  /** Short names are non-empty, pairwise distinct and free of commas, so the
      JSON keys `a` and `a,b` built from them never collide. */
  lemma ShortNamesDistinct()
    ensures forall k :: 0 <= k < |FactorScores| ==> FactorScores[k].shortName != [] && ',' !in FactorScores[k].shortName
    ensures forall i, j :: 0 <= i < j < |FactorScores| ==> FactorScores[i].shortName != FactorScores[j].shortName
  {
  }

  /** The factor indices a subscore reads. */
  function GroupIndices(s: Subscore): (r: seq<nat>)
    ensures |r| == |s.factors|
    ensures forall k :: 0 <= k < |s.factors| ==> r[k] == s.factors[k].factorIndex
  {
    seq(|s.factors|, k requires 0 <= k < |s.factors| => s.factors[k].factorIndex)
  }

  /** The indices of all groups, in subscore order. */
  function AllGroupIndices(): seq<nat> {
    GroupIndices(Emotion) + GroupIndices(Art) + GroupIndices(Boredom) + GroupIndices(Additional)
  }

  /** The four groups read 0..5, 6..8, 9 and 10: laid end to end they list
      every factor index exactly once, in order, so they partition 0..10. */
  lemma GroupsPartition()
    ensures GroupIndices(Emotion) == [0, 1, 2, 3, 4, 5]
    ensures GroupIndices(Art) == [6, 7, 8]
    ensures GroupIndices(Boredom) == [9]
    ensures GroupIndices(Additional) == [10]
    ensures AllGroupIndices() == seq(NumFactors, k requires 0 <= k < NumFactors => k)
  {
    assert GroupIndices(Emotion) == [0, 1, 2, 3, 4, 5];
    assert GroupIndices(Art) == [6, 7, 8];
    assert GroupIndices(Boredom) == [9];
    assert GroupIndices(Additional) == [10];
  }
}

=== FILE: flatten.dfy ===
/** `flattenContainContribGraph` of `src/process.ts`: the common step that
    turns a weighted id list into a weighted id map by adding, for every id
    the callback resolves, the id itself and every id of its resolved map
    scaled by the id's weight. The engine uses it with the flattened
    children of each entry (containment) and with the flattened parents of
    each contributor (impacts and relations). */
module Flatten {
  import opened Wrappers
  import opened Assoc
  import opened EngineContext

  type Id = string

  /** A solved weight map. Only ever summed into or looked up, so the
      insertion order of the source's `Map` does not matter. */
  type WeightMap = map<Id, real>

  const NullEntryMarker := "[null entry]"

  /** `sub` occurs in `s` at position `i`. */
  predicate OccursAt(s: string, sub: string, i: int) {
    0 <= i && i + |sub| <= |s| && s[i..i + |sub|] == sub
  }

  /** `s.includes(sub)`. */
  function Includes(s: string, sub: string): (r: bool)
    ensures r <==> exists i :: OccursAt(s, sub, i)
    decreases |s|
  {
    if |s| < |sub| then false
    else if s[..|sub|] == sub then
      assert OccursAt(s, sub, 0);
      true
    else
      var r := Includes(s[1..], sub);
      assert r ==> exists i :: OccursAt(s, sub, i) by {
        if r {
          var i :| OccursAt(s[1..], sub, i);
          assert s[i + 1..i + 1 + |sub|] == s[1..][i..i + |sub|];
          assert OccursAt(s, sub, i + 1);
        }
      }
      assert (exists i :: OccursAt(s, sub, i)) ==> r by {
        if exists i :: OccursAt(s, sub, i) {
          var i :| OccursAt(s, sub, i);
          assert i != 0;
          assert s[1..][i - 1..i - 1 + |sub|] == s[i..i + |sub|];
          assert OccursAt(s[1..], sub, i - 1);
        }
      }
      r
  }

  /** `isNullEntryId`: the id contains the marker "[null entry]". */
  function IsNullEntryId(id: Id): (r: bool)
    ensures r <==> exists i :: OccursAt(id, NullEntryMarker, i)
  {
    Includes(id, NullEntryMarker)
  }

  /** The weight stored under `k`, zero when absent (`get(id) ?? 0.0`). */
  function W(m: WeightMap, k: Id): real {
    if k in m then m[k] else 0.0
  }

  /** The weight one resolved id with weight `weight` sends to `k`: the
      weight itself if `k` is the id, plus the weight times `k`'s weight in
      the id's resolved map. */
  function PairWeight(id: Id, weight: real, resolved: WeightMap, k: Id): real {
    (if k == id then weight else 0.0) + W(resolved, k) * weight
  }

  /** The `add` calls for one resolved id: `weight` onto the id itself, then
      `childWeight * weight` onto every id of its resolved map. */
  function AddResolved(acc: WeightMap, id: Id, weight: real, resolved: WeightMap): (r: WeightMap)
    ensures r.Keys == acc.Keys + {id} + resolved.Keys
    ensures forall k :: W(r, k) == W(acc, k) + PairWeight(id, weight, resolved, k)
  {
    var r := map k | k in acc.Keys + {id} + resolved.Keys :: W(acc, k) + PairWeight(id, weight, resolved, k);
    assert forall k :: W(r, k) == W(acc, k) + PairWeight(id, weight, resolved, k) by {
      forall k
        ensures W(r, k) == W(acc, k) + PairWeight(id, weight, resolved, k)
      {
        if k !in r {
          assert k !in acc && k != id && k !in resolved;
        }
      }
    }
    r
  }

  /** An id the callback cannot resolve and that is not a null id. */
  predicate Invalid(lookup: map<Id, WeightMap>, id: Id) {
    id !in lookup && !IsNullEntryId(id)
  }

  /** The total weight one base list sends to `d`: for every resolved base
      id `c` with weight `w`, `w` if `c` is `d` plus `w` times `d`'s weight
      in `c`'s resolved map. */
  function Contribution(base: seq<(Id, real)>, lookup: map<Id, WeightMap>, d: Id): real {
    if base == [] then 0.0
    else
      var (c, w) := base[0];
      (if c in lookup then PairWeight(c, w, lookup[c], d) else 0.0) +
      Contribution(base[1..], lookup, d)
  }

  /** The ids a base list reaches: every resolved base id and every id of its resolved map. */
  function Reached(base: seq<(Id, real)>, lookup: map<Id, WeightMap>): set<Id> {
    if base == [] then {}
    else
      var c := base[0].0;
      (if c in lookup then {c} + lookup[c].Keys else {}) + Reached(base[1..], lookup)
  }

  /** The ids a flatten reaches through lookups that only name lookup keys
      are lookup keys. */
  lemma {:induction false} ReachedWithin(base: seq<(Id, real)>, lookup: map<Id, WeightMap>)
    requires forall k :: k in lookup ==> lookup[k].Keys <= lookup.Keys
    ensures Reached(base, lookup) <= lookup.Keys
  {
    if base != [] {
      ReachedWithin(base[1..], lookup);
    }
  }

  /** The loop of `flattenContainContribGraph` from accumulator `acc`: an
      unresolved null id is skipped; an unresolved other id throws "entry
      not found" when `throwOnInvalid`, and is skipped otherwise. */
  function FlattenFrom(base: seq<(Id, real)>, lookup: map<Id, WeightMap>, throwOnInvalid: bool, acc: WeightMap)
    : (r: Result<WeightMap, EngineError>)
    ensures r.Err? <==> throwOnInvalid && exists i :: 0 <= i < |base| && Invalid(lookup, base[i].0)
    ensures r.Err? ==> exists i :: 0 <= i < |base| && Invalid(lookup, base[i].0) && r.error == EntryNotFound(base[i].0) &&
                         forall j :: 0 <= j < i ==> !Invalid(lookup, base[j].0)
    decreases |base|
  {
    if base == [] then Ok(acc)
    else
      var (id, weight) := base[0];
      var rest := base[1..];
      assert forall i :: 1 <= i < |base| ==> base[i] == rest[i - 1];
      if id in lookup then
        var r := FlattenFrom(rest, lookup, throwOnInvalid, AddResolved(acc, id, weight, lookup[id]));
        FlattenErrorShift(base, lookup, r);
        r
      else if IsNullEntryId(id) then
        var r := FlattenFrom(rest, lookup, throwOnInvalid, acc);
        FlattenErrorShift(base, lookup, r);
        r
      else if throwOnInvalid then Err(EntryNotFound(id))
      else FlattenFrom(rest, lookup, throwOnInvalid, acc)
  }

  /** One step of the loop: a resolved head is added, any other head is
      skipped, and the rest of the list continues from there. */
  lemma FlattenFromStep(base: seq<(Id, real)>, lookup: map<Id, WeightMap>, throwOnInvalid: bool, acc: WeightMap)
    requires base != [] && FlattenFrom(base, lookup, throwOnInvalid, acc).Ok?
    ensures base[0].0 in lookup ==>
              FlattenFrom(base, lookup, throwOnInvalid, acc) ==
              FlattenFrom(base[1..], lookup, throwOnInvalid, AddResolved(acc, base[0].0, base[0].1, lookup[base[0].0]))
    ensures base[0].0 !in lookup ==>
              FlattenFrom(base, lookup, throwOnInvalid, acc) == FlattenFrom(base[1..], lookup, throwOnInvalid, acc)
  {
  }

  /** A successful flatten reaches exactly the resolved base ids and their
      resolved maps. */
  lemma {:induction false} FlattenFromKeys(base: seq<(Id, real)>, lookup: map<Id, WeightMap>, throwOnInvalid: bool, acc: WeightMap)
    requires FlattenFrom(base, lookup, throwOnInvalid, acc).Ok?
    ensures FlattenFrom(base, lookup, throwOnInvalid, acc).value.Keys == acc.Keys + Reached(base, lookup)
    decreases |base|
  {
    if base != [] {
      var (id, weight) := base[0];
      var next := if id in lookup then AddResolved(acc, id, weight, lookup[id]) else acc;
      FlattenFromStep(base, lookup, throwOnInvalid, acc);
      FlattenFromKeys(base[1..], lookup, throwOnInvalid, next);
    }
  }

  /** A successful flatten adds to every id exactly its contribution. */
  lemma {:induction false} FlattenFromValue(base: seq<(Id, real)>, lookup: map<Id, WeightMap>, throwOnInvalid: bool, acc: WeightMap, d: Id)
    requires FlattenFrom(base, lookup, throwOnInvalid, acc).Ok?
    ensures W(FlattenFrom(base, lookup, throwOnInvalid, acc).value, d) == W(acc, d) + Contribution(base, lookup, d)
    decreases |base|
  {
    if base != [] {
      var (id, weight) := base[0];
      var next := if id in lookup then AddResolved(acc, id, weight, lookup[id]) else acc;
      var head := if id in lookup then PairWeight(id, weight, lookup[id], d) else 0.0;
      FlattenFromStep(base, lookup, throwOnInvalid, acc);
      FlattenFromValue(base[1..], lookup, throwOnInvalid, next, d);
      assert W(next, d) == W(acc, d) + head;
      assert Contribution(base, lookup, d) == head + Contribution(base[1..], lookup, d);
    }
  }

  /** An error of the tail, when the head is valid, is an error of the whole list. */
  lemma FlattenErrorShift(base: seq<(Id, real)>, lookup: map<Id, WeightMap>, r: Result<WeightMap, EngineError>)
    requires base != [] && !Invalid(lookup, base[0].0)
    requires r.Err? ==> exists i :: 0 <= i < |base[1..]| && Invalid(lookup, base[1..][i].0) && r.error == EntryNotFound(base[1..][i].0) &&
                          forall j :: 0 <= j < i ==> !Invalid(lookup, base[1..][j].0)
    ensures r.Err? ==> exists i :: 0 <= i < |base| && Invalid(lookup, base[i].0) && r.error == EntryNotFound(base[i].0) &&
                         forall j :: 0 <= j < i ==> !Invalid(lookup, base[j].0)
  {
    if r.Err? {
      var i :| 0 <= i < |base[1..]| && Invalid(lookup, base[1..][i].0) && r.error == EntryNotFound(base[1..][i].0) &&
               forall j :: 0 <= j < i ==> !Invalid(lookup, base[1..][j].0);
      assert base[i + 1] == base[1..][i];
      forall j | 0 <= j < i + 1
        ensures !Invalid(lookup, base[j].0)
      {
        if j > 0 {
          assert base[j] == base[1..][j - 1];
        }
      }
    }
  }

  /** `flattenContainContribGraph(context, base, callback, throwOnInvalidId)`,
      the callback being a lookup in `lookup`. */
  function FlattenContainContribGraph(base: seq<(Id, real)>, lookup: map<Id, WeightMap>, throwOnInvalid: bool)
    : (r: Result<WeightMap, EngineError>)
    ensures r.Ok? ==> r.value.Keys == Reached(base, lookup)
    ensures r.Ok? ==> forall d :: W(r.value, d) == Contribution(base, lookup, d)
    ensures r.Err? <==> throwOnInvalid && exists i :: 0 <= i < |base| && Invalid(lookup, base[i].0)
    ensures !throwOnInvalid ==> r.Ok?
  {
    var r := FlattenFrom(base, lookup, throwOnInvalid, map[]);
    if r.Err? then r
    else
      FlattenFromKeys(base, lookup, throwOnInvalid, map[]);
      assert forall d :: W(r.value, d) == Contribution(base, lookup, d) by {
        forall d
          ensures W(r.value, d) == Contribution(base, lookup, d)
        {
          FlattenFromValue(base, lookup, throwOnInvalid, map[], d);
        }
      }
      r
  }

  /** Only the resolved maps of the base ids matter: two lookups that agree
      on them give the same result. */
  lemma {:induction false} FlattenFrame(base: seq<(Id, real)>, l1: map<Id, WeightMap>, l2: map<Id, WeightMap>,
                                        throwOnInvalid: bool, acc: WeightMap)
    requires forall i :: 0 <= i < |base| ==> (base[i].0 in l1 <==> base[i].0 in l2)
    requires forall i :: 0 <= i < |base| && base[i].0 in l1 ==> l1[base[i].0] == l2[base[i].0]
    ensures FlattenFrom(base, l1, throwOnInvalid, acc) == FlattenFrom(base, l2, throwOnInvalid, acc)
    decreases |base|
  {
    if base != [] {
      assert forall i :: 1 <= i < |base| ==> base[i] == base[1..][i - 1];
      var (id, weight) := base[0];
      if id in l1 {
        FlattenFrame(base[1..], l1, l2, throwOnInvalid, AddResolved(acc, id, weight, l1[id]));
      } else {
        FlattenFrame(base[1..], l1, l2, throwOnInvalid, acc);
      }
    }
  }
}

=== FILE: json_codec.dfy ===
/** The factor-keyed JSON codec of `exts/DAH_serialize_json.ts`. A matrix
    becomes a bare number (scalar) or a JSON object whose properties are
    factor short names (`"AU"`) for diagonal entries and comma-joined pairs
    (`"AU,AP"`) for off-diagonal ones; entries below 1e-4 in magnitude are
    dropped. A vector is encoded as the diagonal matrix it forms. Impacts and
    relations, whose contributors and references are weighted by matrices in
    this data model, are converted map by map; an entry is written as its
    id and metadata only. */
module JsonCodec {
  import opened Wrappers
  import opened Assoc
  import opened LinAlg
  import Factors
  import Data

  /** `factorScores.length`, the dimension the codec reads and writes. */
  const N := Factors.NumFactors

  /** A JSON object with number values, properties in insertion order. */
  type JsonObject = seq<(string, real)>

  /** `JSONMatrix`: a bare number or an object keyed by factor names. */
  datatype JsonMatrix = JNumber(number: real) | JObject(fields: JsonObject)

  /** The short name of factor `i`. */
  function ShortName(i: nat): string
    requires i < N
  {
    Factors.FactorScores[i].shortName
  }

  /** The property name of entry `(i, j)`: the short name on the diagonal,
      `"<row>,<column>"` off it. */
  function Key(i: nat, j: nat): string
    requires i < N && j < N
  {
    if i == j then ShortName(i) else ShortName(i) + "," + ShortName(j)
  }

  /** The row-major position `i * n + j` the codec reads and writes. */
  function Pos(i: nat, j: nat): nat {
    i * N + j
  }

  function Abs(x: real): real {
    if x < 0.0 then -x else x
  }

  /** `Math.abs(value) >= 1e-4`: the entries the encoding keeps. */
  predicate Significant(x: real) {
    Abs(x) >= 0.0001
  }

  // ------------------------------------------------------------ key names

  lemma ShortNameInjective(i: nat, k: nat)
    requires i < N && k < N && i != k
    ensures ShortName(i) != ShortName(k)
  {
    Factors.ShortNamesDistinct();
  }

  /** Joining two comma-free names with a comma is injective. */
  lemma CommaJoinDistinct(a: string, b: string, c: string, d: string)
    requires ',' !in a && ',' !in c
    requires a != c || b != d
    ensures a + "," + b != c + "," + d
  {
    var s, t := a + "," + b, c + "," + d;
    if |a| < |c| {
      assert s[|a|] == ',' && t[|a|] == c[|a|];
    } else if |c| < |a| {
      assert t[|c|] == ',' && s[|c|] == a[|c|];
    } else if a != c {
      assert exists k :: 0 <= k < |a| && a[k] != c[k];
      var k :| 0 <= k < |a| && a[k] != c[k];
      assert s[k] == a[k] && t[k] == c[k];
    } else {
      assert s[|a| + 1..] == b && t[|a| + 1..] == d;
    }
  }

  /** Distinct entries have distinct property names: short names are
      distinct and comma-free, so no name is used twice and a diagonal name
      never looks like a pair. */
  lemma KeyInjective(i: nat, j: nat, k: nat, l: nat)
    requires i < N && j < N && k < N && l < N
    requires i != k || j != l
    ensures Key(i, j) != Key(k, l)
  {
    Factors.ShortNamesDistinct();
    if i == j && k == l {
      ShortNameInjective(i, k);
    } else if i == j {
      assert Key(k, l)[|ShortName(k)|] == ',';
    } else if k == l {
      assert Key(i, j)[|ShortName(i)|] == ',';
    } else {
      if i != k {
        ShortNameInjective(i, k);
      } else {
        ShortNameInjective(j, l);
      }
      CommaJoinDistinct(ShortName(i), ShortName(j), ShortName(k), ShortName(l));
    }
  }

  // ------------------------------------------------------------- encoding

  /** The diagonal branch of `toJSONMatrix` from factor `i` on: each
      component at least 1e-4 in magnitude is stored under its factor's short
      name. A component past the end of the data reads `undefined`, which the
      threshold test rejects. */
  function DiagonalObject(d: Vector, i: nat, acc: JsonObject): JsonObject
    requires i <= N
    decreases N - i
  {
    if i == N then acc
    else DiagonalObject(d, i + 1, if i < |d| && Significant(d[i]) then Set(acc, ShortName(i), d[i]) else acc)
  }

  /** A property the diagonal walk from factor `i` on never writes. */
  predicate NotLaterName(key: string, i: nat) {
    forall k :: i <= k < N ==> key != ShortName(k)
  }

  /** The diagonal walk leaves every property it does not write alone. */
  lemma {:induction false} DiagonalObjectOther(d: Vector, i: nat, acc: JsonObject, key: string)
    requires i <= N && NotLaterName(key, i)
    ensures Get(DiagonalObject(d, i, acc), key) == Get(acc, key)
    decreases N - i
  {
    if i < N {
      var keep := i < |d| && Significant(d[i]);
      var acc' := if keep then Set(acc, ShortName(i), d[i]) else acc;
      DiagonalObjectOther(d, i + 1, acc', key);
      if keep {
        SetGet(acc, ShortName(i), d[i], key);
      }
    }
  }

  /** The diagonal walk from factor `i` on leaves the value it stores for
      every later factor it keeps, and the earlier value for one it drops. */
  lemma {:induction false} DiagonalObjectGet(d: Vector, i: nat, acc: JsonObject, k: nat)
    requires i <= k < N
    ensures Get(DiagonalObject(d, i, acc), ShortName(k)) ==
              if k < |d| && Significant(d[k]) then Some(d[k]) else Get(acc, ShortName(k))
    decreases N - i
  {
    var keep := i < |d| && Significant(d[i]);
    var acc' := if keep then Set(acc, ShortName(i), d[i]) else acc;
    assert DiagonalObject(d, i, acc) == DiagonalObject(d, i + 1, acc');
    if k == i {
      LaterNamesDiffer(i);
      DiagonalObjectOther(d, i + 1, acc', ShortName(i));
      if keep {
        SetGet(acc, ShortName(i), d[i], ShortName(i));
      }
    } else {
      DiagonalObjectGet(d, i + 1, acc', k);
      if keep {
        ShortNameInjective(i, k);
        SetGet(acc, ShortName(i), d[i], ShortName(k));
      }
    }
  }

  /** The walk from factor `i + 1` on never writes factor `i`'s name. */
  lemma LaterNamesDiffer(i: nat)
    requires i < N
    ensures NotLaterName(ShortName(i), i + 1)
  {
    forall k' | i + 1 <= k' < N
      ensures ShortName(i) != ShortName(k')
    {
      ShortNameInjective(i, k');
    }
  }

  /** Entry `(k, l)` comes at or after `(i, j)` in the row-major walk. */
  predicate After(i: nat, j: nat, k: nat, l: nat) {
    k > i || (k == i && l >= j)
  }

  /** The value the regular branch of `toJSONMatrix` stores for `(k, l)`:
      the data at `k * n + l` when it exists and is at least 1e-4 in
      magnitude. */
  function Stored(values: seq<real>, k: nat, l: nat): Option<real> {
    var p := Pos(k, l);
    if p < |values| && Significant(values[p]) then Some(values[p]) else None
  }

  /** The regular branch of `toJSONMatrix` from entry `(i, j)` on, row by
      row: each kept entry is stored under its property name. */
  function RegularObject(values: seq<real>, i: nat, j: nat, acc: JsonObject): JsonObject
    requires i <= N && j <= N
    decreases N - i, N - j
  {
    if i == N then acc
    else if j == N then RegularObject(values, i + 1, 0, acc)
    else
      var keep := Stored(values, i, j);
      RegularObject(values, i, j + 1, if keep.Some? then Set(acc, Key(i, j), keep.value) else acc)
  }

  /** A property the regular walk from `(i, j)` on never writes. */
  predicate NotLater(key: string, i: nat, j: nat) {
    forall k, l :: 0 <= k < N && 0 <= l < N && After(i, j, k, l) ==> key != Key(k, l)
  }

  /** The regular walk leaves every property it does not write alone. */
  lemma {:induction false} RegularObjectOther(values: seq<real>, i: nat, j: nat, acc: JsonObject, key: string)
    requires i <= N && j <= N
    requires NotLater(key, i, j)
    ensures Get(RegularObject(values, i, j, acc), key) == Get(acc, key)
    decreases N - i, N - j
  {
    if i < N && j == N {
      RegularObjectOther(values, i + 1, 0, acc, key);
    } else if i < N {
      var keep := Stored(values, i, j);
      var acc' := if keep.Some? then Set(acc, Key(i, j), keep.value) else acc;
      RegularObjectOther(values, i, j + 1, acc', key);
      if keep.Some? {
        SetGet(acc, Key(i, j), keep.value, key);
      }
    }
  }

  /** The regular walk from `(i, j)` on leaves the value it stores for every
      later entry it keeps, and the earlier value for one it drops. */
  lemma {:induction false} RegularObjectGet(values: seq<real>, i: nat, j: nat, acc: JsonObject, k: nat, l: nat)
    requires i <= N && j <= N && k < N && l < N && After(i, j, k, l)
    ensures Get(RegularObject(values, i, j, acc), Key(k, l)) ==
              if Stored(values, k, l).Some? then Stored(values, k, l) else Get(acc, Key(k, l))
    decreases N - i, N - j
  {
    if j == N {
      RegularObjectGet(values, i + 1, 0, acc, k, l);
    } else {
      var keep := Stored(values, i, j);
      var acc' := if keep.Some? then Set(acc, Key(i, j), keep.value) else acc;
      if keep.Some? {
        SetGet(acc, Key(i, j), keep.value, Key(k, l));
      }
      if k == i && l == j {
        assert NotLater(Key(i, j), i, j + 1) by {
          forall k', l' | 0 <= k' < N && 0 <= l' < N && After(i, j + 1, k', l')
            ensures Key(i, j) != Key(k', l')
          {
            KeyInjective(i, j, k', l');
          }
        }
        RegularObjectOther(values, i, j + 1, acc', Key(i, j));
      } else {
        KeyInjective(i, j, k, l);
        RegularObjectGet(values, i, j + 1, acc', k, l);
      }
    }
  }

  /** `toJSONMatrix`: a scalar is its bare number; a diagonal matrix stores
      component `k` under the short name of factor `k` exactly when it is at
      least 1e-4 in magnitude; a regular matrix stores entry `(k, l)`, read at
      `k * n + l`, under `Key(k, l)` on the same condition. No other property
      is written. */
  function ToJsonMatrix(m: Matrix): (r: JsonMatrix)
    ensures m.Scalar? <==> r.JNumber?
    ensures m.Scalar? ==> r.number == m.scalar
    ensures m.Diagonal? ==> forall k :: 0 <= k < N ==>
              Get(r.fields, ShortName(k)) == if k < |m.diagonal| && Significant(m.diagonal[k]) then Some(m.diagonal[k]) else None
    ensures m.Diagonal? ==> forall key :: NotLaterName(key, 0) ==> key !in Keys(r.fields)
    ensures m.Regular? ==> forall k, l :: 0 <= k < N && 0 <= l < N ==>
              Get(r.fields, Key(k, l)) == Stored(m.regular.values, k, l)
    ensures m.Regular? ==> forall key :: NotLater(key, 0, 0) ==> key !in Keys(r.fields)
  {
    match m
    case Scalar(s) => JNumber(s)
    case Diagonal(d) =>
      var o := DiagonalObject(d, 0, []);
      assert forall k :: 0 <= k < N ==>
               Get(o, ShortName(k)) == if k < |d| && Significant(d[k]) then Some(d[k]) else None by {
        forall k | 0 <= k < N
          ensures Get(o, ShortName(k)) == if k < |d| && Significant(d[k]) then Some(d[k]) else None
        {
          DiagonalObjectGet(d, 0, [], k);
        }
      }
      assert forall key :: NotLaterName(key, 0) ==> key !in Keys(o) by {
        forall key | NotLaterName(key, 0)
          ensures key !in Keys(o)
        {
          DiagonalObjectOther(d, 0, [], key);
        }
      }
      JObject(o)
    case Regular(rm) =>
      var o := RegularObject(rm.values, 0, 0, []);
      assert forall k, l :: 0 <= k < N && 0 <= l < N ==> Get(o, Key(k, l)) == Stored(rm.values, k, l) by {
        forall k, l | 0 <= k < N && 0 <= l < N
          ensures Get(o, Key(k, l)) == Stored(rm.values, k, l)
        {
          RegularObjectGet(rm.values, 0, 0, [], k, l);
        }
      }
      assert forall key :: NotLater(key, 0, 0) ==> key !in Keys(o) by {
        forall key | NotLater(key, 0, 0)
          ensures key !in Keys(o)
        {
          RegularObjectOther(rm.values, 0, 0, [], key);
        }
      }
      JObject(o)
  }

  /** `toJSONVector`: the encoding of the diagonal matrix of the vector. */
  function ToJsonVector(v: Vector): (r: JsonObject)
    ensures forall k :: 0 <= k < N ==>
              Get(r, ShortName(k)) == if k < |v| && Significant(v[k]) then Some(v[k]) else None
  {
    ToJsonMatrix(Diagonal(v)).fields
  }

  // ------------------------------------------------------------- decoding

  /** `fromJSONVector`: component `k` is the property named after factor `k`,
      or zero when it is absent. */
  function FromJsonVector(obj: JsonObject): (r: Vector)
    ensures |r| == N
  {
    seq(N, k requires 0 <= k < N => Get(obj, ShortName(k)).GetOr(0.0))
  }

  /** The off-diagonal value `fromJSONMatrix` reads for `(i, j)`, zero when
      the property is absent. */
  function OffDiagonal(obj: JsonObject, i: nat, j: nat): real
    requires i < N && j < N
  {
    Get(obj, Key(i, j)).GetOr(0.0)
  }

  /** An off-diagonal entry `fromJSONMatrix` keeps. */
  predicate Kept(obj: JsonObject, i: nat, j: nat)
    requires i < N && j < N
  {
    i != j && Significant(OffDiagonal(obj, i, j))
  }

  /** The array `fromJSONMatrix` allocates on the first kept off-diagonal
      entry: zeros, with component `k` of the vector at `k * (n + 1)`. */
  function Seeded(vector: Vector): (r: seq<real>)
    requires |vector| == N
    ensures |r| == N * N
    ensures forall k, l :: 0 <= k < N && 0 <= l < N ==> r[Pos(k, l)] == if k == l then vector[k] else 0.0
  {
    var r := seq(N * N, q requires 0 <= q < N * N => if q % (N + 1) == 0 then vector[q / (N + 1)] else 0.0);
    assert forall k, l :: 0 <= k < N && 0 <= l < N ==> r[Pos(k, l)] == if k == l then vector[k] else 0.0 by {
      forall k, l | 0 <= k < N && 0 <= l < N
        ensures r[Pos(k, l)] == if k == l then vector[k] else 0.0
      {
        var p := Pos(k, l);
        if k == l {
          assert p == k * (N + 1);
        } else {
          assert p == k * (N + 1) + (l - k);
        }
      }
    }
    r
  }

  /** The double loop of `fromJSONMatrix` from entry `(i, j)` on: `data`
      stays undefined until the first kept off-diagonal entry, is then
      seeded with the diagonal, and takes every kept entry at `i * n + j`. */
  function FillFrom(obj: JsonObject, vector: Vector, i: nat, j: nat, data: Option<seq<real>>): (r: Option<seq<real>>)
    requires i <= N && j <= N && |vector| == N
    requires data.Some? ==> |data.value| == N * N
    ensures r.Some? ==> |r.value| == N * N
    decreases N - i, N - j
  {
    if i == N then data
    else if j == N then FillFrom(obj, vector, i + 1, 0, data)
    else if !Kept(obj, i, j) then FillFrom(obj, vector, i, j + 1, data)
    else FillFrom(obj, vector, i, j + 1, Some(Took(obj, vector, i, j, data)))
  }

  /** No entry from `(i, j)` on is a kept off-diagonal entry. */
  predicate NoneKept(obj: JsonObject, i: nat, j: nat) {
    forall k, l :: 0 <= k < N && 0 <= l < N && After(i, j, k, l) ==> !Kept(obj, k, l)
  }

  /** `data` is still undefined after the loop exactly when it was before
      and no later entry is kept. */
  lemma {:induction false} FillFromNone(obj: JsonObject, vector: Vector, i: nat, j: nat, data: Option<seq<real>>)
    requires i <= N && j <= N && |vector| == N
    requires data.Some? ==> |data.value| == N * N
    ensures FillFrom(obj, vector, i, j, data).None? <==> data.None? && NoneKept(obj, i, j)
    decreases N - i, N - j
  {
    if i == N {
      assert FillFrom(obj, vector, i, j, data) == data;
      NoneKeptPastEnd(obj, j);
    } else if j == N {
      FillFromNone(obj, vector, i + 1, 0, data);
      FillFromNoneRowEnd(obj, vector, i, data);
    } else if !Kept(obj, i, j) {
      FillFromNone(obj, vector, i, j + 1, data);
      FillFromNoneSkip(obj, vector, i, j, data);
    } else {
      FillFromKept(obj, vector, i, j, data);
      NoneKeptStep(obj, i, j);
    }
  }

  /** The step of `FillFromNone` at the end of a row. */
  lemma FillFromNoneRowEnd(obj: JsonObject, vector: Vector, i: nat, data: Option<seq<real>>)
    requires i < N && |vector| == N
    requires data.Some? ==> |data.value| == N * N
    requires FillFrom(obj, vector, i + 1, 0, data).None? <==> data.None? && NoneKept(obj, i + 1, 0)
    ensures FillFrom(obj, vector, i, N, data).None? <==> data.None? && NoneKept(obj, i, N)
  {
    assert FillFrom(obj, vector, i, N, data) == FillFrom(obj, vector, i + 1, 0, data);
    NoneKeptRowEnd(obj, i);
  }

  /** The step of `FillFromNone` over an entry that is not kept. */
  lemma FillFromNoneSkip(obj: JsonObject, vector: Vector, i: nat, j: nat, data: Option<seq<real>>)
    requires i < N && j < N && |vector| == N && !Kept(obj, i, j)
    requires data.Some? ==> |data.value| == N * N
    requires FillFrom(obj, vector, i, j + 1, data).None? <==> data.None? && NoneKept(obj, i, j + 1)
    ensures FillFrom(obj, vector, i, j, data).None? <==> data.None? && NoneKept(obj, i, j)
  {
    assert FillFrom(obj, vector, i, j, data) == FillFrom(obj, vector, i, j + 1, data);
    NoneKeptStep(obj, i, j);
  }

  /** Once the array exists the loop never drops it. */
  lemma {:induction false} FillFromSome(obj: JsonObject, vector: Vector, i: nat, j: nat, data: seq<real>)
    requires i <= N && j <= N && |vector| == N && |data| == N * N
    ensures FillFrom(obj, vector, i, j, Some(data)).Some?
    decreases N - i, N - j
  {
    if i == N {
    } else if j == N {
      FillFromSome(obj, vector, i + 1, 0, data);
    } else if !Kept(obj, i, j) {
      FillFromSome(obj, vector, i, j + 1, data);
    } else {
      FillFromSome(obj, vector, i, j + 1, Took(obj, vector, i, j, Some(data)));
    }
  }

  /** A kept entry defines the array. */
  lemma FillFromKept(obj: JsonObject, vector: Vector, i: nat, j: nat, data: Option<seq<real>>)
    requires i < N && j < N && |vector| == N && Kept(obj, i, j)
    requires data.Some? ==> |data.value| == N * N
    ensures FillFrom(obj, vector, i, j, data).Some?
  {
    FillFromSome(obj, vector, i, j + 1, Took(obj, vector, i, j, data));
  }

  /** Past the last row no entry is later. */
  lemma NoneKeptPastEnd(obj: JsonObject, j: nat)
    ensures NoneKept(obj, N, j)
  {
    assert forall k, l :: 0 <= k < N && 0 <= l < N ==> !After(N, j, k, l);
  }

  /** Past the end of row `i`, the later entries are those of row `i + 1` on. */
  lemma NoneKeptRowEnd(obj: JsonObject, i: nat)
    ensures NoneKept(obj, i, N) <==> NoneKept(obj, i + 1, 0)
  {
    assert forall k, l :: 0 <= k < N && 0 <= l < N ==> (After(i, N, k, l) <==> After(i + 1, 0, k, l));
  }

  /** The entries from `(i, j)` on are `(i, j)` and those from `(i, j + 1)` on. */
  lemma NoneKeptStep(obj: JsonObject, i: nat, j: nat)
    requires i < N && j < N
    ensures NoneKept(obj, i, j) <==> !Kept(obj, i, j) && NoneKept(obj, i, j + 1)
  {
    assert After(i, j, i, j);
    assert forall k, l :: 0 <= k < N && 0 <= l < N ==> (After(i, j, k, l) <==> After(i, j + 1, k, l) || (k == i && l == j));
  }

  /** What entry `(k, l)` holds after the loop from `(i, j)`: the kept value
      when it is a later kept entry, and otherwise what the array held
      before, the seeded array when there was none. */
  function Filled(obj: JsonObject, vector: Vector, i: nat, j: nat, data: Option<seq<real>>, k: nat, l: nat): real
    requires |vector| == N && k < N && l < N
    requires data.Some? ==> |data.value| == N * N
  {
    if After(i, j, k, l) && Kept(obj, k, l) then OffDiagonal(obj, k, l)
    else if data.Some? then data.value[Pos(k, l)]
    else Seeded(vector)[Pos(k, l)]
  }

  /** The array after the loop takes a kept entry `(i, j)`. */
  function Took(obj: JsonObject, vector: Vector, i: nat, j: nat, data: Option<seq<real>>): (r: seq<real>)
    requires i < N && j < N && |vector| == N
    requires data.Some? ==> |data.value| == N * N
    ensures |r| == N * N
  {
    var base := if data.None? then Seeded(vector) else data.value;
    base[Pos(i, j) := OffDiagonal(obj, i, j)]
  }

  /** After the loop, entry `(k, l)` holds the kept value when it is a later
      kept entry, and otherwise what the array held before, the seeded array
      when there was none. */
  lemma {:induction false} FillFromValue(obj: JsonObject, vector: Vector, i: nat, j: nat, data: Option<seq<real>>,
                                         k: nat, l: nat)
    requires i <= N && j <= N && |vector| == N && k < N && l < N
    requires data.Some? ==> |data.value| == N * N
    requires FillFrom(obj, vector, i, j, data).Some?
    ensures FillFrom(obj, vector, i, j, data).value[Pos(k, l)] == Filled(obj, vector, i, j, data, k, l)
    decreases N - i, N - j
  {
    if i == N {
      FillPastEnd(obj, vector, j, data, k, l);
    } else if j == N {
      FillRowEndStep(obj, vector, i, data, k, l);
      FillFromValue(obj, vector, i + 1, 0, data, k, l);
    } else if !Kept(obj, i, j) {
      FillSkipStep(obj, vector, i, j, data, k, l);
      FillFromValue(obj, vector, i, j + 1, data, k, l);
    } else {
      FillKeepStep(obj, vector, i, j, data, k, l);
      FillFromValue(obj, vector, i, j + 1, Some(Took(obj, vector, i, j, data)), k, l);
    }
  }

  /** Past the last row the loop is done, and every entry keeps what the
      array held. */
  lemma FillPastEnd(obj: JsonObject, vector: Vector, j: nat, data: Option<seq<real>>, k: nat, l: nat)
    requires j <= N && |vector| == N && k < N && l < N
    requires data.Some? ==> |data.value| == N * N
    ensures FillFrom(obj, vector, N, j, data) == data
    ensures data.Some? ==> Filled(obj, vector, N, j, data, k, l) == data.value[Pos(k, l)]
  {
  }

  /** At the end of a row the loop moves to the next row, and no entry
      changes its expected value. */
  lemma FillRowEndStep(obj: JsonObject, vector: Vector, i: nat, data: Option<seq<real>>, k: nat, l: nat)
    requires i < N && |vector| == N && k < N && l < N
    requires data.Some? ==> |data.value| == N * N
    ensures FillFrom(obj, vector, i, N, data) == FillFrom(obj, vector, i + 1, 0, data)
    ensures Filled(obj, vector, i, N, data, k, l) == Filled(obj, vector, i + 1, 0, data, k, l)
  {
  }

  /** An entry that is not kept is passed over. */
  lemma FillSkipStep(obj: JsonObject, vector: Vector, i: nat, j: nat, data: Option<seq<real>>, k: nat, l: nat)
    requires i < N && j < N && |vector| == N && k < N && l < N && !Kept(obj, i, j)
    requires data.Some? ==> |data.value| == N * N
    ensures FillFrom(obj, vector, i, j, data) == FillFrom(obj, vector, i, j + 1, data)
    ensures Filled(obj, vector, i, j, data, k, l) == Filled(obj, vector, i, j + 1, data, k, l)
  {
    assert After(i, j, k, l) <==> After(i, j + 1, k, l) || (k == i && l == j);
  }

  /** A kept entry is written at its own position and nowhere else. */
  lemma FillKeepStep(obj: JsonObject, vector: Vector, i: nat, j: nat, data: Option<seq<real>>, k: nat, l: nat)
    requires i < N && j < N && |vector| == N && k < N && l < N && Kept(obj, i, j)
    requires data.Some? ==> |data.value| == N * N
    ensures FillFrom(obj, vector, i, j, data) == FillFrom(obj, vector, i, j + 1, Some(Took(obj, vector, i, j, data)))
    ensures Filled(obj, vector, i, j, data, k, l) == Filled(obj, vector, i, j + 1, Some(Took(obj, vector, i, j, data)), k, l)
  {
    if k != i || l != j {
      PosInjective(k, l, i, j);
    }
  }

  /** Distinct entries have distinct positions. */
  lemma PosInjective(k: nat, l: nat, i: nat, j: nat)
    requires l < N && j < N && (k != i || l != j)
    ensures Pos(k, l) != Pos(i, j)
  {
    if k < i {
      assert Pos(k, l) < (k + 1) * N <= i * N <= Pos(i, j);
    } else if i < k {
      assert Pos(i, j) < (i + 1) * N <= k * N <= Pos(k, l);
    }
  }

  /** `fromJSONMatrix`: a bare number is a scalar. An object is read as a
      vector on the diagonal; it decodes to that diagonal matrix when no
      off-diagonal property is at least 1e-4 in magnitude, and otherwise to a
      regular matrix holding the kept off-diagonal entries, the diagonal and
      zeros elsewhere. */
  function FromJsonMatrix(j: JsonMatrix): (r: Matrix)
    ensures j.JNumber? ==> r == Scalar(j.number)
    ensures j.JObject? ==> !r.Scalar?
    ensures j.JObject? ==> (r.Diagonal? <==> forall k, l :: 0 <= k < N && 0 <= l < N ==> !Kept(j.fields, k, l))
    ensures j.JObject? && r.Diagonal? ==> r.diagonal == FromJsonVector(j.fields)
    ensures j.JObject? && r.Regular? ==>
              r.regular.numDimensions == N && |r.regular.values| == N * N &&
              forall k, l :: 0 <= k < N && 0 <= l < N ==>
                r.regular.values[Pos(k, l)] ==
                  if Kept(j.fields, k, l) then OffDiagonal(j.fields, k, l)
                  else if k == l then FromJsonVector(j.fields)[k]
                  else 0.0
  {
    match j
    case JNumber(s) => Scalar(s)
    case JObject(obj) =>
      var vector := FromJsonVector(obj);
      FillFromNone(obj, vector, 0, 0, None);
      match FillFrom(obj, vector, 0, 0, None)
      case None => Diagonal(vector)
      case Some(data) =>
        assert forall k, l :: 0 <= k < N && 0 <= l < N ==>
                 data[Pos(k, l)] == if Kept(obj, k, l) then OffDiagonal(obj, k, l) else Seeded(vector)[Pos(k, l)] by {
          forall k, l | 0 <= k < N && 0 <= l < N
            ensures data[Pos(k, l)] == if Kept(obj, k, l) then OffDiagonal(obj, k, l) else Seeded(vector)[Pos(k, l)]
          {
            FillFromValue(obj, vector, 0, 0, None, k, l);
          }
        }
        Regular(RegularData(N, data))
  }

  // ---------------------------------------------------------- round trips

  /** Every component is zero or kept by the 1e-4 threshold. */
  predicate Clean(xs: seq<real>) {
    forall k :: 0 <= k < |xs| ==> xs[k] == 0.0 || Significant(xs[k])
  }

  /** A matrix the codec can carry: a scalar, or an `n`-dimensional diagonal
      or regular matrix whose entries are all zero or above the threshold. */
  predicate Encodable(m: Matrix) {
    match m
    case Scalar(_) => true
    case Diagonal(d) => |d| == N && Clean(d)
    case Regular(rm) => rm.numDimensions == N && Clean(rm.values)
  }

  /** A regular `n`-dimensional matrix with a non-zero entry off the diagonal. */
  predicate HasOffDiagonal(rm: RegularMatrix)
    requires rm.numDimensions == N
  {
    exists k, l :: 0 <= k < N && 0 <= l < N && k != l && rm.values[Pos(k, l)] != 0.0
  }

  /** Decoding an encoded vector gives it back with the components below the
      threshold zeroed and its length made `n`; a clean `n`-vector comes back
      unchanged. */
  lemma VectorRoundTrip(v: Vector)
    ensures forall k :: 0 <= k < N ==>
              FromJsonVector(ToJsonVector(v))[k] == if k < |v| && Significant(v[k]) then v[k] else 0.0
    ensures |v| == N && Clean(v) ==> FromJsonVector(ToJsonVector(v)) == v
  {
  }

  /** Every position below `n * n` is `Pos(k, l)` of one entry. */
  lemma PosCovers(q: nat)
    requires q < N * N
    ensures q / N < N && q % N < N && Pos(q / N, q % N) == q
  {
  }

  /** How one entry of an encoded clean regular matrix decodes: the value
      read under its property name is the entry itself, and an off-diagonal
      entry is kept exactly when it is non-zero. */
  lemma RegularEntryDecodes(rm: RegularMatrix, k: nat, l: nat)
    requires rm.numDimensions == N && Clean(rm.values) && k < N && l < N
    ensures Pos(k, l) < |rm.values|
    ensures OffDiagonal(ToJsonMatrix(Regular(rm)).fields, k, l) == rm.values[Pos(k, l)]
    ensures Kept(ToJsonMatrix(Regular(rm)).fields, k, l) <==> k != l && rm.values[Pos(k, l)] != 0.0
    ensures k == l ==> FromJsonVector(ToJsonMatrix(Regular(rm)).fields)[k] == rm.values[Pos(k, k)]
  {
    assert |rm.values| == N * N;
    var v := rm.values[Pos(k, l)];
    assert v == 0.0 || Significant(v);
  }

  /** The diagonal of a regular `n`-dimensional matrix. */
  function DiagonalOf(rm: RegularMatrix): (r: Vector)
    requires rm.numDimensions == N
    ensures |r| == N
  {
    assert |rm.values| == N * N;
    seq(N, k requires 0 <= k < N => rm.values[Pos(k, k)])
  }

  /** The regular case of the round trip. */
  lemma RegularRoundTrip(rm: RegularMatrix)
    requires rm.numDimensions == N && Clean(rm.values)
    ensures FromJsonMatrix(ToJsonMatrix(Regular(rm))).Regular? <==> HasOffDiagonal(rm)
    ensures HasOffDiagonal(rm) ==> FromJsonMatrix(ToJsonMatrix(Regular(rm))) == Regular(rm)
    ensures !HasOffDiagonal(rm) ==> FromJsonMatrix(ToJsonMatrix(Regular(rm))) == Diagonal(DiagonalOf(rm))
  {
    RegularStaysRegular(rm);
    if HasOffDiagonal(rm) {
      RegularValuesBack(rm);
    } else {
      RegularDiagonalBack(rm);
    }
  }

  /** The encoded object of a clean regular matrix keeps a pair property
      exactly when the matrix has a non-zero entry off the diagonal. */
  lemma RegularStaysRegular(rm: RegularMatrix)
    requires rm.numDimensions == N && Clean(rm.values)
    ensures FromJsonMatrix(ToJsonMatrix(Regular(rm))).Regular? <==> HasOffDiagonal(rm)
  {
    var obj := ToJsonMatrix(Regular(rm)).fields;
    forall k, l | 0 <= k < N && 0 <= l < N
      ensures Pos(k, l) < |rm.values| && (Kept(obj, k, l) <==> k != l && rm.values[Pos(k, l)] != 0.0)
    {
      RegularEntryDecodes(rm, k, l);
    }
  }

  /** A decoded regular matrix has the original entries. */
  lemma RegularValuesBack(rm: RegularMatrix)
    requires rm.numDimensions == N && Clean(rm.values)
    requires FromJsonMatrix(ToJsonMatrix(Regular(rm))).Regular?
    ensures FromJsonMatrix(ToJsonMatrix(Regular(rm))) == Regular(rm)
  {
    var r := FromJsonMatrix(ToJsonMatrix(Regular(rm)));
    forall k, l | 0 <= k < N && 0 <= l < N
      ensures Pos(k, l) < |rm.values| && r.regular.values[Pos(k, l)] == rm.values[Pos(k, l)]
    {
      RegularEntryBack(rm, k, l);
    }
    SameAtEveryPos(r.regular.values, rm.values);
  }

  /** Two `n * n` sequences that agree at every entry are equal. */
  lemma SameAtEveryPos(a: seq<real>, b: seq<real>)
    requires |a| == N * N && |b| == N * N
    requires forall k, l :: 0 <= k < N && 0 <= l < N ==> a[Pos(k, l)] == b[Pos(k, l)]
    ensures a == b
  {
    forall q | 0 <= q < N * N
      ensures a[q] == b[q]
    {
      PosCovers(q);
      assert a[Pos(q / N, q % N)] == b[Pos(q / N, q % N)];
    }
  }

  /** One entry of a decoded regular matrix is the original entry. */
  lemma RegularEntryBack(rm: RegularMatrix, k: nat, l: nat)
    requires rm.numDimensions == N && Clean(rm.values) && k < N && l < N
    requires FromJsonMatrix(ToJsonMatrix(Regular(rm))).Regular?
    ensures Pos(k, l) < |rm.values|
    ensures FromJsonMatrix(ToJsonMatrix(Regular(rm))).regular.values[Pos(k, l)] == rm.values[Pos(k, l)]
  {
    var j := ToJsonMatrix(Regular(rm));
    var r := FromJsonMatrix(j);
    RegularEntryDecodes(rm, k, l);
    assert r.regular.values[Pos(k, l)] ==
             if Kept(j.fields, k, l) then OffDiagonal(j.fields, k, l)
             else if k == l then FromJsonVector(j.fields)[k]
             else 0.0;
  }

  /** A regular matrix that decodes as diagonal decodes to its diagonal. */
  lemma RegularDiagonalBack(rm: RegularMatrix)
    requires rm.numDimensions == N && Clean(rm.values)
    requires !FromJsonMatrix(ToJsonMatrix(Regular(rm))).Regular?
    ensures FromJsonMatrix(ToJsonMatrix(Regular(rm))) == Diagonal(DiagonalOf(rm))
  {
    var obj := ToJsonMatrix(Regular(rm)).fields;
    forall k | 0 <= k < N
      ensures FromJsonVector(obj)[k] == DiagonalOf(rm)[k]
    {
      RegularEntryDecodes(rm, k, k);
    }
    assert FromJsonVector(obj) == DiagonalOf(rm);
  }

  /** The diagonal case of the round trip: no pair property is written, so
      the object decodes to a diagonal matrix again. */
  lemma DiagonalRoundTrip(d: Vector)
    requires |d| == N && Clean(d)
    ensures FromJsonMatrix(ToJsonMatrix(Diagonal(d))) == Diagonal(d)
  {
    var obj := ToJsonMatrix(Diagonal(d)).fields;
    forall k, l | 0 <= k < N && 0 <= l < N && k != l
      ensures !Kept(obj, k, l)
    {
      assert NotLaterName(Key(k, l), 0) by {
        forall k' | 0 <= k' < N
          ensures Key(k, l) != ShortName(k')
        {
          KeyInjective(k, l, k', k');
        }
      }
    }
    VectorRoundTrip(d);
  }

  /** A regular matrix without off-diagonal entries acts as its diagonal. */
  lemma RegularActsAsDiagonal(rm: RegularMatrix, v: Vector)
    requires rm.numDimensions == N && !HasOffDiagonal(rm)
    ensures Mul(Diagonal(DiagonalOf(rm)), v) == Mul(Regular(rm), v)
  {
    var diagonal := DiagonalOf(rm);
    forall i, j | 0 <= i < N && 0 <= j < N
      ensures Entry(rm, i, j) == if i == j then diagonal[i] else 0.0
    {
      IndexIsRowMajor(N, i, j);
      assert Entry(rm, i, j) == rm.values[Pos(i, j)];
    }
    RegularWithZeroOffDiagonal(rm, diagonal, v);
  }

  /** Encoding then decoding keeps the linear map of every encodable matrix:
      scalars and diagonal matrices come back unchanged, and a regular
      matrix stays regular exactly when it has a non-zero off-diagonal entry,
      coming back unchanged then and as its diagonal otherwise. */
  lemma MatrixRoundTrip(m: Matrix)
    requires Encodable(m)
    ensures !m.Regular? ==> FromJsonMatrix(ToJsonMatrix(m)) == m
    ensures m.Regular? ==> (FromJsonMatrix(ToJsonMatrix(m)).Regular? <==> HasOffDiagonal(m.regular))
    ensures m.Regular? && HasOffDiagonal(m.regular) ==> FromJsonMatrix(ToJsonMatrix(m)) == m
    ensures forall v :: Mul(FromJsonMatrix(ToJsonMatrix(m)), v) == Mul(m, v)
  {
    match m
    case Scalar(_) =>
    case Diagonal(d) =>
      DiagonalRoundTrip(d);
    case Regular(rm) =>
      RegularRoundTrip(rm);
      if !HasOffDiagonal(rm) {
        forall v
          ensures Mul(FromJsonMatrix(ToJsonMatrix(m)), v) == Mul(m, v)
        {
          RegularActsAsDiagonal(rm, v);
        }
      }
  }

  // ------------------------------------------------ impacts and relations

  /** An impact of this data model: contributors weighted by matrices. */
  datatype MatrixImpact = MatrixImpact(contributors: seq<(Data.Id, Matrix)>, score: Vector, meta: Data.Meta)

  /** A relation of this data model: contributors and references weighted
      by matrices. */
  datatype MatrixRelation = MatrixRelation(contributors: seq<(Data.Id, Matrix)>, references: seq<(Data.Id, Matrix)>,
                                           meta: Data.Meta)

  /** `JSONImpact`: the contributor matrices and the score encoded. */
  datatype JsonImpact = JsonImpact(contributors: seq<(Data.Id, JsonMatrix)>, score: JsonObject, meta: Data.Meta)

  /** `JSONRelation`: the contributor and reference matrices encoded. */
  datatype JsonRelation = JsonRelation(contributors: seq<(Data.Id, JsonMatrix)>, references: seq<(Data.Id, JsonMatrix)>,
                                       meta: Data.Meta)

  /** `toJSONImpact`. */
  function ToJsonImpact(i: MatrixImpact): JsonImpact {
    JsonImpact(FromEntries(MapValues(i.contributors, ToJsonMatrix)), ToJsonVector(i.score), i.meta)
  }

  /** `fromJSONImpact`. */
  function FromJsonImpact(j: JsonImpact): MatrixImpact {
    MatrixImpact(MapValues(FromEntries(j.contributors), FromJsonMatrix), FromJsonVector(j.score), j.meta)
  }

  /** `toJSONRelation`. */
  function ToJsonRelation(r: MatrixRelation): JsonRelation {
    JsonRelation(FromEntries(MapValues(r.contributors, ToJsonMatrix)),
                 FromEntries(MapValues(r.references, ToJsonMatrix)), r.meta)
  }

  /** `fromJSONRelation`. */
  function FromJsonRelation(j: JsonRelation): MatrixRelation {
    MatrixRelation(MapValues(FromEntries(j.contributors), FromJsonMatrix),
                   MapValues(FromEntries(j.references), FromJsonMatrix), j.meta)
  }

  /** A matrix that survives the round trip unchanged. */
  predicate Canonical(m: Matrix) {
    Encodable(m) && (m.Regular? ==> HasOffDiagonal(m.regular))
  }

  /** Converting a `Map` of matrices to a JSON object and back keeps the
      keys in order and carries every matrix through the matrix codec. */
  lemma {:induction false} MatrixMapRoundTrip(m: seq<(Data.Id, Matrix)>)
    requires Distinct(m)
    ensures var r := MapValues(FromEntries(FromEntries(MapValues(m, ToJsonMatrix))), FromJsonMatrix);
            KeyList(r) == KeyList(m) &&
            forall k :: 0 <= k < |m| ==> r[k].1 == FromJsonMatrix(ToJsonMatrix(m[k].1))
    ensures (forall k :: 0 <= k < |m| ==> Canonical(m[k].1)) ==>
              MapValues(FromEntries(FromEntries(MapValues(m, ToJsonMatrix))), FromJsonMatrix) == m
  {
    var e := MapValues(m, ToJsonMatrix);
    assert Distinct(e) by {
      forall i, j | 0 <= i < j < |e|
        ensures e[i].0 != e[j].0
      {
        assert e[i].0 == m[i].0 && e[j].0 == m[j].0;
      }
    }
    assert FromEntries(FromEntries(e)) == e;
    if forall k :: 0 <= k < |m| ==> Canonical(m[k].1) {
      var r := MapValues(e, FromJsonMatrix);
      forall k | 0 <= k < |m|
        ensures r[k] == m[k]
      {
        MatrixRoundTrip(m[k].1);
      }
    }
  }

  /** `fromJSONImpact(toJSONImpact(i))` has the same contributors in the same
      order, each matrix carried through the codec, the score carried
      through the vector codec, and the same metadata; an impact of
      canonical matrices and a clean `n`-vector comes back unchanged. */
  lemma ImpactRoundTrip(i: MatrixImpact)
    requires Distinct(i.contributors)
    ensures var r := FromJsonImpact(ToJsonImpact(i));
            KeyList(r.contributors) == KeyList(i.contributors) &&
            (forall k :: 0 <= k < |i.contributors| ==>
               r.contributors[k].1 == FromJsonMatrix(ToJsonMatrix(i.contributors[k].1))) &&
            r.score == FromJsonVector(ToJsonVector(i.score)) && r.meta == i.meta
    ensures (forall k :: 0 <= k < |i.contributors| ==> Canonical(i.contributors[k].1)) &&
            |i.score| == N && Clean(i.score) ==>
              FromJsonImpact(ToJsonImpact(i)) == i
  {
    MatrixMapRoundTrip(i.contributors);
    VectorRoundTrip(i.score);
  }

  /** `fromJSONRelation(toJSONRelation(r))` has the same contributors and
      references in the same order, each matrix carried through the codec,
      and the same metadata; a relation of canonical matrices comes back
      unchanged. */
  lemma RelationRoundTrip(r: MatrixRelation)
    requires Distinct(r.contributors) && Distinct(r.references)
    ensures var d := FromJsonRelation(ToJsonRelation(r));
            KeyList(d.contributors) == KeyList(r.contributors) &&
            KeyList(d.references) == KeyList(r.references) &&
            (forall k :: 0 <= k < |r.contributors| ==>
               d.contributors[k].1 == FromJsonMatrix(ToJsonMatrix(r.contributors[k].1))) &&
            (forall k :: 0 <= k < |r.references| ==>
               d.references[k].1 == FromJsonMatrix(ToJsonMatrix(r.references[k].1))) &&
            d.meta == r.meta
    ensures (forall k :: 0 <= k < |r.contributors| ==> Canonical(r.contributors[k].1)) &&
            (forall k :: 0 <= k < |r.references| ==> Canonical(r.references[k].1)) ==>
              FromJsonRelation(ToJsonRelation(r)) == r
  {
    MatrixMapRoundTrip(r.contributors);
    MatrixMapRoundTrip(r.references);
  }

  // ------------------------------------------------ entries

  /** `JSONEntry`: only the id and the metadata. */
  datatype JsonEntry = JsonEntry(id: Data.Id, meta: Data.Meta)

  /** `toJSONEntry`: the id and the metadata; nothing else of the entry is written. */
  function ToJsonEntry(e: Data.Entry): JsonEntry {
    JsonEntry(e.id, e.meta)
  }

  /** `fromJSONEntry`: an entry with the id and the metadata and no children. */
  function FromJsonEntry(j: JsonEntry): Data.Entry {
    Data.Entry(j.id, [], j.meta)
  }

  /** The JSON form of an entry is read back exactly, and an entry comes
      back with its id and metadata but without its children. */
  lemma EntryRoundTrip(e: Data.Entry, j: JsonEntry)
    ensures ToJsonEntry(FromJsonEntry(j)) == j
    ensures FromJsonEntry(ToJsonEntry(e)) == e.(children := [])
    ensures FromJsonEntry(ToJsonEntry(e)) == e <==> e.children == []
  {
  }
}

=== FILE: linalg.dfy ===
/** The vector and square-matrix algebra of `src/math.ts`: dimension-checked
    addition, scaling, dot product, row-major regular and diagonal matrices
    and their constructors. A thrown `Error` becomes `Err(MathError)`. */
module LinAlg {
  import opened Wrappers

  type Vector = seq<real>

  datatype MathError =
    | InvalidDimensions(left: nat, right: nat)
    | NonSquare(entries: nat)
    | EmptyMatrix
    | InvalidRow(row: nat)

  /** The square of a natural number; a function so that quantifiers over
      square roots have something to trigger on. */
  function Sq(k: nat): nat {
    k * k
  }

  lemma SqMonotone(a: nat, b: nat)
    requires a <= b
    ensures Sq(a) <= Sq(b)
  {
    assert a * a <= a * b <= b * b;
  }

  /** `Math.floor(Math.sqrt(n))` on a natural number. */
  function Isqrt(n: nat): (r: nat)
    ensures Sq(r) <= n < Sq(r + 1)
  {
    if n == 0 then 0
    else
      var r := Isqrt(n - 1);
      assert Sq(r + 1) == r * r + 2 * r + 1;
      assert Sq(r + 2) == r * r + 4 * r + 4;
      if Sq(r + 1) <= n then r + 1 else r
  }

  /** A perfect square has exactly one square root. */
  lemma IsqrtOfSquare(k: nat)
    ensures Isqrt(Sq(k)) == k
  {
    var r := Isqrt(Sq(k));
    if r < k {
      SqMonotone(r + 1, k);
    } else if r > k {
      SqMonotone(k + 1, r);
    }
  }

  // ---------------------------------------------------------------- vectors

  /** `NRSCoreVector.add_assign`: component-wise sum, or the
      "invalid dimensions" error when the lengths differ. */
  function Add(a: Vector, b: Vector): (r: Result<Vector, MathError>)
    ensures r.Ok? <==> |a| == |b|
    ensures r.Err? ==> r.error == InvalidDimensions(|a|, |b|)
    ensures r.Ok? ==> |r.value| == |a| && forall i :: 0 <= i < |a| ==> r.value[i] == a[i] + b[i]
  {
    if |a| != |b| then Err(InvalidDimensions(|a|, |b|))
    else Ok(seq(|a|, i requires 0 <= i < |a| => a[i] + b[i]))
  }

  /** A vector of `n` zeros. */
  function Zeros(n: nat): (r: Vector)
    ensures |r| == n && forall i :: 0 <= i < n ==> r[i] == 0.0
  {
    seq(n, _ => 0.0)
  }

  /** Vector addition commutes, and the zero vector of the right length is its identity. */
  lemma AddCommutesWithZero(a: Vector, b: Vector)
    ensures |a| == |b| ==> Add(a, b) == Add(b, a)
    ensures Add(a, Zeros(|a|)) == Ok(a)
  {
    if |a| == |b| {
      assert Add(a, b).value == Add(b, a).value;
    }
    assert Add(a, Zeros(|a|)).value == a;
  }

  /** Vector addition is associative whenever all three lengths agree. */
  lemma AddAssociates(a: Vector, b: Vector, c: Vector)
    requires |a| == |b| == |c|
    ensures Add(Add(a, b).value, c).value == Add(a, Add(b, c).value).value
  {
  }

  /** `NRSCoreVector.add_assign` as the source writes it: a loop adding the
      other vector into the receiver in place. */
  method AddAssign(a: Vector, b: Vector) returns (r: Result<Vector, MathError>)
    ensures r == Add(a, b)
  {
    if |a| != |b| {
      return Err(InvalidDimensions(|a|, |b|));
    }
    var values := a;
    var i := 0;
    while i < |a|
      invariant 0 <= i <= |a| && |values| == |a|
      invariant forall k :: 0 <= k < i ==> values[k] == a[k] + b[k]
      invariant forall k :: i <= k < |a| ==> values[k] == a[k]
    {
      values := values[i := values[i] + b[i]];
      i := i + 1;
    }
    assert values == Add(a, b).value;
    return Ok(values);
  }

  /** `NRSCoreVector.scale_assign`: every component multiplied by `factor`. */
  function Scale(a: Vector, factor: real): (r: Vector)
    ensures |r| == |a|
    ensures forall i :: 0 <= i < |a| ==> r[i] == a[i] * factor
  {
    seq(|a|, i requires 0 <= i < |a| => a[i] * factor)
  }

  /** Scaling distributes over addition and scaling by one changes nothing. */
  lemma ScaleLaws(a: Vector, b: Vector, f: real)
    requires |a| == |b|
    ensures Add(Scale(a, f), Scale(b, f)) == Ok(Scale(Add(a, b).value, f))
    ensures Scale(a, 1.0) == a
  {
    var lhs := Add(Scale(a, f), Scale(b, f)).value;
    var rhs := Scale(Add(a, b).value, f);
    forall i | 0 <= i < |a|
      ensures lhs[i] == rhs[i]
    {
      assert lhs[i] == a[i] * f + b[i] * f;
      assert rhs[i] == (a[i] + b[i]) * f;
    }
    assert lhs == rhs;
    assert Scale(a, 1.0) == a;
  }

  /** The sum of `a[j] * b[j]` over the first `k` indices. */
  function DotPrefix(a: Vector, b: Vector, k: nat): real
    requires k <= |a| && k <= |b|
  {
    if k == 0 then 0.0 else DotPrefix(a, b, k - 1) + a[k - 1] * b[k - 1]
  }

  /** `NRSCoreVector.dot`: the sum runs over the RECEIVER's dimensions and the
      other vector's length is never checked. An `other` shorter than the
      receiver reads `undefined` and yields NaN, modelled as `None`. */
  function Dot(a: Vector, b: Vector): (r: Option<real>)
    ensures r.Some? <==> |b| >= |a|
  {
    if |b| >= |a| then Some(DotPrefix(a, b, |a|)) else None
  }

  /** The dot product ignores the other vector's components beyond the
      receiver's dimension, and is symmetric on equal lengths. */
  lemma {:induction false} DotLaws(a: Vector, b: Vector, k: nat)
    requires k <= |a| && k <= |b|
    ensures DotPrefix(a, b, k) == DotPrefix(a[..k], b[..k], k)
    ensures DotPrefix(a, b, k) == DotPrefix(b, a, k)
  {
    if k > 0 {
      DotLaws(a, b, k - 1);
      DotPrefixPrefix(a, b, k - 1, k);
    }
  }

  lemma {:induction false} DotPrefixPrefix(a: Vector, b: Vector, j: nat, k: nat)
    requires j <= k <= |a| && k <= |b|
    ensures DotPrefix(a, b, j) == DotPrefix(a[..k], b[..k], j)
  {
    if j > 0 {
      DotPrefixPrefix(a, b, j - 1, k);
    }
  }

  /** `NRSCoreVector.dot` as the source's accumulating loop. */
  method DotLoop(a: Vector, b: Vector) returns (r: Option<real>)
    ensures r == Dot(a, b)
  {
    if |b| < |a| {
      return None;
    }
    var sum := 0.0;
    var i := 0;
    while i < |a|
      invariant 0 <= i <= |a|
      invariant sum == DotPrefix(a, b, i)
    {
      sum := sum + a[i] * b[i];
      i := i + 1;
    }
    return Some(sum);
  }

  // --------------------------------------------------------------- matrices

  /** The fields of `NRSRegularMatrix`: a dimension and row-major entries. */
  datatype RegularData = RegularData(numDimensions: nat, values: seq<real>)

  /** The constructor's invariant: exactly `n * n` entries. */
  type RegularMatrix = m: RegularData | Sq(m.numDimensions) == |m.values| witness RegularData(0, [])

  /** The `NRSRegularMatrix` constructor: accepts an entry list exactly when
      its length is a perfect square, with the square root as dimension. */
  function NewRegularFromEntries(entries: seq<real>): (r: Result<RegularMatrix, MathError>)
    ensures r.Ok? ==> r.value.values == entries && Sq(r.value.numDimensions) == |entries|
    ensures forall k: nat :: Sq(k) == |entries| ==> r == Ok(RegularData(k, entries))
    ensures r.Err? ==> r.error == NonSquare(|entries|) && forall k: nat :: Sq(k) != |entries|
  {
    var d := Isqrt(|entries|);
    if Sq(d) != |entries| then
      assert forall k: nat :: Sq(k) != |entries| by {
        forall k: nat | Sq(k) == |entries|
          ensures false
        {
          IsqrtOfSquare(k);
        }
      }
      Err(NonSquare(|entries|))
    else
      assert forall k: nat :: Sq(k) == |entries| ==> k == d by {
        forall k: nat | Sq(k) == |entries|
          ensures k == d
        {
          IsqrtOfSquare(k);
        }
      }
      Ok(RegularData(d, entries))
  }

  /** The row-major position of entry `(i, j)` of an `n`-by-`n` matrix. */
  function Index(n: nat, i: nat, j: nat): nat {
    if i == 0 then j else n + Index(n, i - 1, j)
  }

  /** `Index` is the familiar `i * n + j`. */
  lemma {:induction false} IndexIsRowMajor(n: nat, i: nat, j: nat)
    ensures Index(n, i, j) == i * n + j
  {
    if i > 0 {
      IndexIsRowMajor(n, i - 1, j);
      assert i * n == (i - 1) * n + n;
    }
  }

  lemma IndexInRange(n: nat, i: nat, j: nat)
    requires i < n && j < n
    ensures Index(n, i, j) < Sq(n)
  {
    IndexIsRowMajor(n, i, j);
    var d := n - (i + 1);
    assert (i + 1) * n == i * n + n;
    assert d * n >= 0;
    assert n * n == (i + 1) * n + d * n;
  }

  lemma IndexStep(n: nat, i: nat, j: nat)
    requires i > 0
    ensures Index(n, i, j) == n + Index(n, i - 1, j)
  {
  }

  /** Entry `(i, j)` of a regular matrix, read at its row-major position. */
  function Entry(m: RegularMatrix, i: nat, j: nat): real
    requires i < m.numDimensions && j < m.numDimensions
  {
    IndexInRange(m.numDimensions, i, j);
    m.values[Index(m.numDimensions, i, j)]
  }

  /** Row `i` of a regular matrix: the entries at `i*n + j` for `j < n`. */
  function Row(m: RegularMatrix, i: nat): (r: Vector)
    requires i < m.numDimensions
    ensures |r| == m.numDimensions
    ensures forall j :: 0 <= j < m.numDimensions ==> r[j] == Entry(m, i, j)
  {
    seq(m.numDimensions, j requires 0 <= j < m.numDimensions => Entry(m, i, j))
  }

  /** `NRSRegularMatrix.mul`: `out[i] = sum over j of values[i*n + j] * v[j]`,
      or the dimension error when the vector's length is not `n`. */
  function MulRegular(m: RegularMatrix, v: Vector): (r: Result<Vector, MathError>)
    ensures r.Ok? <==> |v| == m.numDimensions
    ensures r.Err? ==> r.error == InvalidDimensions(m.numDimensions, |v|)
    ensures r.Ok? ==> |r.value| == |v| && forall i :: 0 <= i < |v| ==> r.value[i] == DotPrefix(Row(m, i), v, |v|)
  {
    var n := m.numDimensions;
    if n != |v| then Err(InvalidDimensions(n, |v|))
    else Ok(seq(n, i requires 0 <= i < n => DotPrefix(Row(m, i), v, n)))
  }

  /** `NRSRegularMatrix.mul` as the source's nested loops over the row-major entries. */
  method MulRegularLoop(m: RegularMatrix, v: Vector) returns (r: Result<Vector, MathError>)
    ensures r == MulRegular(m, v)
  {
    var n := m.numDimensions;
    if n != |v| {
      return Err(InvalidDimensions(n, |v|));
    }
    var out: seq<real> := [];
    var i := 0;
    while i < n
      invariant 0 <= i <= n && |out| == i
      invariant forall k :: 0 <= k < i ==> out[k] == DotPrefix(Row(m, k), v, n)
    {
      var sum := 0.0;
      var j := 0;
      while j < n
        invariant 0 <= j <= n
        invariant sum == DotPrefix(Row(m, i), v, j)
      {
        sum := sum + Entry(m, i, j) * v[j];
        j := j + 1;
      }
      out := out + [sum];
      i := i + 1;
    }
    assert out == MulRegular(m, v).value;
    return Ok(out);
  }

  /** `NRSDiagonalMatrix.mul`: `out[i] = diagonal[i] * v[i]`, or the
      dimension error when the lengths differ. */
  function MulDiagonal(diagonal: Vector, v: Vector): (r: Result<Vector, MathError>)
    ensures r.Ok? <==> |v| == |diagonal|
    ensures r.Err? ==> r.error == InvalidDimensions(|diagonal|, |v|)
    ensures r.Ok? ==> |r.value| == |v| && forall i :: 0 <= i < |v| ==> r.value[i] == diagonal[i] * v[i]
  {
    if |diagonal| != |v| then Err(InvalidDimensions(|diagonal|, |v|))
    else Ok(seq(|v|, i requires 0 <= i < |v| => diagonal[i] * v[i]))
  }

  /** The row-major entries of the diagonal matrix with the given diagonal. */
  function DiagonalEntries(diagonal: Vector): (r: RegularMatrix)
    ensures r.numDimensions == |diagonal|
  {
    var n := |diagonal|;
    RegularData(n, seq(n * n, p requires 0 <= p < n * n => if p % n == p / n then diagonal[p / n] else 0.0))
  }

  /** A regular matrix whose off-diagonal entries are all zero multiplies
      exactly as the diagonal matrix of its diagonal. */
  lemma RegularWithZeroOffDiagonal(m: RegularMatrix, diagonal: Vector, v: Vector)
    requires |diagonal| == m.numDimensions
    requires forall i, j :: 0 <= i < m.numDimensions && 0 <= j < m.numDimensions ==>
               Entry(m, i, j) == if i == j then diagonal[i] else 0.0
    ensures MulRegular(m, v) == MulDiagonal(diagonal, v)
  {
    var n := m.numDimensions;
    if n == |v| {
      forall i | 0 <= i < n
        ensures DotPrefix(Row(m, i), v, n) == diagonal[i] * v[i]
      {
        var row := Row(m, i);
        forall j | 0 <= j < n && j != i
          ensures row[j] == 0.0
        {
          assert row[j] == Entry(m, i, j);
        }
        assert row[i] == diagonal[i];
        DotSingleNonZero(row, v, i, n);
      }
      assert MulRegular(m, v).value == MulDiagonal(diagonal, v).value;
    }
  }

  lemma {:induction false} DotSingleNonZero(a: Vector, v: Vector, i: nat, k: nat)
    requires k <= |a| && k <= |v| && i < |a|
    requires forall j :: 0 <= j < |a| && j != i ==> a[j] == 0.0
    ensures DotPrefix(a, v, k) == if i < k then a[i] * v[i] else 0.0
  {
    if k > 0 {
      DotSingleNonZero(a, v, i, k - 1);
    }
  }

  /** The square matrix kinds the engine and the JSON codec use: a scalar
      (uniform scaling, from the later `mod.ts` API), a diagonal and a
      regular matrix. */
  datatype Matrix =
    | Scalar(scalar: real)
    | Diagonal(diagonal: Vector)
    | Regular(regular: RegularMatrix)

  /** Applying a matrix to a vector, dimension-checked for the diagonal and
      regular kinds. */
  function Mul(m: Matrix, v: Vector): (r: Result<Vector, MathError>)
    ensures r.Ok? ==> |r.value| == |v|
    ensures m.Scalar? ==> r == Ok(Scale(v, m.scalar))
    ensures m.Diagonal? ==> r == MulDiagonal(m.diagonal, v)
    ensures m.Regular? ==> r == MulRegular(m.regular, v)
  {
    match m
    case Scalar(s) => Ok(Scale(v, s))
    case Diagonal(d) => MulDiagonal(d, v)
    case Regular(rm) => MulRegular(rm, v)
  }

  // ---------------------------------------------------------- constructors

  /** The three argument forms `newNRSRegularMatrix` accepts. */
  datatype RegularInput =
    | Flat(entries: seq<real>)
    | VectorArray(vectors: seq<Vector>)
    | Rows(rows: seq<seq<real>>)

  /** The concatenation of the rows in order. */
  function Concat(rows: seq<seq<real>>): (r: seq<real>)
  {
    if rows == [] then [] else rows[0] + Concat(rows[1..])
  }

  lemma {:induction false} ConcatSquare(rows: seq<seq<real>>, n: nat)
    requires forall k :: 0 <= k < |rows| ==> |rows[k]| == n
    ensures |Concat(rows)| == |rows| * n
    ensures forall i, j :: 0 <= i < |rows| && 0 <= j < n ==>
              Index(n, i, j) < |Concat(rows)| && Concat(rows)[Index(n, i, j)] == rows[i][j]
  {
    if rows != [] {
      var t := Concat(rows[1..]);
      ConcatSquare(rows[1..], n);
      var c := Concat(rows);
      assert c == rows[0] + t;
      assert |c| == n + (|rows| - 1) * n == |rows| * n;
      forall i, j | 0 <= i < |rows| && 0 <= j < n
        ensures Index(n, i, j) < |c| && c[Index(n, i, j)] == rows[i][j]
      {
        if i > 0 {
          IndexStep(n, i, j);
          assert rows[1..][i - 1] == rows[i];
          assert t[Index(n, i - 1, j)] == rows[i][j];
        }
      }
    }
  }

  /** The first row whose length differs from the row count, if any. */
  function FirstBadRow(rows: seq<seq<real>>, from: nat): (r: Option<nat>)
    requires from <= |rows|
    ensures r.None? ==> forall k :: from <= k < |rows| ==> |rows[k]| == |rows|
    ensures r.Some? ==> from <= r.value < |rows| && |rows[r.value]| != |rows| &&
                        forall k :: from <= k < r.value ==> |rows[k]| == |rows|
    decreases |rows| - from
  {
    if from == |rows| then None
    else if |rows[from]| != |rows| then Some(from)
    else FirstBadRow(rows, from + 1)
  }

  /** `newNRSRegularMatrix`: rejects an empty argument; a vector array is read
      as its vectors' value arrays and then, like a 2-D array, flattened row
      by row after checking that every row is as long as there are rows; the
      flat form goes straight to the constructor's perfect-square check. */
  function NewRegularMatrix(input: RegularInput): (r: Result<RegularMatrix, MathError>)
    ensures input.Flat? ==> r == if input.entries == [] then Err(EmptyMatrix) else NewRegularFromEntries(input.entries)
    ensures input.VectorArray? ==> r == RegularFromRows(input.vectors)
    ensures input.Rows? ==> r == RegularFromRows(input.rows)
  {
    match input
    case Flat(entries) =>
      if entries == [] then Err(EmptyMatrix) else NewRegularFromEntries(entries)
    case VectorArray(vectors) => RegularFromRows(vectors)
    case Rows(rows) => RegularFromRows(rows)
  }

  /** The 2-D branch of `newNRSRegularMatrix`: empty is rejected, a row whose
      length is not the row count is rejected, otherwise the rows are laid
      out row-major. */
  function RegularFromRows(rows: seq<seq<real>>): (r: Result<RegularMatrix, MathError>)
    ensures rows == [] ==> r == Err(EmptyMatrix)
    ensures rows != [] ==> (r.Ok? <==> forall k :: 0 <= k < |rows| ==> |rows[k]| == |rows|)
    ensures r.Err? && rows != [] ==> exists k :: 0 <= k < |rows| && r.error == InvalidRow(k) && |rows[k]| != |rows|
    ensures r.Ok? ==>
              r.value.numDimensions == |rows| &&
              forall i, j :: 0 <= i < |rows| && 0 <= j < |rows| ==>
                Entry(r.value, i, j) == rows[i][j]
  {
    if rows == [] then Err(EmptyMatrix)
    else
      match FirstBadRow(rows, 0)
      case Some(k) => Err(InvalidRow(k))
      case None =>
        var n := |rows|;
        ConcatSquare(rows, n);
        assert Sq(n) == |Concat(rows)|;
        Ok(RegularData(n, Concat(rows)))
  }

  /** The vector-array and 2-D forms give the flat form's matrix, row-major,
      despite the "array of matrix columns" comment on the vector-array form. */
  lemma RegularInputFormsAgree(rows: seq<seq<real>>)
    requires rows != []
    requires forall k :: 0 <= k < |rows| ==> |rows[k]| == |rows|
    ensures NewRegularMatrix(Rows(rows)) == NewRegularMatrix(Flat(Concat(rows)))
    ensures NewRegularMatrix(VectorArray(rows)) == NewRegularMatrix(Flat(Concat(rows)))
  {
    ConcatSquare(rows, |rows|);
    assert Sq(|rows|) == |Concat(rows)|;
    assert Concat(rows) != [] by {
      assert Index(|rows|, 0, 0) < |Concat(rows)|;
    }
  }

  /** The two argument forms `newNRSDiagonalMatrix` accepts. */
  datatype DiagonalInput = NumberArray(values: seq<real>) | CoreVector(vector: Vector)

  /** `newNRSDiagonalMatrix`: an empty number array is rejected; a vector is
      taken as it is (its length is not checked). Both forms keep the values. */
  function NewDiagonalMatrix(input: DiagonalInput): (r: Result<Matrix, MathError>)
    ensures input.NumberArray? ==> (r.Err? <==> input.values == [])
    ensures input.CoreVector? ==> r.Ok?
    ensures r.Ok? ==> r.value == Diagonal(if input.NumberArray? then input.values else input.vector)
    ensures r.Err? ==> r.error == EmptyMatrix
  {
    match input
    case NumberArray(values) => if values == [] then Err(EmptyMatrix) else Ok(Diagonal(values))
    case CoreVector(v) => Ok(Diagonal(v))
  }
}

=== FILE: meta_slots.dfy ===
/** The metadata-slot append operations: `suppressRule` of the
    `DAH_validator_suppress` extension (identical in `exts/` and `src/exts/`)
    and of the `DAH_entry_queue` extension, which reads the wrong slot. */
module MetaSlots {
  import opened Wrappers
  import opened Assoc
  import opened Data

  /** The rejection of a slot holding something other than an array. */
  datatype SlotError = InvalidPreExistingValue(slot: string)

  const ValidatorSuppressSlot := "DAH_validator_suppress"
  const EntryQueueSlot := "DAH_entry_queue"

  /** Append `rule` to the array in slot `slot` of `meta`: an absent slot
      becomes the one-element array, an array gets the rule at its end, any
      other value is rejected. */
  function AppendToSlot(meta: Meta, slot: string, rule: string): (r: Result<Meta, SlotError>)
    ensures Get(meta, slot).None? ==> r == Ok(Set(meta, slot, MArray([MString(rule)])))
    ensures Get(meta, slot).Some? && Get(meta, slot).value.MArray? ==>
              r == Ok(Set(meta, slot, MArray(Get(meta, slot).value.items + [MString(rule)])))
    ensures r.Err? <==> Get(meta, slot).Some? && !Get(meta, slot).value.MArray?
    ensures r.Err? ==> r.error == InvalidPreExistingValue(slot)
  {
    var current: Option<MetaValue> := Get(meta, slot);
    if current.None? then Ok(Set(meta, slot, MArray([MString(rule)])))
    else if current.value.MArray? then Ok(Set(meta, slot, MArray(current.value.items + [MString(rule)])))
    else Err(InvalidPreExistingValue(slot))
  }

  /** The rules stored in a slot: none when it is absent. */
  function SlotRules(meta: Meta, slot: string): seq<MetaValue>
  {
    var current: Option<MetaValue> := Get(meta, slot);
    if current.Some? && current.value.MArray? then current.value.items else []
  }

  /** A successful append leaves the earlier rules in place, adds the new one
      at the end, and changes no other key of the metadata. */
  lemma AppendToSlotSpec(meta: Meta, slot: string, rule: string, other: string)
    requires AppendToSlot(meta, slot, rule).Ok?
    ensures SlotRules(AppendToSlot(meta, slot, rule).value, slot) == SlotRules(meta, slot) + [MString(rule)]
    ensures other != slot ==> Get(AppendToSlot(meta, slot, rule).value, other) == Get(meta, other)
    ensures Keys(AppendToSlot(meta, slot, rule).value) == Keys(meta) + {slot}
  {
    var current: Option<MetaValue> := Get(meta, slot);
    var stored := if current.None? then MArray([MString(rule)]) else MArray(current.value.items + [MString(rule)]);
    assert AppendToSlot(meta, slot, rule).value == Set(meta, slot, stored);
    SetGet(meta, slot, stored, slot);
    SetGet(meta, slot, stored, other);
  }

  /** `DAH_validator_suppress.suppressRule`. */
  function ValidatorSuppressRule(meta: Meta, rule: string): (r: Result<Meta, SlotError>)
    ensures r == AppendToSlot(meta, ValidatorSuppressSlot, rule)
  {
    AppendToSlot(meta, ValidatorSuppressSlot, rule)
  }

  /** `DAH_entry_queue.suppressRule` as written: the guard and the append read
      the `DAH_validator_suppress` slot, but an absent slot makes it OVERWRITE
      `DAH_entry_queue` with the one-element array. */
  function EntryQueueRuleAsWritten(meta: Meta, rule: string): (r: Result<Meta, SlotError>)
    ensures Get(meta, ValidatorSuppressSlot).None? ==> r == Ok(Set(meta, EntryQueueSlot, MArray([MString(rule)])))
    ensures Get(meta, ValidatorSuppressSlot).Some? && Get(meta, ValidatorSuppressSlot).value.MArray? ==>
              r == AppendToSlot(meta, ValidatorSuppressSlot, rule)
    ensures Get(meta, ValidatorSuppressSlot).Some? && !Get(meta, ValidatorSuppressSlot).value.MArray? ==>
              r == Err(InvalidPreExistingValue(EntryQueueSlot))
  {
    var queues: Option<MetaValue> := Get(meta, ValidatorSuppressSlot);
    if queues.None? then Ok(Set(meta, EntryQueueSlot, MArray([MString(rule)])))
    else if queues.value.MArray? then Ok(Set(meta, ValidatorSuppressSlot, MArray(queues.value.items + [MString(rule)])))
    else Err(InvalidPreExistingValue(EntryQueueSlot))
  }

  /** Queuing two rules on an entry without suppressed validators keeps only
      the second: the first is overwritten. */
  lemma EntryQueueLosesRules()
    ensures var m1 := EntryQueueRuleAsWritten([], "r1").value;
            var m2 := EntryQueueRuleAsWritten(m1, "r2").value;
            SlotRules(m2, EntryQueueSlot) == [MString("r2")]
  {
    var m1 := EntryQueueRuleAsWritten([], "r1").value;
    assert m1 == [(EntryQueueSlot, MArray([MString("r1")]))];
    SetGet(m1, EntryQueueSlot, MArray([MString("r2")]), EntryQueueSlot);
  }

  /** `DAH_entry_queue.suppressRule` on its own slot, as its error message and
      its declared `DAH_entry_queue` field intend. */
  function EntryQueueRule(meta: Meta, rule: string): (r: Result<Meta, SlotError>)
    ensures r == AppendToSlot(meta, EntryQueueSlot, rule)
  {
    AppendToSlot(meta, EntryQueueSlot, rule)
  }

  /** With the slot read correctly, consecutive rules accumulate in order and
      the validator-suppress slot is never touched. */
  lemma EntryQueueKeepsRules(meta: Meta, r1: string, r2: string)
    requires EntryQueueRule(meta, r1).Ok?
    ensures EntryQueueRule(EntryQueueRule(meta, r1).value, r2).Ok?
    ensures SlotRules(EntryQueueRule(EntryQueueRule(meta, r1).value, r2).value, EntryQueueSlot) ==
            SlotRules(meta, EntryQueueSlot) + [MString(r1), MString(r2)]
    ensures Get(EntryQueueRule(EntryQueueRule(meta, r1).value, r2).value, ValidatorSuppressSlot) == Get(meta, ValidatorSuppressSlot)
  {
    var m1 := EntryQueueRule(meta, r1).value;
    AppendToSlotSpec(meta, EntryQueueSlot, r1, ValidatorSuppressSlot);
    assert Get(m1, EntryQueueSlot).Some? && Get(m1, EntryQueueSlot).value.MArray? by {
      SetGet(meta, EntryQueueSlot, Get(m1, EntryQueueSlot).value, EntryQueueSlot);
    }
    AppendToSlotSpec(m1, EntryQueueSlot, r2, ValidatorSuppressSlot);
  }
}

=== FILE: overall_score.dfy ===
/** The `DAH_overall_score` extension (`exts/DAH_overall_score.ts`): the
    overall score of a result is the sum over the four subscores of the
    context's combine of the vector's values at the subscore's factor
    indices, weighted by the subscore weight; `postProcess` stores it in
    every result's metadata. */
module OverallScore {
  import opened Wrappers
  import opened Assoc
  import opened LinAlg
  import opened EngineContext
  import opened Data
  import Factors

  /** The metadata property the score is stored under. */
  const OverallScoreSlot := "DAH_overall_score"

  /** `subscore.factors.map((factor) => vector[factor.factorIndex])`. */
  function GroupValues(s: Factors.Subscore, vector: Vector): (r: seq<real>)
    requires forall k :: 0 <= k < |s.factors| ==> s.factors[k].factorIndex < |vector|
    ensures |r| == |s.factors|
  {
    seq(|s.factors|, k requires 0 <= k < |s.factors| => vector[s.factors[k].factorIndex])
  }

  /** A group whose factor indices are `lo, lo + 1, ..., hi - 1` reads the
      slice `vector[lo..hi]`. */
  lemma GroupValuesSlice(s: Factors.Subscore, vector: Vector, lo: nat, hi: nat)
    requires lo <= hi <= |vector|
    requires Factors.GroupIndices(s) == seq(hi - lo, k requires 0 <= k < hi - lo => lo + k)
    ensures forall k :: 0 <= k < |s.factors| ==> s.factors[k].factorIndex < |vector|
    ensures GroupValues(s, vector) == vector[lo..hi]
  {
    assert |s.factors| == hi - lo;
    forall k | 0 <= k < |s.factors|
      ensures s.factors[k].factorIndex == lo + k
    {
      assert Factors.GroupIndices(s)[k] == lo + k;
    }
  }

  /** `[a, b, c, ...].reduce((a, b) => a + b)`: a left-to-right sum with no
      initial value. */
  function Reduce(terms: seq<real>): real
    requires |terms| >= 1
  {
    if |terms| == 1 then terms[0] else Reduce(terms[..|terms| - 1]) + terms[|terms| - 1]
  }

  /** The term one subscore contributes. */
  function SubscoreTerm(ctx: Context, s: Factors.Subscore, vector: Vector): real
    requires forall k :: 0 <= k < |s.factors| ==> s.factors[k].factorIndex < |vector|
  {
    ctx.combine(GroupValues(s, vector), s.subscoreWeight)
  }

  /** `#calcOverallScore`: Emotion combines components 0 to 5 with weight
      0.6, Art components 6 to 8 with weight 0.7, Boredom component 9 with
      weight 0.05 and Additional component 10 with weight 1.0; the four
      terms are added in that order. */
  function CalcOverallScore(ctx: Context, vector: Vector): (r: real)
    requires |vector| == Factors.NumFactors
    ensures r == ctx.combine(vector[0..6], 0.6) + ctx.combine(vector[6..9], 0.7) +
                 ctx.combine(vector[9..10], 0.05) + ctx.combine(vector[10..11], 1.0)
  {
    Factors.GroupsPartition();
    GroupValuesSlice(Factors.Emotion, vector, 0, 6);
    GroupValuesSlice(Factors.Art, vector, 6, 9);
    GroupValuesSlice(Factors.Boredom, vector, 9, 10);
    GroupValuesSlice(Factors.Additional, vector, 10, 11);
    var terms := [SubscoreTerm(ctx, Factors.Emotion, vector), SubscoreTerm(ctx, Factors.Art, vector),
                  SubscoreTerm(ctx, Factors.Boredom, vector), SubscoreTerm(ctx, Factors.Additional, vector)];
    assert Reduce(terms[..1]) == terms[0];
    assert terms[..2][..1] == terms[..1] && terms[..3][..2] == terms[..2];
    assert Reduce(terms[..2]) == terms[0] + terms[1];
    assert Reduce(terms[..3]) == terms[0] + terms[1] + terms[2];
    assert Reduce(terms) == terms[0] + terms[1] + terms[2] + terms[3];
    Reduce(terms)
  }

  /** With a combine function that returns `x` for the single value `[x]`
      (the signed power-sum combine does, see `CombinePP.CombineSingle`), the
      Boredom and Additional terms are the raw components 9 and 10. */
  lemma SingleFactorTerms(ctx: Context, vector: Vector)
    requires |vector| == Factors.NumFactors
    requires forall x: real, w: real :: ctx.combine([x], w) == x
    ensures CalcOverallScore(ctx, vector) ==
              ctx.combine(vector[0..6], 0.6) + ctx.combine(vector[6..9], 0.7) + vector[9] + vector[10]
  {
    assert vector[9..10] == [vector[9]];
    assert vector[10..11] == [vector[10]];
  }

  /** One result after `postProcess`: the score is stored in its metadata
      under `DAH_overall_score`, and every other property and every vector
      is kept. */
  function WithOverallScore(ctx: Context, result: ScoreResult): (r: ScoreResult)
    requires |result.overallVector| == Factors.NumFactors
    ensures r.overallVector == result.overallVector && r.totalImpact == result.totalImpact &&
            r.totalRelation == result.totalRelation
    ensures forall key :: Get(r.meta, key) ==
              if key == OverallScoreSlot then Some(MNumber(CalcOverallScore(ctx, result.overallVector)))
              else Get(result.meta, key)
  {
    var score := MNumber(CalcOverallScore(ctx, result.overallVector));
    assert forall key :: Get(Set(result.meta, OverallScoreSlot, score), key) ==
             if key == OverallScoreSlot then Some(score) else Get(result.meta, key) by {
      forall key
        ensures Get(Set(result.meta, OverallScoreSlot, score), key) ==
                if key == OverallScoreSlot then Some(score) else Get(result.meta, key)
      {
        SetGet(result.meta, OverallScoreSlot, score, key);
      }
    }
    result.(meta := Set(result.meta, OverallScoreSlot, score))
  }

  /** `postProcess`: every result gets its overall score under
      `DAH_overall_score`; its vectors and every other metadata property are
      left as they were. */
  function PostProcess(ctx: Context, results: map<Id, ScoreResult>): (r: map<Id, ScoreResult>)
    requires forall id :: id in results ==> |results[id].overallVector| == Factors.NumFactors
    ensures r.Keys == results.Keys
    ensures forall id :: id in r ==>
              r[id].overallVector == results[id].overallVector &&
              r[id].totalImpact == results[id].totalImpact &&
              r[id].totalRelation == results[id].totalRelation
    ensures forall id :: id in r ==>
              Get(r[id].meta, OverallScoreSlot) == Some(MNumber(CalcOverallScore(ctx, results[id].overallVector)))
    ensures forall id, key :: id in r && key != OverallScoreSlot ==> Get(r[id].meta, key) == Get(results[id].meta, key)
  {
    map id | id in results :: WithOverallScore(ctx, results[id])
  }
}

=== FILE: process.dfy ===
/** `processContext` and `processResults` of `src/process.ts`: the four
    engine phases in order (containment, impacts, relation lists, relation
    scores) and the per-entry results, whose overall vector is the impact
    score plus the relation score. */
module Process {
  import opened Wrappers
  import opened Assoc
  import opened LinAlg
  import opened EngineContext
  import opened Flatten
  import Data
  import Contain
  import opened Scores
  import opened RelationScore

  /** `processResults` for one entry as written: an entry no impact reached
      gets `newZeroVector`, whose slots are unset, so every component of its
      total impact is `undefined` and every component of its overall vector
      is `undefined + x`, which is NaN (both `None` here). */
  function ResultAsWritten(ctx: Context, impact: Option<Vector>, relation: Vector)
    : (r: (seq<Option<real>>, seq<Option<real>>))
    requires |relation| == |ctx.weights|
    requires impact.Some? ==> |impact.value| == |ctx.weights|
    ensures |r.0| == |ctx.weights| && |r.1| == |ctx.weights|
    ensures impact.Some? ==> forall i :: 0 <= i < |r.1| ==> r.1[i] == Some(impact.value[i] + relation[i])
  {
    var total := if impact.Some? then seq(|ctx.weights|, i requires 0 <= i < |ctx.weights| => Some(impact.value[i]))
                 else NewZeroVectorAsWritten(ctx);
    (total, seq(|ctx.weights|, i requires 0 <= i < |ctx.weights| =>
                  if total[i].Some? then Some(total[i].value + relation[i]) else None))
  }

  /** The defect of the code as written: with at least one factor, an entry
      no impact reaches has an overall vector of NaNs instead of its
      relation score. */
  lemma ResultAsWrittenLosesRelation(ctx: Context, relation: Vector)
    requires |relation| == |ctx.weights| >= 1
    ensures ResultAsWritten(ctx, None, relation).1[0].None?
    ensures forall i :: 0 <= i < |ctx.weights| ==> ResultAsWritten(ctx, None, relation).1[i] != Some(relation[i])
  {
  }

  /** `processResults` for one entry, with `newZeroVector` filled with zeros:
      the total impact (zeros when no impact reached the entry), the total
      relation, their sum, and empty metadata. */
  function EntryResult(ctx: Context, impact: Option<Vector>, relation: Vector): (r: Data.ScoreResult)
    requires |relation| == |ctx.weights|
    requires impact.Some? ==> |impact.value| == |ctx.weights|
    ensures impact.Some? ==> r.totalImpact == impact.value
    ensures impact.None? ==> r.totalImpact == Zeros(|ctx.weights|)
    ensures r.totalRelation == relation && r.meta == []
    ensures Add(r.totalImpact, r.totalRelation) == Ok(r.overallVector)
  {
    var total := if impact.Some? then impact.value else NewZeroVector(ctx);
    Data.ScoreResult(total, relation, Add(total, relation).value, [])
  }

  /** The corrected result keeps the relation score of an entry no impact
      reaches, and agrees with the code as written wherever an impact did. */
  lemma EntryResultCorrects(ctx: Context, impact: Option<Vector>, relation: Vector)
    requires |relation| == |ctx.weights|
    requires impact.Some? ==> |impact.value| == |ctx.weights|
    ensures impact.None? ==> EntryResult(ctx, impact, relation).overallVector == relation
    ensures forall i :: 0 <= i < |ctx.weights| && ResultAsWritten(ctx, impact, relation).1[i].Some? ==>
              ResultAsWritten(ctx, impact, relation).1[i] == Some(EntryResult(ctx, impact, relation).overallVector[i])
  {
    AddCommutesWithZero(relation, Zeros(|relation|));
  }

  /** `processResults`: one result per entry. */
  function ProcessResults(ctx: Context, ids: seq<Id>, impacts: map<Id, Vector>, relations: map<Id, Vector>)
    : (r: map<Id, Data.ScoreResult>)
    requires forall k :: k in ids ==> k in relations && |relations[k]| == |ctx.weights|
    requires forall k :: k in impacts ==> |impacts[k]| == |ctx.weights|
    ensures r.Keys == set k | k in ids
    ensures forall k :: k in r ==> r[k] == EntryResult(ctx, if k in impacts then Some(impacts[k]) else None, relations[k])
  {
    map k | k in ids :: EntryResult(ctx, if k in impacts then Some(impacts[k]) else None, relations[k])
  }

  /** The total impact an entry receives by the reference definition: the
      combine of every impact vector reaching it, zeros when none does. */
  function ImpactTotal(ctx: Context, pow: Pow, parents: map<Id, WeightMap>, impacts: seq<Data.Impact>, id: Id)
    : (r: Vector)
    ensures |r| == |ctx.weights|
  {
    var vs := ImpactVectors(ctx, pow, parents, impacts, id);
    if vs == [] then Zeros(|ctx.weights|) else CombineVectors(ctx, vs)
  }

  /** `processContext`: containment, impacts, relation lists, relation
      scores, results; the first phase that throws ends the run. */
  function ProcessContext(ctx: Context, pow: Pow, data: Data.DataSet): (r: Result<map<Id, Data.ScoreResult>, EngineError>)
    ensures Contain.SolveContainWeights(data.entries).Err? ==> r == Err(Contain.SolveContainWeights(data.entries).error)
    ensures r.Ok? ==> r.value.Keys == Keys(data.entries)
    ensures r.Ok? ==> forall id :: id in r.value ==> Add(r.value[id].totalImpact, r.value[id].totalRelation) == Ok(r.value[id].overallVector)
  {
    var solved :- Contain.SolveContainWeights(data.entries);
    ScorePhases(ctx, pow, data, solved.parents)
  }

  /** The phases of `processContext` after containment, given the solved
      parent maps. */
  function ScorePhases(ctx: Context, pow: Pow, data: Data.DataSet, parents: map<Id, WeightMap>)
    : (r: Result<map<Id, Data.ScoreResult>, EngineError>)
    ensures r.Ok? ==> r.value.Keys == Keys(data.entries)
    ensures r.Ok? ==> forall id :: id in r.value ==> Add(r.value[id].totalImpact, r.value[id].totalRelation) == Ok(r.value[id].overallVector)
  {
    var es := data.entries;
    var impactScores :- CalcImpactScore(ctx, pow, parents, data.impacts);
    var relationLists :- FillRelationReferences(parents, data.relations, map[]);
    var keys := KeyList(es);
    KeyListKeys(es);
    var relationScores :- CalcRelationScore(RelationInput(ctx, pow, keys, relationLists, impactScores));
    Ok(ProcessResults(ctx, keys, impactScores, relationScores))
  }

  /** A successful run had no containment cycle, no unknown child, no
      misfitting impact or relation, and every entry's total impact is the
      reference combine of the impact vectors reaching it. */
  lemma ProcessContextSound(ctx: Context, pow: Pow, data: Data.DataSet)
    requires ProcessContext(ctx, pow, data).Ok?
    ensures Contain.SolveContainWeights(data.entries).Ok?
    ensures (forall s :: !Contain.IsCycle(data.entries, s)) && (forall c :: !Contain.InvalidChild(data.entries, c))
    ensures var parents := Contain.SolveContainWeights(data.entries).value.parents;
            (forall k :: 0 <= k < |data.impacts| ==> ImpactFits(ctx, parents, data.impacts[k])) &&
            (forall k :: 0 <= k < |data.relations| ==> RelationFits(parents, data.relations[k]))
    ensures var parents := Contain.SolveContainWeights(data.entries).value.parents;
            var r := ProcessContext(ctx, pow, data).value;
            forall id :: id in r ==> r[id].totalImpact == ImpactTotal(ctx, pow, parents, data.impacts, id)
  {
    var es := data.entries;
    Contain.SolveContainWeightsSucceeds(es);
    var parents := Contain.SolveContainWeights(es).value.parents;
    var impactScores := CalcImpactScore(ctx, pow, parents, data.impacts).value;
    FillRelationReferencesOk(parents, data.relations, map[]);
    var relationLists := FillRelationReferences(parents, data.relations, map[]).value;
    var keys := KeyList(es);
    var relationScores := CalcRelationScore(RelationInput(ctx, pow, keys, relationLists, impactScores)).value;
    var r := ProcessContext(ctx, pow, data).value;
    assert r == ProcessResults(ctx, keys, impactScores, relationScores);
    forall id | id in r
      ensures r[id].totalImpact == ImpactTotal(ctx, pow, parents, data.impacts, id)
    {
      ImpactScoreTotal(ctx, pow, parents, data.impacts, id);
    }
  }

  /** An entry's impact score, or zeros when it has none, is its total
      impact by the reference definition. */
  lemma ImpactScoreTotal(ctx: Context, pow: Pow, parents: map<Id, WeightMap>, impacts: seq<Data.Impact>, id: Id)
    requires CalcImpactScore(ctx, pow, parents, impacts).Ok?
    ensures var s := CalcImpactScore(ctx, pow, parents, impacts).value;
            (if id in s then s[id] else Zeros(|ctx.weights|)) == ImpactTotal(ctx, pow, parents, impacts, id)
  {
  }
}

=== FILE: relation.dfy ===
/** `calcRelationScore` of `src/process.ts`: the relation score of an entry
    is the combine of one vector per relation it takes part in, each the
    weighted sum, over the relation's references, of the referenced entry's
    impact score plus (recursively) its relation score, buffed by the weight
    with which the entry is reached. The recursion is cut by a
    `ReoccurrenceStack`: an entry already on the path `maxOccurrences` times
    contributes no relations, so the recursion terminates on every input,
    cyclic relations included. */
module RelationScore {
  import opened Wrappers
  import opened LinAlg
  import opened EngineContext
  import opened Flatten
  import opened Reoccurrence
  import Data
  import opened Scores
  import CombinePP

  /** What the relation pass reads: the context, `Math.pow`, the entry ids,
      the relation lists `fillRelationReferences` built, and the impact
      scores `calcImpactScore` set. */
  datatype RelationInput = RelationInput(
    ctx: Context,
    pow: Pow,
    keys: seq<Id>,
    relations: map<Id, seq<(Data.Relation, real)>>,
    impacts: map<Id, Vector>)

  /** A vector-algebra failure thrown through the engine. */
  function Lift(r: Result<Vector, MathError>): (e: Result<Vector, EngineError>)
    ensures r.Ok? ==> e == Ok(r.value)
    ensures r.Err? ==> e == Err(MathFailure(r.error))
  {
    if r.Ok? then Ok(r.value) else Err(MathFailure(r.error))
  }

  /** A matrix that maps factor-sized vectors to factor-sized vectors. */
  predicate MatrixFits(n: nat, m: Matrix) {
    m.Scalar? || (m.Diagonal? && |m.diagonal| == n) || (m.Regular? && m.regular.numDimensions == n)
  }

  /** A reference the recursion accepts: an entry with a factor-sized impact
      score through a fitting matrix, or a null id it skips. */
  predicate RefOk(input: RelationInput, reference: (Id, Matrix)) {
    if reference.0 in input.keys then
      reference.0 in input.impacts && |input.impacts[reference.0]| == |input.ctx.weights| &&
      MatrixFits(|input.ctx.weights|, reference.1)
    else IsNullEntryId(reference.0)
  }

  predicate RefsOk(input: RelationInput, refs: seq<(Id, Matrix)>) {
    forall j :: 0 <= j < |refs| ==> RefOk(input, refs[j])
  }

  predicate RelationsOk(input: RelationInput, rels: seq<(Data.Relation, real)>) {
    forall i :: 0 <= i < |rels| ==> RefsOk(input, rels[i].0.references)
  }

  /** Every relation any entry takes part in has only acceptable references. */
  predicate WellFormed(input: RelationInput) {
    forall k :: k in input.keys ==> RelationsOk(input, ListOf(input.relations, k))
  }

  /** The errors the relation pass can throw: an unknown non-null reference,
      an entry without impact score, a dimension error; never a push/pop
      mismatch. */
  predicate ErrorSound(input: RelationInput, e: EngineError) {
    (e.EntryNotFound? && e.id !in input.keys && !IsNullEntryId(e.id)) ||
    (e.MissingImpactScore? && e.id in input.keys && e.id !in input.impacts) ||
    e.MathFailure?
  }

  /** Whether some reference names an entry (otherwise the relation yields no score). */
  predicate HasLiveRef(input: RelationInput, refs: seq<(Id, Matrix)>) {
    exists j :: 0 <= j < |refs| && refs[j].0 in input.keys
  }

  /** The number of relations that yield a score. */
  function LiveCount(input: RelationInput, rels: seq<(Data.Relation, real)>): nat {
    if rels == [] then 0
    else (if HasLiveRef(input, rels[0].0.references) then 1 else 0) + LiveCount(input, rels[1..])
  }

  /** `calcSingle(entry, stack)`: push the entry; while the bound holds,
      score each of its relations; pop it again; combine the scores. */
  function CalcSingle(input: RelationInput, id: Id, stack: Stack): (r: Result<(Vector, Stack), EngineError>)
    requires id in input.keys && Valid(stack)
    ensures r.Ok? ==> r.value.1 == stack && |r.value.0| == |input.ctx.weights|
    ensures Count(stack, id) >= stack.maxOccurrences ==> r == Ok((CombineVectors(input.ctx, []), stack))
    ensures r.Err? ==> ErrorSound(input, r.error)
    ensures WellFormed(input) ==> r.Ok?
    decreases Slack(input.keys, stack), 0, 0
  {
    var pushed := Push(stack, id);
    var scores :-
      if pushed.0 then
        PushLowersSlack(input.keys, stack, id);
        RelLoop(input, ListOf(input.relations, id), pushed.1)
      else Ok(([], pushed.1));
    PushThenPop(stack, id);
    var popped := Pop(scores.1, id).value;
    Ok((CombineVectors(input.ctx, scores.0), popped))
  }

  /** `for (const [relation, weight] of entry.relations)`: the score of each
      relation with a live reference, buffed by the reached weight. */
  function RelLoop(input: RelationInput, rels: seq<(Data.Relation, real)>, stack: Stack)
    : (r: Result<(seq<Vector>, Stack), EngineError>)
    requires Valid(stack)
    ensures r.Ok? ==> r.value.1 == stack && FactorSized(input.ctx, r.value.0)
    ensures r.Ok? ==> |r.value.0| == LiveCount(input, rels)
    ensures r.Err? ==> ErrorSound(input, r.error)
    ensures WellFormed(input) && RelationsOk(input, rels) ==> r.Ok?
    decreases Slack(input.keys, stack), 2, |rels|
  {
    if rels == [] then Ok(([], stack))
    else
      var relation := rels[0].0;
      var weight := rels[0].1;
      var summed :- RefLoop(input, relation.references, stack, None);
      var head :- BuffScore(input, weight, summed.0);
      var rest :- RelLoop(input, rels[1..], summed.1);
      Ok((head + rest.0, rest.1))
  }

  /** `relationScores.push(mul(buffWeight(context, weight), relationScore))`
      when the relation yielded a score. */
  function BuffScore(input: RelationInput, weight: real, score: Option<Vector>): (r: Result<seq<Vector>, EngineError>)
    ensures r.Ok? ==> |r.value| == (if score.Some? then 1 else 0) && FactorSized(input.ctx, r.value)
    ensures r.Err? ==> r.error.MathFailure?
    ensures score.Some? && |score.value| == |input.ctx.weights| ==> r.Ok?
  {
    match score
    case None => Ok([])
    case Some(v) =>
      BuffWeightMul(input.ctx, input.pow, weight, v);
      var m := Mul(BuffWeight(input.ctx, input.pow, weight), v);
      if m.Err? then Err(MathFailure(m.error)) else Ok([m.value])
  }

  /** `for (const [refId, refWeight] of relation.references)`: a null id is
      skipped, any other unknown id is "entry not found"; a known entry adds
      `refWeight * (impact + relation score)` to the running sum. */
  function RefLoop(input: RelationInput, refs: seq<(Id, Matrix)>, stack: Stack, acc: Option<Vector>)
    : (r: Result<(Option<Vector>, Stack), EngineError>)
    requires Valid(stack)
    ensures r.Ok? ==> r.value.1 == stack
    ensures r.Ok? ==> (r.value.0.Some? <==> acc.Some? || HasLiveRef(input, refs))
    ensures r.Ok? && r.value.0.Some? && (acc.Some? ==> |acc.value| == |input.ctx.weights|) ==>
              |r.value.0.value| == |input.ctx.weights|
    ensures r.Err? ==> ErrorSound(input, r.error)
    ensures WellFormed(input) && RefsOk(input, refs) && (acc.Some? ==> |acc.value| == |input.ctx.weights|) ==> r.Ok?
    decreases Slack(input.keys, stack), 1, |refs|
  {
    if refs == [] then Ok((acc, stack))
    else
      var refId := refs[0].0;
      var refWeight := refs[0].1;
      if refId !in input.keys then
        if IsNullEntryId(refId) then RefLoop(input, refs[1..], stack, acc)
        else Err(EntryNotFound(refId))
      else
        var sub :- CalcSingle(input, refId, stack);
        if refId !in input.impacts then Err(MissingImpactScore(refId))
        else
          var overall :- Lift(Add(input.impacts[refId], sub.0));
          var scaled :- Lift(Mul(refWeight, overall));
          var next :- if acc.None? then Ok(scaled) else Lift(Add(acc.value, scaled));
          RefLoop(input, refs[1..], sub.1, Some(next))
  }

  /** The loop over all entries, each with a fresh stack of the default bound. */
  function CalcAll(input: RelationInput, ids: seq<Id>): (r: Result<map<Id, Vector>, EngineError>)
    requires forall k :: k in ids ==> k in input.keys
    ensures r.Ok? ==> r.value.Keys == set k | k in ids
    ensures r.Ok? ==> forall k :: k in r.value ==>
              CalcSingle(input, k, NewStack(DefaultMaxOccurrences)) == Ok((r.value[k], NewStack(DefaultMaxOccurrences)))
    ensures r.Err? ==> ErrorSound(input, r.error)
    ensures WellFormed(input) ==> r.Ok?
  {
    if ids == [] then Ok(map[])
    else
      var first :- CalcSingle(input, ids[0], NewStack(DefaultMaxOccurrences));
      IdsCons(ids);
      var rest :- CalcAll(input, ids[1..]);
      Ok(rest[ids[0] := first.0])
  }

  /** The ids of a non-empty list: the first and those of the rest. */
  lemma IdsCons(ids: seq<Id>)
    requires ids != []
    ensures (set k | k in ids) == {ids[0]} + (set k | k in ids[1..])
    ensures forall k :: k in ids[1..] ==> k in ids
  {
    assert ids == [ids[0]] + ids[1..];
  }

  /** `calcRelationScore`: every entry's relation score. */
  function CalcRelationScore(input: RelationInput): (r: Result<map<Id, Vector>, EngineError>)
    ensures r.Ok? ==> r.value.Keys == set k | k in input.keys
    ensures r.Ok? ==> forall k :: k in r.value ==> |r.value[k]| == |input.ctx.weights|
    ensures r.Err? ==> ErrorSound(input, r.error)
    ensures WellFormed(input) ==> r.Ok?
  {
    CalcAll(input, input.keys)
  }

  /** With the `DAH_combine_pp` combine, an entry that takes part in no
      relation, or sits at the occurrence bound, has relation score zero. */
  lemma NoRelationsScoreZero(input: RelationInput, id: Id, stack: Stack)
    requires input.ctx.combine == CombinePP.MakeCombineFunction()
    requires id in input.keys && Valid(stack)
    requires ListOf(input.relations, id) == [] || Count(stack, id) >= stack.maxOccurrences
    ensures CalcSingle(input, id, stack) == Ok((Zeros(|input.ctx.weights|), stack))
  {
    CombineVectorsPP(input.ctx, Zeros(|input.ctx.weights|));
  }

  /** One hop, with the `DAH_combine_pp` combine: an entry whose only relation,
      reached with weight `weight`, references a single entry that itself
      takes part in no relation scores the referenced impact through the
      reference matrix, buffed by `weight`. */
  lemma SingleReference(input: RelationInput, id: Id, relation: Data.Relation, weight: real, refId: Id, m: Matrix,
                        stack: Stack)
    requires input.ctx.combine == CombinePP.MakeCombineFunction()
    requires id in input.keys && Valid(stack) && Count(stack, id) < stack.maxOccurrences
    requires ListOf(input.relations, id) == [(relation, weight)] && relation.references == [(refId, m)]
    requires refId in input.keys && ListOf(input.relations, refId) == []
    requires refId in input.impacts && |input.impacts[refId]| == |input.ctx.weights|
    requires MatrixFits(|input.ctx.weights|, m)
    ensures Mul(m, input.impacts[refId]).Ok?
    ensures CalcSingle(input, id, stack) ==
            Ok((Buffed(input.ctx, input.pow, weight, Mul(m, input.impacts[refId]).value), stack))
  {
    var pushed := Push(stack, id).1;
    var scaled := SingleRefSum(input, refId, m, pushed);
    var buffed := SingleRelationScore(input, relation, weight, pushed, scaled);
    CombineVectorsPP(input.ctx, buffed);
    PushThenPop(stack, id);
  }

  /** The sum over a single reference to an entry without relations. */
  lemma SingleRefSum(input: RelationInput, refId: Id, m: Matrix, stack: Stack) returns (scaled: Vector)
    requires input.ctx.combine == CombinePP.MakeCombineFunction()
    requires Valid(stack)
    requires refId in input.keys && ListOf(input.relations, refId) == []
    requires refId in input.impacts && |input.impacts[refId]| == |input.ctx.weights|
    requires MatrixFits(|input.ctx.weights|, m)
    ensures Mul(m, input.impacts[refId]) == Ok(scaled) && |scaled| == |input.ctx.weights|
    ensures RefLoop(input, [(refId, m)], stack, None) == Ok((Some(scaled), stack))
  {
    var impact := input.impacts[refId];
    NoRelationsScoreZero(input, refId, stack);
    AddCommutesWithZero(impact, impact);
    scaled := Mul(m, impact).value;
    assert [(refId, m)][1..] == [];
  }

  /** A relation whose references sum to `score` contributes `score` buffed by its weight. */
  lemma SingleRelationScore(input: RelationInput, relation: Data.Relation, weight: real, stack: Stack, score: Vector)
    returns (buffed: Vector)
    requires Valid(stack) && |score| == |input.ctx.weights|
    requires RefLoop(input, relation.references, stack, None) == Ok((Some(score), stack))
    ensures buffed == Buffed(input.ctx, input.pow, weight, score)
    ensures RelLoop(input, [(relation, weight)], stack) == Ok(([buffed], stack))
  {
    BuffWeightMul(input.ctx, input.pow, weight, score);
    buffed := Buffed(input.ctx, input.pow, weight, score);
    assert BuffScore(input, weight, Some(score)) == Ok([buffed]);
    var rels := [(relation, weight)];
    assert rels[0].0 == relation && rels[0].1 == weight && rels[1..] == [];
    assert RelLoop(input, rels[1..], stack) == Ok(([], stack));
    assert [buffed] + [] == [buffed];
  }
}

=== FILE: reoccurrence.dfy ===
/** `ReoccurrenceStack`, the occurrence counter that bounds the relation
    recursion of both engines (`src/process.ts` with at most 8 visits per
    entry, `src/core.ts` with 1 or 8): a map from id to the number of times
    it is currently on the recursion path. */
module Reoccurrence {
  import opened Wrappers

  /** The maximum number of occurrences and the current counts. */
  datatype Stack = Stack(maxOccurrences: nat, data: map<string, nat>)

  datatype StackError = PushPopMismatch

  /** The default bound of `src/process.ts`. */
  const DefaultMaxOccurrences := 8

  /** A fresh counter. */
  function NewStack(maxOccurrences: nat): (r: Stack)
    ensures Valid(r) && r.data == map[]
  {
    Stack(maxOccurrences, map[])
  }

  /** Every stored count is positive: `pop` deletes a key instead of storing zero. */
  predicate Valid(s: Stack) {
    forall k :: k in s.data ==> s.data[k] >= 1
  }

  /** The count of `id`, zero when absent (`data.get(obj) ?? 0`). */
  function Count(s: Stack, id: string): nat {
    if id in s.data then s.data[id] else 0
  }

  /** `push`: count one more occurrence and report whether the bound still holds. */
  function Push(s: Stack, id: string): (r: (bool, Stack))
    ensures Count(r.1, id) == Count(s, id) + 1
    ensures forall k :: k != id ==> Count(r.1, k) == Count(s, k)
    ensures r.0 <==> Count(r.1, id) <= s.maxOccurrences
    ensures r.1.maxOccurrences == s.maxOccurrences
    ensures Valid(s) ==> Valid(r.1)
  {
    var occurrences := Count(s, id) + 1;
    (occurrences <= s.maxOccurrences, s.(data := s.data[id := occurrences]))
  }

  /** `pop`: count one occurrence less, deleting the key at one; an absent
      key is the "push/pop not match" error. (`src/core.ts` tests
      `!occurrences`, which also rejects a stored zero; valid counters store
      none, so both versions agree.) */
  function Pop(s: Stack, id: string): (r: Result<Stack, StackError>)
    ensures r.Err? <==> Count(s, id) == 0
    ensures r.Ok? ==> Count(r.value, id) == Count(s, id) - 1
    ensures r.Ok? ==> forall k :: k != id ==> Count(r.value, k) == Count(s, k)
    ensures r.Ok? ==> r.value.maxOccurrences == s.maxOccurrences
    ensures r.Ok? && Valid(s) ==> Valid(r.value)
  {
    if id !in s.data || s.data[id] == 0 then Err(PushPopMismatch)
    else if s.data[id] == 1 then Ok(s.(data := s.data - {id}))
    else Ok(s.(data := s.data[id := s.data[id] - 1]))
  }

  /** A `pop` undoes the `push` of the same id exactly. */
  lemma PushThenPop(s: Stack, id: string)
    requires Valid(s)
    ensures Pop(Push(s, id).1, id) == Ok(s)
  {
    var p := Push(s, id).1;
    var r := Pop(p, id).value;
    assert r.data == s.data by {
      forall k | k in s.data
        ensures k in r.data && r.data[k] == s.data[k]
      {
        assert Count(r, k) == Count(s, k);
      }
      forall k | k in r.data
        ensures k in s.data
      {
        assert Count(r, k) == Count(s, k);
      }
    }
  }

  /** The remaining visits the bound allows, summed over `keys`: the
      termination measure of the relation recursion. */
  function Slack(keys: seq<string>, s: Stack): nat {
    if keys == [] then 0
    else
      var c := Count(s, keys[0]);
      (if c >= s.maxOccurrences then 0 else s.maxOccurrences - c) + Slack(keys[1..], s)
  }

  /** Counts that agree on `keys` give the same slack. */
  lemma {:induction false} SlackFrame(keys: seq<string>, s: Stack, t: Stack)
    requires s.maxOccurrences == t.maxOccurrences
    requires forall k :: k in keys ==> Count(s, k) == Count(t, k)
    ensures Slack(keys, s) == Slack(keys, t)
  {
    if keys != [] {
      SlackFrame(keys[1..], s, t);
    }
  }

  /** A successful `push` of one of `keys` strictly lowers the slack. */
  lemma {:induction false} PushLowersSlack(keys: seq<string>, s: Stack, id: string)
    requires id in keys
    requires Push(s, id).0
    ensures Slack(keys, Push(s, id).1) < Slack(keys, s)
  {
    var t := Push(s, id).1;
    if keys[0] == id {
      if id in keys[1..] {
        PushLowersSlack(keys[1..], s, id);
      } else {
        SlackFrame(keys[1..], s, t);
      }
    } else {
      PushLowersSlack(keys[1..], s, id);
    }
  }
}

=== FILE: scores.dfy ===
/** The score phases of `src/process.ts` before the relation recursion:
    `newZeroVector`, `combineVectors`, `buffWeight`, the distribution of
    impacts (`calcImpactScore`) and of relations (`fillRelationReferences`)
    to every entry their contributors reach through the flattened parents
    maps. */
module Scores {
  import opened Wrappers
  import opened LinAlg
  import opened Utils
  import Data
  import opened EngineContext
  import opened Flatten
  import CombinePP

  /** `Math.pow`, left uninterpreted. */
  type Pow = (real, real) -> real

  /** `newZeroVector` as written: `new Array(n)` allocates `n` unset slots
      (`None`) and never fills them. */
  function NewZeroVectorAsWritten(ctx: Context): (r: seq<Option<real>>)
    ensures |r| == |ctx.weights| && forall i :: 0 <= i < |r| ==> r[i].None?
  {
    seq(|ctx.weights|, _ => None)
  }

  /** `newZeroVector` as its name and its use in `processResults` intend:
      one zero per factor. */
  function NewZeroVector(ctx: Context): (r: Vector)
    ensures |r| == |ctx.weights| && forall i :: 0 <= i < |r| ==> r[i] == 0.0
  {
    Zeros(|ctx.weights|)
  }

  /** `vectors.map((v) => v[i])`. */
  function Column(vectors: seq<Vector>, i: nat): (r: seq<real>)
    requires forall v :: v in vectors ==> i < |v|
    ensures |r| == |vectors| && forall k :: 0 <= k < |vectors| ==> r[k] == vectors[k][i]
  {
    seq(|vectors|, k requires 0 <= k < |vectors| => vectors[k][i])
  }

  /** Every vector has one component per factor. */
  predicate FactorSized(ctx: Context, vectors: seq<Vector>) {
    forall v :: v in vectors ==> |v| == |ctx.weights|
  }

  /** `combineVectors`: component `i` is the combine of the `i`-th
      components of all vectors, with the `i`-th factor weight. */
  function CombineVectors(ctx: Context, vectors: seq<Vector>): (r: Vector)
    requires FactorSized(ctx, vectors)
    ensures |r| == |ctx.weights|
    ensures forall i :: 0 <= i < |r| ==> r[i] == ctx.combine(Column(vectors, i), ctx.weights[i])
  {
    seq(|ctx.weights|, i requires 0 <= i < |ctx.weights| => ctx.combine(Column(vectors, i), ctx.weights[i]))
  }

  /** The loop of `combineVectors`, filling the fresh vector slot by slot. */
  method CombineVectorsLoop(ctx: Context, vectors: seq<Vector>) returns (score: Vector)
    requires FactorSized(ctx, vectors)
    ensures score == CombineVectors(ctx, vectors)
  {
    var n := |ctx.weights|;
    score := NewZeroVector(ctx);
    var i := 0;
    while i < n
      invariant 0 <= i <= n && |score| == n
      invariant forall k :: 0 <= k < i ==> score[k] == ctx.combine(Column(vectors, k), ctx.weights[k])
    {
      score := score[i := ctx.combine(Column(vectors, i), ctx.weights[i])];
      i := i + 1;
    }
  }

  /** With the `DAH_combine_pp` combine, no vectors combine to zeros and a
      single vector combines to itself. */
  lemma CombineVectorsPP(ctx: Context, v: Vector)
    requires ctx.combine == CombinePP.MakeCombineFunction()
    requires |v| == |ctx.weights|
    ensures CombineVectors(ctx, []) == Zeros(|ctx.weights|)
    ensures CombineVectors(ctx, [v]) == v
  {
    var z := CombineVectors(ctx, []);
    forall i | 0 <= i < |z|
      ensures z[i] == 0.0
    {
      assert Column([], i) == [];
      assert Positives([]) == [] && NegativesAbs([]) == [];
    }
    var s := CombineVectors(ctx, [v]);
    forall i | 0 <= i < |s|
      ensures s[i] == v[i]
    {
      assert Column([v], i) == [v[i]];
      CombinePP.CombineSingle(v[i], ctx.weights[i]);
    }
  }

  /** `buffWeight`: the diagonal matrix `pow(weight, factorWeight[i])`. */
  function BuffWeight(ctx: Context, pow: Pow, weight: real): (r: Matrix)
    ensures r.Diagonal? && |r.diagonal| == |ctx.weights|
  {
    Diagonal(seq(|ctx.weights|, i requires 0 <= i < |ctx.weights| => pow(weight, ctx.weights[i])))
  }

  /** A score scaled factor by factor: `pow(weight, factorWeight[i]) * v[i]`. */
  function Buffed(ctx: Context, pow: Pow, weight: real, v: Vector): (r: Vector)
    requires |v| == |ctx.weights|
    ensures |r| == |ctx.weights|
  {
    seq(|v|, i requires 0 <= i < |v| => pow(weight, ctx.weights[i]) * v[i])
  }

  /** Applying the buff matrix scales each component by its factor's power
      of the weight, and fails exactly for a score of another length. */
  lemma BuffWeightMul(ctx: Context, pow: Pow, weight: real, v: Vector)
    ensures Mul(BuffWeight(ctx, pow, weight), v).Ok? <==> |v| == |ctx.weights|
    ensures Mul(BuffWeight(ctx, pow, weight), v).Err? ==>
              Mul(BuffWeight(ctx, pow, weight), v).error == InvalidDimensions(|ctx.weights|, |v|)
    ensures |v| == |ctx.weights| ==> Mul(BuffWeight(ctx, pow, weight), v) == Ok(Buffed(ctx, pow, weight, v))
  {
    if |v| == |ctx.weights| {
      var d := BuffWeight(ctx, pow, weight).diagonal;
      var out := Mul(BuffWeight(ctx, pow, weight), v).value;
      forall i | 0 <= i < |v|
        ensures out[i] == Buffed(ctx, pow, weight, v)[i]
      {
        assert out[i] == d[i] * v[i];
      }
      assert out == Buffed(ctx, pow, weight, v);
    }
  }

  // ------------------------------------------------------------ impacts

  /** The score vectors collected for `id`, none when absent. */
  function ListOf<T>(m: map<Id, seq<T>>, id: Id): seq<T> {
    if id in m then m[id] else []
  }

  /** One impact of `calcImpactScore`: its contributors are flattened through
      the parents maps (an unknown non-null contributor is "entry not
      found"), and every reached entry gets the impact's score multiplied by
      the buff matrix of its reached weight. */
  function AddImpact(ctx: Context, pow: Pow, parents: map<Id, WeightMap>, impact: Data.Impact, acc: map<Id, seq<Vector>>)
    : (r: Result<map<Id, seq<Vector>>, EngineError>)
  {
    var flat :- FlattenContainContribGraph(impact.contributors, parents, true);
    if flat != map[] && |impact.score| != |ctx.weights| then
      Err(MathFailure(InvalidDimensions(|ctx.weights|, |impact.score|)))
    else
      Ok(map id | id in acc.Keys + flat.Keys ::
           ListOf(acc, id) + (if id in flat then [Mul(BuffWeight(ctx, pow, flat[id]), impact.score).value] else []))
  }

  /** An impact the engine accepts: every contributor is an entry or a null
      id, and a score that reaches some entry has one component per factor. */
  predicate ImpactFits(ctx: Context, parents: map<Id, WeightMap>, impact: Data.Impact) {
    (forall i :: 0 <= i < |impact.contributors| ==> !Invalid(parents, impact.contributors[i].0)) &&
    (Reached(impact.contributors, parents) == {} || |impact.score| == |ctx.weights|)
  }

  /** The loop over `data.impacts`. */
  function DistributeImpacts(ctx: Context, pow: Pow, parents: map<Id, WeightMap>, impacts: seq<Data.Impact>,
                             acc: map<Id, seq<Vector>>)
    : (r: Result<map<Id, seq<Vector>>, EngineError>)
    decreases |impacts|
  {
    if impacts == [] then Ok(acc)
    else
      var next :- AddImpact(ctx, pow, parents, impacts[0], acc);
      DistributeImpacts(ctx, pow, parents, impacts[1..], next)
  }

  /** Reference definition: the vectors `id` receives, impact by impact in
      order: one for every impact whose contributors reach `id`, the score
      buffed by the total weight the contributors send to `id`. */
  function ImpactVectors(ctx: Context, pow: Pow, parents: map<Id, WeightMap>, impacts: seq<Data.Impact>, id: Id)
    : (r: seq<Vector>)
    ensures FactorSized(ctx, r)
  {
    if impacts == [] then []
    else ImpactVector(ctx, pow, parents, impacts[0], id) + ImpactVectors(ctx, pow, parents, impacts[1..], id)
  }

  /** The vector one impact sends to `id`, if any. */
  function ImpactVector(ctx: Context, pow: Pow, parents: map<Id, WeightMap>, im: Data.Impact, id: Id)
    : (r: seq<Vector>)
    ensures FactorSized(ctx, r)
  {
    if id in Reached(im.contributors, parents) && |im.score| == |ctx.weights|
    then [Buffed(ctx, pow, Contribution(im.contributors, parents, id), im.score)] else []
  }

  /** An impact is accepted exactly when it fits. */
  lemma AddImpactOk(ctx: Context, pow: Pow, parents: map<Id, WeightMap>, impact: Data.Impact, acc: map<Id, seq<Vector>>)
    ensures AddImpact(ctx, pow, parents, impact, acc).Ok? <==> ImpactFits(ctx, parents, impact)
    ensures AddImpact(ctx, pow, parents, impact, acc).Ok? ==>
              AddImpact(ctx, pow, parents, impact, acc).value.Keys == acc.Keys + Reached(impact.contributors, parents)
  {
    var flat := FlattenContainContribGraph(impact.contributors, parents, true);
    if flat.Ok? {
      assert flat.value.Keys == Reached(impact.contributors, parents);
    }
  }

  /** One impact appends exactly its reference vector to every entry. */
  lemma AddImpactSpec(ctx: Context, pow: Pow, parents: map<Id, WeightMap>, impact: Data.Impact,
                      acc: map<Id, seq<Vector>>, id: Id)
    requires AddImpact(ctx, pow, parents, impact, acc).Ok?
    ensures ListOf(AddImpact(ctx, pow, parents, impact, acc).value, id) ==
            ListOf(acc, id) + ImpactVector(ctx, pow, parents, impact, id)
  {
    var f := FlattenContainContribGraph(impact.contributors, parents, true).value;
    assert f.Keys == Reached(impact.contributors, parents);
    if id in f {
      BuffWeightMul(ctx, pow, f[id], impact.score);
      assert W(f, id) == f[id];
    }
  }

  /** The distribution fails exactly when some impact does not fit. */
  lemma {:induction false} DistributeImpactsOk(ctx: Context, pow: Pow, parents: map<Id, WeightMap>,
                                               impacts: seq<Data.Impact>, acc: map<Id, seq<Vector>>)
    ensures DistributeImpacts(ctx, pow, parents, impacts, acc).Ok? <==>
              forall k :: 0 <= k < |impacts| ==> ImpactFits(ctx, parents, impacts[k])
    decreases |impacts|
  {
    if impacts != [] {
      AddImpactOk(ctx, pow, parents, impacts[0], acc);
      assert forall k :: 1 <= k < |impacts| ==> impacts[k] == impacts[1..][k - 1];
      var step := AddImpact(ctx, pow, parents, impacts[0], acc);
      if step.Ok? {
        DistributeImpactsOk(ctx, pow, parents, impacts[1..], step.value);
      }
    }
  }

  /** One step of the loop over the impacts. */
  lemma DistributeImpactsStep(ctx: Context, pow: Pow, parents: map<Id, WeightMap>,
                              impacts: seq<Data.Impact>, acc: map<Id, seq<Vector>>)
    requires impacts != [] && DistributeImpacts(ctx, pow, parents, impacts, acc).Ok?
    ensures AddImpact(ctx, pow, parents, impacts[0], acc).Ok?
    ensures DistributeImpacts(ctx, pow, parents, impacts, acc) ==
            DistributeImpacts(ctx, pow, parents, impacts[1..], AddImpact(ctx, pow, parents, impacts[0], acc).value)
  {
  }

  lemma AppendAssoc<T>(a: seq<T>, b: seq<T>, c: seq<T>)
    ensures (a + b) + c == a + (b + c)
  {
  }

  /** The vectors lists grow by exactly the reference vectors. */
  lemma {:induction false} DistributeImpactsSpec(ctx: Context, pow: Pow, parents: map<Id, WeightMap>,
                                                 impacts: seq<Data.Impact>, acc: map<Id, seq<Vector>>, id: Id)
    requires DistributeImpacts(ctx, pow, parents, impacts, acc).Ok?
    ensures ListOf(DistributeImpacts(ctx, pow, parents, impacts, acc).value, id) ==
            ListOf(acc, id) + ImpactVectors(ctx, pow, parents, impacts, id)
    decreases |impacts|
  {
    if impacts != [] {
      DistributeImpactsStep(ctx, pow, parents, impacts, acc);
      AddImpactSpec(ctx, pow, parents, impacts[0], acc, id);
      var step := AddImpact(ctx, pow, parents, impacts[0], acc).value;
      DistributeImpactsSpec(ctx, pow, parents, impacts[1..], step, id);
      var head := ImpactVector(ctx, pow, parents, impacts[0], id);
      var tail := ImpactVectors(ctx, pow, parents, impacts[1..], id);
      assert ImpactVectors(ctx, pow, parents, impacts, id) == head + tail;
      AppendAssoc(ListOf(acc, id), head, tail);
    }
  }

  /** The keys of the collected lists are reached entries. */
  lemma {:induction false} DistributeImpactsKeys(ctx: Context, pow: Pow, parents: map<Id, WeightMap>,
                                                 impacts: seq<Data.Impact>, acc: map<Id, seq<Vector>>)
    requires forall k :: k in parents ==> parents[k].Keys <= parents.Keys
    requires DistributeImpacts(ctx, pow, parents, impacts, acc).Ok?
    ensures DistributeImpacts(ctx, pow, parents, impacts, acc).value.Keys <= acc.Keys + parents.Keys
    decreases |impacts|
  {
    if impacts != [] {
      AddImpactOk(ctx, pow, parents, impacts[0], acc);
      ReachedWithin(impacts[0].contributors, parents);
      var step := AddImpact(ctx, pow, parents, impacts[0], acc);
      DistributeImpactsKeys(ctx, pow, parents, impacts[1..], step.value);
    }
  }

  /** `calcImpactScore`: every entry some impact reaches gets the combine of
      its collected vectors; the others keep no impact score. */
  function CalcImpactScore(ctx: Context, pow: Pow, parents: map<Id, WeightMap>, impacts: seq<Data.Impact>)
    : (r: Result<map<Id, Vector>, EngineError>)
    ensures r.Ok? <==> forall k :: 0 <= k < |impacts| ==> ImpactFits(ctx, parents, impacts[k])
    ensures r.Ok? ==> forall id :: id in r.value <==> ImpactVectors(ctx, pow, parents, impacts, id) != []
    ensures r.Ok? ==> forall id :: id in r.value ==> r.value[id] == CombineVectors(ctx, ImpactVectors(ctx, pow, parents, impacts, id))
  {
    DistributeImpactsOk(ctx, pow, parents, impacts, map[]);
    var lists :- DistributeImpacts(ctx, pow, parents, impacts, map[]);
    CollectedLists(ctx, pow, parents, impacts);
    Ok(map id | id in lists :: CombineVectors(ctx, lists[id]))
  }

  /** The lists collected from an empty start are exactly the non-empty
      reference lists. */
  lemma CollectedLists(ctx: Context, pow: Pow, parents: map<Id, WeightMap>, impacts: seq<Data.Impact>)
    requires DistributeImpacts(ctx, pow, parents, impacts, map[]).Ok?
    ensures var lists := DistributeImpacts(ctx, pow, parents, impacts, map[]).value;
            forall id :: (id in lists <==> ImpactVectors(ctx, pow, parents, impacts, id) != []) &&
                         (id in lists ==> lists[id] == ImpactVectors(ctx, pow, parents, impacts, id))
  {
    var lists := DistributeImpacts(ctx, pow, parents, impacts, map[]).value;
    forall id
      ensures (id in lists <==> ImpactVectors(ctx, pow, parents, impacts, id) != []) &&
              (id in lists ==> lists[id] == ImpactVectors(ctx, pow, parents, impacts, id))
    {
      DistributeImpactsSpec(ctx, pow, parents, impacts, map[], id);
      if id in lists {
        ListsNonEmpty(ctx, pow, parents, impacts, map[], id);
      }
    }
  }

  /** A list is only created to receive a vector. */
  lemma {:induction false} ListsNonEmpty(ctx: Context, pow: Pow, parents: map<Id, WeightMap>, impacts: seq<Data.Impact>,
                                         acc: map<Id, seq<Vector>>, id: Id)
    requires forall k :: k in acc ==> acc[k] != []
    requires DistributeImpacts(ctx, pow, parents, impacts, acc).Ok?
    requires id in DistributeImpacts(ctx, pow, parents, impacts, acc).value
    ensures DistributeImpacts(ctx, pow, parents, impacts, acc).value[id] != []
    decreases |impacts|
  {
    if impacts != [] {
      var step := AddImpact(ctx, pow, parents, impacts[0], acc).value;
      ListsNonEmpty(ctx, pow, parents, impacts[1..], step, id);
    }
  }

  // ---------------------------------------------------------- relations

  /** One relation of `fillRelationReferences`: every entry its contributors
      reach gets the relation paired with the reached weight. */
  function AddRelation(parents: map<Id, WeightMap>, relation: Data.Relation, acc: map<Id, seq<(Data.Relation, real)>>)
    : (r: Result<map<Id, seq<(Data.Relation, real)>>, EngineError>)
  {
    var flat :- FlattenContainContribGraph(relation.contributors, parents, true);
    Ok(map id | id in acc.Keys + flat.Keys :: ListOf(acc, id) + (if id in flat then [(relation, flat[id])] else []))
  }

  /** The loop over `data.relations`. */
  function FillRelationReferences(parents: map<Id, WeightMap>, relations: seq<Data.Relation>,
                                  acc: map<Id, seq<(Data.Relation, real)>>)
    : (r: Result<map<Id, seq<(Data.Relation, real)>>, EngineError>)
    decreases |relations|
  {
    if relations == [] then Ok(acc)
    else
      var next :- AddRelation(parents, relations[0], acc);
      FillRelationReferences(parents, relations[1..], next)
  }

  /** Every contributor of a relation is an entry or a null id. */
  predicate RelationFits(parents: map<Id, WeightMap>, relation: Data.Relation) {
    forall i :: 0 <= i < |relation.contributors| ==> !Invalid(parents, relation.contributors[i].0)
  }

  /** Reference definition: the relations `id` takes part in, in order,
      each with the total weight its contributors send to `id`. */
  function RelationsReaching(parents: map<Id, WeightMap>, relations: seq<Data.Relation>, id: Id)
    : seq<(Data.Relation, real)>
  {
    if relations == [] then []
    else
      var rel := relations[0];
      (if id in Reached(rel.contributors, parents) then [(rel, Contribution(rel.contributors, parents, id))] else []) +
      RelationsReaching(parents, relations[1..], id)
  }

  /** Filling fails exactly when some relation has an unknown contributor. */
  lemma {:induction false} FillRelationReferencesOk(parents: map<Id, WeightMap>, relations: seq<Data.Relation>,
                                                    acc: map<Id, seq<(Data.Relation, real)>>)
    ensures FillRelationReferences(parents, relations, acc).Ok? <==>
              forall k :: 0 <= k < |relations| ==> RelationFits(parents, relations[k])
    decreases |relations|
  {
    if relations != [] {
      assert forall k :: 1 <= k < |relations| ==> relations[k] == relations[1..][k - 1];
      var step := AddRelation(parents, relations[0], acc);
      if step.Ok? {
        FillRelationReferencesOk(parents, relations[1..], step.value);
      }
    }
  }

  /** One relation appends itself, with the reached weight, to every entry it reaches. */
  lemma AddRelationSpec(parents: map<Id, WeightMap>, relation: Data.Relation, acc: map<Id, seq<(Data.Relation, real)>>, id: Id)
    requires AddRelation(parents, relation, acc).Ok?
    ensures ListOf(AddRelation(parents, relation, acc).value, id) ==
            ListOf(acc, id) + RelationsReaching(parents, [relation], id)
  {
    var f := FlattenContainContribGraph(relation.contributors, parents, true).value;
    if id in f {
      assert W(f, id) == f[id];
    }
    assert [relation][1..] == [];
  }

  lemma RelationsReachingCons(parents: map<Id, WeightMap>, relations: seq<Data.Relation>, id: Id)
    requires relations != []
    ensures RelationsReaching(parents, relations, id) ==
            RelationsReaching(parents, [relations[0]], id) + RelationsReaching(parents, relations[1..], id)
  {
    assert [relations[0]][1..] == [];
  }

  /** The collected relation lists grow by exactly the relations reaching
      each entry, in relation order. */
  lemma {:induction false} FillRelationReferencesSpec(parents: map<Id, WeightMap>, relations: seq<Data.Relation>,
                                                      acc: map<Id, seq<(Data.Relation, real)>>, id: Id)
    requires FillRelationReferences(parents, relations, acc).Ok?
    ensures ListOf(FillRelationReferences(parents, relations, acc).value, id) ==
            ListOf(acc, id) + RelationsReaching(parents, relations, id)
    decreases |relations|
  {
    if relations != [] {
      var step := AddRelation(parents, relations[0], acc).value;
      assert FillRelationReferences(parents, relations, acc) == FillRelationReferences(parents, relations[1..], step);
      AddRelationSpec(parents, relations[0], acc, id);
      FillRelationReferencesSpec(parents, relations[1..], step, id);
      RelationsReachingCons(parents, relations, id);
      AppendAssoc(ListOf(acc, id), RelationsReaching(parents, [relations[0]], id), RelationsReaching(parents, relations[1..], id));
    }
  }
}

=== FILE: src_factors.dfy ===
/** The older factor tables of `src/exts/DAH_factors.ts`: the same factors
    and groups without short names (Boredom and Additional are named "B"
    and "A"). */
module SrcFactors {
  import Factors

  /** A factor: name, combine weight and position in a score vector. */
  datatype Factor = Factor(name: string, factorWeight: real, factorIndex: nat)

  datatype Subscore = Subscore(subscoreWeight: real, subscoreIndex: nat, factors: seq<Factor>)

  const AU := Factor("ActivatedUnpleasant", 0.3, 0)
  const AP := Factor("ActivatedPleasant", 0.4, 1)
  const MU := Factor("ModerateUnpleasant", 0.35, 2)
  const MP := Factor("ModeratePleasant", 0.35, 3)
  const CU := Factor("CalmingUnpleasant", 0.4, 4)
  const CP := Factor("CalmingPleasant", 0.5, 5)
  const AL := Factor("Language", 0.4, 6)
  const AV := Factor("Visual", 0.1, 7)
  const AM := Factor("Music", 0.3, 8)
  const BoredomFactor := Factor("B", 0.05, 9)
  const AdditionalFactor := Factor("A", 1.0, 10)

  const Emotion := Subscore(0.6, 0, [AU, AP, MU, MP, CU, CP])
  const Art := Subscore(0.7, 1, [AL, AV, AM])
  const Boredom := Subscore(0.05, 2, [BoredomFactor])
  const Additional := Subscore(1.0, 3, [AdditionalFactor])

  /** The list `getFactorCombineWeightVector` maps over. */
  const FactorList := [AU, AP, MU, MP, CU, CP, AL, AV, AM, BoredomFactor, AdditionalFactor]

  /** `getFactorCombineWeightVector`: 11 weights, each in (0, 1], and the
      same vector as the newer `DAH_factors` tables produce. */
  function GetFactorCombineWeightVector(): (r: seq<real>)
    ensures |r| == 11
    ensures forall k :: 0 <= k < 11 ==> r[k] == FactorList[k].factorWeight && 0.0 < r[k] <= 1.0
    ensures r == Factors.GetFactorCombineWeightVector()
  {
    var r := seq(|FactorList|, k requires 0 <= k < |FactorList| => FactorList[k].factorWeight);
    assert r == Factors.GetFactorCombineWeightVector();
    r
  }

  /** The k-th factor of the list has index k, and the four groups laid end
      to end list the indices 0..10 once each. */
  lemma FactorTablesConsistent()
    ensures forall k :: 0 <= k < |FactorList| ==> FactorList[k].factorIndex == k
    ensures forall k :: 0 <= k < |FactorList| ==> FactorList[k].factorIndex == Factors.FactorScores[k].factorIndex
    ensures Indices(Emotion.factors + Art.factors + Boredom.factors + Additional.factors) == seq(11, k requires 0 <= k < 11 => k)
  {
    assert Emotion.factors + Art.factors + Boredom.factors + Additional.factors == FactorList;
    assert Indices(FactorList) == seq(11, k requires 0 <= k < 11 => k);
  }

  function Indices(fs: seq<Factor>): (r: seq<nat>)
    ensures |r| == |fs| && forall k :: 0 <= k < |fs| ==> r[k] == fs[k].factorIndex
  {
    seq(|fs|, k requires 0 <= k < |fs| => fs[k].factorIndex)
  }
}

=== FILE: src_json.dfy ===
/** The record converters of `src/exts/DAH_serialize_json.ts`: every `Map`
    of an entry, impact or relation becomes a plain JSON object with
    `Object.fromEntries` and comes back with `new Map(Object.entries(...))`;
    scores and matrices are carried as they are. */
module SrcJson {
  import opened Wrappers
  import opened Assoc
  import opened LinAlg
  import opened Data

  /** `JSONEntry`: the children as an object. */
  datatype JsonEntry = JsonEntry(id: Id, children: seq<(Id, real)>, meta: Meta)

  /** `JSONImpact`: the contributors as an object. */
  datatype JsonImpact = JsonImpact(contributors: seq<(Id, real)>, score: Vector, meta: Meta)

  /** `JSONRelation`: the contributors and references as objects. */
  datatype JsonRelation = JsonRelation(contributors: seq<(Id, real)>, references: seq<(Id, Matrix)>, meta: Meta)

  function ToJsonEntry(e: Entry): JsonEntry {
    JsonEntry(e.id, FromEntries(e.children), e.meta)
  }

  function FromJsonEntry(j: JsonEntry): Entry {
    Entry(j.id, FromEntries(j.children), j.meta)
  }

  function ToJsonImpact(i: Impact): JsonImpact {
    JsonImpact(FromEntries(i.contributors), i.score, i.meta)
  }

  function FromJsonImpact(j: JsonImpact): Impact {
    Impact(FromEntries(j.contributors), j.score, j.meta)
  }

  function ToJsonRelation(r: Relation): JsonRelation {
    JsonRelation(FromEntries(r.contributors), FromEntries(r.references), r.meta)
  }

  function FromJsonRelation(j: JsonRelation): Relation {
    Relation(FromEntries(j.contributors), FromEntries(j.references), j.meta)
  }

  /** An entry comes back with the same id, metadata and children, in the
      same order: the object the children became has their keys once each,
      so reading it back rebuilds the same `Map`. */
  lemma EntryRoundTrip(e: Entry)
    requires Distinct(e.children)
    ensures FromJsonEntry(ToJsonEntry(e)) == e
    ensures ToJsonEntry(e).id == e.id && Keys(ToJsonEntry(e).children) == Keys(e.children)
  {
  }

  /** An impact comes back with the same contributors, score and metadata. */
  lemma ImpactRoundTrip(i: Impact)
    requires Distinct(i.contributors)
    ensures FromJsonImpact(ToJsonImpact(i)) == i
  {
  }

  /** A relation comes back with the same contributors, references and
      metadata. */
  lemma RelationRoundTrip(r: Relation)
    requires Distinct(r.contributors) && Distinct(r.references)
    ensures FromJsonRelation(ToJsonRelation(r)) == r
  {
  }

  /** The `entries` object `serialize` writes: `entries[id] = toJSONEntry(entry)`
      for every pair of the entries `Map`, in order. */
  function EntriesObject(entries: seq<(Id, Entry)>): (r: seq<(Id, JsonEntry)>)
    ensures Keys(r) == Keys(entries) && Distinct(r)
    ensures Distinct(entries) ==> |r| == |entries|
    ensures Distinct(entries) ==> forall k :: 0 <= k < |entries| ==> r[k] == (entries[k].0, ToJsonEntry(entries[k].1))
  {
    MapValuesGet(entries, ToJsonEntry, "");
    FromEntries(MapValues(entries, ToJsonEntry))
  }

  /** Each entry id of the `Map` looks up its converted entry in the object. */
  lemma EntriesObjectGet(entries: seq<(Id, Entry)>, id: Id)
    requires Distinct(entries)
    ensures Get(EntriesObject(entries), id) == if id in Keys(entries) then Some(ToJsonEntry(Get(entries, id).value)) else None
  {
    var r := EntriesObject(entries);
    KeysMembership(entries, id);
    if id in Keys(entries) {
      var i :| 0 <= i < |entries| && entries[i].0 == id;
      GetDistinct(entries, i);
      GetDistinct(r, i);
    }
  }
}

=== FILE: utils.dfy ===
/** The helpers of `src/utils.ts`: the sign-splitting combine wrapper (the
    same wrapper as `makeSignedCombine` of `src/core.ts`), `assert` and
    `ifDefined`. */
module Utils {
  import opened Wrappers

  /** A combine function: folds a list of per-factor scores into one number,
      given the factor's weight. */
  type CombineFunction = (seq<real>, real) -> real

  /** `arr.filter((x) => x > 0)`. */
  function Positives(a: seq<real>): (r: seq<real>)
    ensures |r| <= |a|
    ensures forall x :: x in r <==> x in a && x > 0.0
  {
    if a == [] then []
    else if a[0] > 0.0 then [a[0]] + Positives(a[1..])
    else
      assert forall x :: x in a[1..] ==> x in a;
      Positives(a[1..])
  }

  /** `arr.filter((x) => x < 0).map((x) => -x)`. */
  function NegativesAbs(a: seq<real>): (r: seq<real>)
    ensures |r| <= |a|
    ensures forall x :: x in r <==> -x in a && x > 0.0
  {
    if a == [] then []
    else if a[0] < 0.0 then
      assert forall x :: x in a[1..] ==> x in a;
      [-a[0]] + NegativesAbs(a[1..])
    else
      assert forall x :: x in a[1..] ==> x in a;
      NegativesAbs(a[1..])
  }

  /** `makeCombineSigned(u)(arr, factor)`: the unsigned combine of the
      positive scores minus the unsigned combine of the magnitudes of the
      negative ones, each list in its original order. */
  function Signed(u: CombineFunction, a: seq<real>, factor: real): real
  {
    u(Positives(a), factor) - u(NegativesAbs(a), factor)
  }

  /** Component-wise negation. */
  function Negate(a: seq<real>): (r: seq<real>)
    ensures |r| == |a| && forall i :: 0 <= i < |a| ==> r[i] == -a[i]
  {
    seq(|a|, i requires 0 <= i < |a| => -a[i])
  }

  lemma {:induction false} SplitAppend(a: seq<real>, b: seq<real>)
    ensures Positives(a + b) == Positives(a) + Positives(b)
    ensures NegativesAbs(a + b) == NegativesAbs(a) + NegativesAbs(b)
  {
    if a != [] {
      var ab := a + b;
      assert ab != [] && ab[0] == a[0] && ab[1..] == a[1..] + b;
      SplitAppend(a[1..], b);
      var p, n := Positives(a[1..]), NegativesAbs(a[1..]);
      if a[0] > 0.0 {
        assert Positives(ab) == [a[0]] + (p + Positives(b));
        assert Positives(a) == [a[0]] + p;
        assert NegativesAbs(ab) == n + NegativesAbs(b);
        assert NegativesAbs(a) == n;
      } else if a[0] < 0.0 {
        assert NegativesAbs(ab) == [-a[0]] + (n + NegativesAbs(b));
        assert NegativesAbs(a) == [-a[0]] + n;
        assert Positives(ab) == p + Positives(b);
        assert Positives(a) == p;
      } else {
        assert Positives(ab) == p + Positives(b);
        assert Positives(a) == p;
        assert NegativesAbs(ab) == n + NegativesAbs(b);
        assert NegativesAbs(a) == n;
      }
    } else {
      assert a + b == b;
    }
  }

  /** Zero scores never reach the unsigned function: inserting a zero
      anywhere leaves the signed combine unchanged. */
  lemma SignedIgnoresZero(u: CombineFunction, a: seq<real>, b: seq<real>, factor: real)
    ensures Signed(u, a + [0.0] + b, factor) == Signed(u, a + b, factor)
  {
    SplitAppend(a + [0.0], b);
    SplitAppend(a, [0.0]);
    SplitAppend(a, b);
    assert [0.0][1..] == [];
    assert Positives([0.0]) == [] && NegativesAbs([0.0]) == [];
    assert Positives(a + [0.0]) == Positives(a);
    assert NegativesAbs(a + [0.0]) == NegativesAbs(a);
  }

  lemma {:induction false} NegateSwapsSigns(a: seq<real>)
    ensures Positives(Negate(a)) == NegativesAbs(a)
    ensures NegativesAbs(Negate(a)) == Positives(a)
  {
    if a != [] {
      assert Negate(a)[1..] == Negate(a[1..]);
      NegateSwapsSigns(a[1..]);
    }
  }

  /** Antisymmetry: negating every score negates the signed combine. */
  lemma SignedAntisymmetric(u: CombineFunction, a: seq<real>, factor: real)
    ensures Signed(u, Negate(a), factor) == -Signed(u, a, factor)
  {
    NegateSwapsSigns(a);
  }

  lemma {:induction false} PositivesOfPositive(a: seq<real>)
    requires forall i :: 0 <= i < |a| ==> a[i] > 0.0
    ensures Positives(a) == a && NegativesAbs(a) == []
  {
    if a != [] {
      PositivesOfPositive(a[1..]);
    }
  }

  /** On strictly positive scores the signed combine is the unsigned one
      minus the unsigned combine of the empty list. */
  lemma SignedAllPositive(u: CombineFunction, a: seq<real>, factor: real)
    requires forall i :: 0 <= i < |a| ==> a[i] > 0.0
    ensures Signed(u, a, factor) == u(a, factor) - u([], factor)
  {
    PositivesOfPositive(a);
  }

  /** `assert(cond, msg)`: throws exactly when `cond` is false, with `msg`
      as message unless it is missing or empty (JavaScript's `||` treats the
      empty string as false), in which case the message is "Assertion failed". */
  function Assert(cond: bool, msg: Option<string>): (r: Result<(), string>)
    ensures r.Ok? <==> cond
    ensures r.Err? ==> r.error != []
    ensures r.Err? && msg.Some? && msg.value != [] ==> r.error == msg.value
    ensures r.Err? && (msg.None? || msg.value == []) ==> r.error == "Assertion failed"
  {
    if cond then Ok(())
    else if msg.Some? && msg.value != [] then Err(msg.value)
    else Err("Assertion failed")
  }

  /** `ifDefined(obj, callback)`: `undefined` passes through, anything else
      goes through the callback. */
  function IfDefined<T, R>(obj: Option<T>, callback: T -> R): (r: Option<R>)
    ensures r.None? <==> obj.None?
    ensures r.Some? ==> r.value == callback(obj.value)
  {
    match obj
    case None => None
    case Some(v) => Some(callback(v))
  }
}

=== FILE: wrappers.dfy ===
/** Failure-compatible wrappers shared by every module of the model:
    `Option` for JavaScript's `undefined`, `Result` for a value or a thrown error. */
module Wrappers {

  datatype Option<+T> = None | Some(value: T) {
    predicate IsFailure() {
      None?
    }

    function PropagateFailure<U>(): Option<U>
      requires None?
    {
      None
    }

    function Extract(): T
      requires Some?
    {
      value
    }

    function GetOr(default: T): T {
      match this
      case Some(v) => v
      case None => default
    }
  }

  datatype Result<+T, +E> = Ok(value: T) | Err(error: E) {
    predicate IsFailure() {
      Err?
    }

    function PropagateFailure<U>(): Result<U, E>
      requires Err?
    {
      Err(error)
    }

    function Extract(): T
      requires Ok?
    {
      value
    }
  }
}
